=== FILE: README.md ===
# Delimited-text parsing, ingestion and GBIF-to-VAL column mapping

This project models the data-handling core of a Node.js toolkit that loads
GBIF (Global Biodiversity Information Facility) taxon data into the VAL
species tables of a PostgreSQL database. Every part is modelled as pure
Dafny functions, with lemmas that state what those functions promise.

- **The delimited-text tokenizer.** `csvLineTo1DArray` and `csvTextTo2DArray` are character-by-character state
  machines that track an "outside quotes" flag `s` and the previous character `p`. They split a line or a
  whole buffer into fields and normalise each closed field.
- **The ingestion folds.** The bulk reader `csvFileTo2DArray` and the streaming reader `csvFileLineByLine`
  take the file's lines one at a time. The first line becomes the header, and every later line becomes
  a record keyed by the header. A field-count mismatch aborts the run. `csvFileTo2DObject` is a wrapper
  over the bulk reader, and `csvLineToObject` converts a single line.
- **The SQL clause builders.** `parseColumns` builds the `"a","b"` / `$1,$2` / values triple of an INSERT or
  UPDATE. Array-typed columns (type 1015) are turned into `{"x","y"}` literals. `whereClause` builds a
  `where` clause with numbered placeholders, `IN`-style lists and pass-through logical operators.
- **The GBIF-to-VAL mapping.** It covers:
  - the blank VAL row;
  - the two mappers: species-endpoint records and occurrence species-list rows;
  - the parent key taken from the taxonomic tree keys;
  - the split of a scientific name into canonical name and author.
- **The utilities.** `addTaxonRank` derives a rank from a canonical name's token count. `jsonToString`
  flattens an object into delimited column and value lists.

Modules:

| module | file | contents |
|---|---|---|
| `Wrappers` | wrappers.dfy | `Option` and `Result` |
| `Text` | text.dfy | JavaScript string behaviour: the `\s` class, whitespace collapse, trim, `split`/`join`, integer printing, ASCII lower-casing |
| `Js` | js.dfy | JavaScript values, truthiness, and insertion-ordered objects with assignment (`o[k] = v`) |
| `CsvTokenizer` | csv_tokenizer.dfy | the line tokenizer |
| `CsvText` | csv_text.dfy | the buffer tokenizer |
| `CsvIngest` | csv_ingest.dfy | line-to-object, the bulk and streaming folds, the wrapper |
| `SqlClauses` | sql_clauses.dfy | `parseColumns`, `whereClause` |
| `GbifToVal` | gbif_to_val.dfy | the VAL row and the GBIF mappers |
| `Utilities` | utilities.dfy | `addTaxonRank`, `jsonToString` |

How the source's effects appear in the model:
- **Files are lists of lines.** A file is the list of lines the readline interface would deliver.
- **Exceptions are values.** A thrown exception becomes a `Failure` value that carries the message's numbers.
- **The streaming callback becomes an event list.** The callback of the streaming reader is modelled as
  the list of `(row, index)` events it would receive.
- **The VAL row is a record.** It is a datatype with one field per column of `initValObject`, so both mappers produce exactly that column set in that order by construction.
- **Module-level caches are parameters.** The table-column and table-type caches used by the SQL builders
  are passed in as maps.

## Model

| member | source | states |
|---|---|---|
| `CsvTokenizer.CsvLineTo1DArray` | 99_parse_csv_to_array.js:168-196 | the tokenizer always returns at least one field, even for empty text |
| `CsvTokenizer.ScanLine` | 99_parse_csv_to_array.js:168-196 | the imperative character loop, which stops at the first unquoted line feed, computes exactly the tokenizer's row |
| `CsvTokenizer.TestOrderIrrelevant` | 99_parse_csv_to_array.js:171-188 | when the delimiter is not `"`, testing the quote before the delimiter (the older order) gives the same step |
| `CsvTokenizer.TestOrderMattersForQuoteDelimiter` | 99_parse_csv_to_array.js:171-188 | with `"` as the delimiter, the two test orders differ: the current order closes a field, the older one opens a quote |
| `CsvTokenizer.PlainLineIsSplit` | 99_parse_csv_to_array.js:172-177 | a line without quotes or line feeds is its split at the delimiter; every field but the last is normalised, and the last is returned raw |
| `CsvTokenizer.PlainLineFieldCount` | 99_parse_csv_to_array.js:172-177 | a quote-free line has one field more than it has delimiters |
| `CsvTokenizer.PlainRoundTrip` | 99_parse_csv_to_array.js:168-196 | joining already-normalised quote-free fields with the delimiter and tokenizing gives the fields back |
| `CsvTokenizer.EncodeRoundTrip` | 99_parse_csv_to_array.js:186-189 | fields quoted where needed (inner quotes doubled) and joined tokenize back to the fields; the delimiter is verbatim inside quotes and `""` is one quote |
| `CsvTokenizer.TidyRoundTrip` | 99_parse_csv_to_array.js:172-177 | tidy fields (single spaces, no edge spaces, printable when filtering) survive join-then-tokenize unchanged |
| `CsvTokenizer.RetokenizeRow` | 99_parse_csv_to_array.js:168-196 | tokenizing a row re-joined from its own quote-free fields reproduces the row |
| `CsvTokenizer.QuoteParity` | 99_parse_csv_to_array.js:186-189 | after any prefix without a stop, the "outside quotes" flag is its start value exactly when the prefix holds an even number of quotes |
| `CsvTokenizer.OddQuotesNoSplit` | 99_parse_csv_to_array.js:172-188 | after an odd number of quotes, a quote-free rest is appended to the last field verbatim: delimiters no longer split |
| `CsvTokenizer.LineFeedEndsLine` | 99_parse_csv_to_array.js:179-183 | an unquoted line feed ends the line: the last field is normalised and everything after it is ignored |
| `CsvTokenizer.ClosedFieldsTidy` | 99_parse_csv_to_array.js:173-176 | without the ASCII filter, every field closed by a delimiter is whitespace-collapsed and trimmed |
| `CsvTokenizer.UnmatchedQuoteTakesRest` | 99_parse_csv_to_array.js:172-188 | `a,"b,c`: a field opened by an unmatched quote after a delimiter swallows the rest of the line, so `a,"b,c` gives two fields |
| `CsvTokenizer.OpenQuoteAfterDelim` | 99_parse_csv_to_array.js:172-188 | after any prefix that ends outside quotes, a delimiter and an unmatched quote add exactly one field holding the rest |
| `CsvTokenizer.QuotedQuotesExample` | 99_parse_csv_to_array.js:186-189 | `"He said ""hi"""` reads as the single field `He said "hi"` |
| `CsvTokenizer.SixQuotesClearedExample` | 99_parse_csv_to_array.js:173 | a field whose raw text is `""`, which only six quotes produce, is emptied when the delimiter closes it: `"""""",x` reads as `["", "x"]` |
| `CsvTokenizer.LastFieldRawExample` | 99_parse_csv_to_array.js:172-195 | `a , b ` reads as `["a", " b "]`: the closed field is trimmed, the last one is not |
| `CsvText.CsvTextTo2DArray` | 99_parse_csv_to_array.js:198-221 | the buffer tokenizer returns at least one row and never an empty row |
| `CsvText.ScanText` | 99_parse_csv_to_array.js:198-221 | the imperative loop over the buffer computes exactly the buffer tokenizer's rows |
| `CsvText.RowCount` | 99_parse_csv_to_array.js:206-211 | the row count is one plus the number of line feeds met outside quotes |
| `CsvText.QuoteFreeRowCount` | 99_parse_csv_to_array.js:206-211 | a quote-free buffer has one row more than it has line feeds |
| `CsvText.QuotedFieldOneRow` | 99_parse_csv_to_array.js:213-216 | a single quoted field, line feeds and delimiters included, reads back as one row holding that field |
| `CsvText.PlainLinesRows` | 99_parse_csv_to_array.js:201-212 | quote-free lines joined by line feeds read back line by line. In rows ended by a line feed, the trailing CR is dropped and the last field is trimmed; the fields before it are collapsed but not trimmed. The final row stays open |
| `CsvIngest.CsvLineToObject` | 99_parse_csv_to_array.js:146-166 | fails exactly when line and header differ in field count, with the ReferenceError raised by the undefined `idx`; otherwise returns the fields, the header-keyed object and the delimiter-joined line |
| `CsvIngest.RowObjectDistinct` | 99_parse_csv_to_array.js:157-158 | with distinct header names, the record's keys are the header in order and each maps to its field |
| `CsvIngest.RowObjectLookup` | 99_parse_csv_to_array.js:157-158 | for repeated header names the last field wins; names outside the header are absent |
| `CsvIngest.RebuiltLine` | 99_parse_csv_to_array.js:159-164 | appending a delimiter after each field and slicing off the last character is the plain join |
| `CsvIngest.LineObjectIdempotent` | 99_parse_csv_to_array.js:146-166 | feeding the rebuilt text line back in gives the same result |
| `CsvIngest.BulkHeaderMode` | 99_parse_csv_to_array.js:42-58 | with a header, the bulk read succeeds exactly when every line from the third on matches the header's field count. The rows are the header-keyed records of the later lines, `rowCount` leaves out the header, and a failure names the first bad line |
| `CsvIngest.BulkNoHeaderMode` | 99_parse_csv_to_array.js:55-57 | without a header, every line's fields are kept as a row and all lines are counted |
| `CsvIngest.CsvFileTo2DObject` | 99_parse_csv_to_array.js:19-21 | always reads with a header, whatever `headRow` says: no lines give no rows; otherwise it succeeds exactly when every line from the third on has the header's field count, with one object per data line and the header uncounted, and it fails naming the first mismatched line's field count, its data-row number and the header's count |
| `CsvIngest.StreamHeaderMode` | 99_parse_csv_to_array.js:100-118 | with a header, streaming succeeds exactly when every later line matches the header. The header is the event at index 0 and the records follow, `rowCount` includes the header, and on failure the events stop before the bad line |
| `CsvIngest.StreamNoHeaderMode` | 99_parse_csv_to_array.js:115-117 | without a header, every line's fields are delivered in order with indices 0, 1, ... |
| `CsvIngest.StreamIndices` | 99_parse_csv_to_array.js:109-116 | event k always carries index k, and a run that does not halt delivers one event per line |
| `CsvIngest.StreamSuccessImpliesBulk` | 99_parse_csv_to_array.js:124-127 | when streaming succeeds, bulk succeeds with the same header and the same records; its `rowCount` is one less |
| `CsvIngest.FirstDataRowUnchecked` | 99_parse_csv_to_array.js:45-54 | a first data line of the wrong width passes the bulk reader, because its `idx` is still 0, but stops the streaming reader |
| `Js.Put` | 99_parse_csv_to_array.js:52 | object assignment sets that key and leaves every other key unchanged |
| `Js.PutKeys` | 99_parse_csv_to_array.js:52 | assigning a new key appends it to the key order, and re-assigning an existing key keeps the order |
| `Js.BuildLookup` | 99_parse_csv_to_array.js:157-158 | an object built by assigning pairs in order maps each key to the value of its last occurrence |
| `Js.BuildKeys` | 99_parse_csv_to_array.js:157-158 | such an object lists its keys in order of first occurrence |
| `Js.BuildDistinct` | 99_parse_csv_to_array.js:157-158 | with distinct keys, the built object has exactly those keys in order, each with its own value |
| `SqlClauses.CachedColumnsStandIn` | db_pg_util.js:207-208 | with no column list given, the named table's cached list gives the same result as passing that list; an uncached table or no table name gives an empty list, so no property is accepted and `cValues` comes back unchanged |
| `SqlClauses.ColumnValueReadsBack` | db_pg_util.js:213-224 | the array literal pushed for a truthy string in an array column reads back, element by element, to the string's comma-separated pieces, whose comma-join is the string; a value of another column is pushed unchanged |
| `SqlClauses.ArrayLiteralRoundTrip` | db_pg_util.js:215-221 | stripping the braces of the array literal, splitting at commas and unquoting each element gives the input's comma-separated pieces back |
| `SqlClauses.ArrayLiteralPieces` | db_pg_util.js:215-221 | the array literal quotes each comma-separated piece, the pieces rejoin to the input, and there is one piece per comma plus one |
| `SqlClauses.ParseColumns` | db_pg_util.js:201-237 | only body keys listed as columns are used. It fails exactly when one of them is an array column with a non-string truthy value; otherwise it gives the quoted names and `$idx...` placeholders in body order, with each value appended after `cValues` |
| `SqlClauses.ParseColumnsEmpty` | db_pg_util.js:210-236 | an empty body gives empty names, empty placeholders and `cValues` unchanged |
| `SqlClauses.UnknownKeyIgnored` | db_pg_util.js:212-229 | inserting a key that is not a column anywhere in the body changes nothing |
| `SqlClauses.KeyWithoutOperator` | db_pg_util.js:137-139 | a key without a vertical bar is its own column with operator `=` |
| `SqlClauses.KeyWithOperator` | db_pg_util.js:137-140 | a key of column, vertical bar, operator splits into the two; an empty operator means `=` and `!` means `!=` |
| `SqlClauses.WhereClause` | db_pg_util.js:126-176 | the clause is empty exactly when no key is an accepted column or a `logical` key, and it otherwise starts with `where` |
| `SqlClauses.WhereClauseSpec` | db_pg_util.js:126-176 | the clause is `where` followed by one condition per accepted key, in order. The values are the bound parameters, the placeholders count up from `$1`, and without table-qualified columns there is one value per placeholder |
| `SqlClauses.ConditionsEmpty` | db_pg_util.js:141-142 | there are no conditions exactly when no key is accepted |
| `SqlClauses.NumbersConsecutive` | db_pg_util.js:154-169 | the placeholder numbers across the whole clause are 1, 2, 3, ... with no gap or repeat |
| `SqlClauses.OneValuePerPlaceholder` | db_pg_util.js:143-169 | when no accepted column is table-qualified, the number of placeholders equals the number of values |
| `SqlClauses.ListPlaceholdersIsJoin` | db_pg_util.js:157-164 | an array parameter renders as the comma-joined consecutive placeholders |
| `GbifToVal.GetParentKeyFromTreeKeys` | 98_gbif_to_val_columns.js:319-338 | with no rank (from `rank`, else `taxonRank`), or a rank outside the table, there is no parent key |
| `GbifToVal.ParentKeyByRank` | 98_gbif_to_val_columns.js:324-335 | the parent of phylum through species is the key of the next higher rank. A kingdom is its own parent, and subspecies and variety take the species key |
| `GbifToVal.NoParentOutsideTable` | 98_gbif_to_val_columns.js:325-337 | any other rank, including `form`, has a null parent |
| `GbifToVal.ParentIsNextHigherRank` | 98_gbif_to_val_columns.js:326-334 | the rank table follows the kingdom-to-species order of the tree keys |
| `GbifToVal.Tokens` | 98_gbif_to_val_columns.js:356-361 | the tokens of a name, joined by single spaces, give the name with each pair of spaces collapsed to one |
| `GbifToVal.ParseCanonAuthor` | 98_gbif_to_val_columns.js:354-409 | there is an author exactly when tokens remain after the canonical part, and it is those tokens joined by spaces |
| `GbifToVal.AuthorLoopIsJoin` | 98_gbif_to_val_columns.js:370-373 | the author-accumulating loop yields the space-join of the tokens it visits |
| `GbifToVal.ParseSpecies` | 98_gbif_to_val_columns.js:368-374 | for a species, the canonical name is the first two tokens; canon plus author rebuilds the name |
| `GbifToVal.ParseInfraspecificUnmarked` | 98_gbif_to_val_columns.js:388-394 | for subspecies, variety or form without a marker, the canonical name is the first three tokens; canon plus author rebuilds the name |
| `GbifToVal.ParseInfraspecificMarked` | 98_gbif_to_val_columns.js:378-387 | with `subsp.`, `var.` or `f.` as third token, the marker is dropped from the canonical name, and the author starts at the fifth token |
| `GbifToVal.ParseOtherRank` | 98_gbif_to_val_columns.js:399-405 | for any other rank, the canonical name is the first token and the rest is the author |
| `GbifToVal.ParseIgnoresCase` | 98_gbif_to_val_columns.js:367 | the rank is compared case-insensitively |
| `GbifToVal.SplitRebuildsName` | 98_gbif_to_val_columns.js:361-406 | outside the infraspecific ranks, canonical name and author together rebuild the space-collapsed name |
| `GbifToVal.InitValObject` | 98_gbif_to_val_columns.js:11-27 | the blank VAL row has all 36 columns of the template, every one set to the empty string |
| `GbifToVal.BlankRowIsTemplate` | 98_gbif_to_val_columns.js:11-27 | a row is the template exactly when every one of its 36 columns is blank |
| `GbifToVal.PutTaxa` | 98_gbif_to_val_columns.js:127-143 | vernacular name, remarks, and the kingdom-to-species names and keys are copied when truthy and nulled otherwise; no other column changes |
| `GbifToVal.EpithetsByRank` | 98_gbif_to_val_columns.js:108-115 | the species epithet is the second token for a species and null otherwise. The infraspecific epithet is the third token for subspecies, variety or form, and null otherwise. Without a canonical name, neither changes |
| `GbifToVal.GbifToValDirect` | 98_gbif_to_val_columns.js:104-146 | the species-endpoint mapper: ids from `key`, and the name preferring the canonical name. The accepted key and name and the parent key are copied when truthy and otherwise fall back to the record's key, its scientific name and the tree-key lookup. Rank and status are lower-cased, the code is `GBIF`, and the dataset columns stay blank |
| `GbifToVal.ParentKeySkipsRankLookup` | 98_gbif_to_val_columns.js:124 | a record with a truthy parent key never reaches the tree-key lookup, so `{taxonRank: 5, parentKey: 7}` is accepted, with parent 7 |
| `GbifToVal.OccRecord` | 98_gbif_to_val_columns.js:183-185 | the occurrence row gains the parsed canonical name and author, and every other field is unchanged |
| `GbifToVal.GbifOccSpeciesToValDirect` | 98_gbif_to_val_columns.js:179-216 | the occurrence mapper: ids from `taxonKey`, the name from the parsed canonical name, and the author from the parse (an empty author becomes null). The accepted key and name and the parent key fall back as in the species-endpoint mapper, and the epithets stay blank |
| `GbifToVal.OccRowRebuildsName` | 98_gbif_to_val_columns.js:183-196 | for non-infraspecific rows, the written name and authorship rebuild the space-collapsed scientific name |
| `Utilities.AddTaxonRank` | 97_utilities.js:50-80 | only `taxonRank` is written, to the name of the returned rank; every other key keeps its value |
| `Utilities.RankTellsTokenCount` | 97_utilities.js:56-79 | a rank other than `error` means the canonical name has that rank's token count. `error` means a count outside 1..3 or a non-string name or kingdom, and `variety` means three tokens in kingdom Plantae |
| `Utilities.CountTellsRank` | 97_utilities.js:58-73 | rank selection from a token count: 1 is genus, 2 is species, and 3 is variety in Plantae and subspecies elsewhere |
| `Utilities.KingdomIgnoresCase` | 97_utilities.js:60 | the kingdom comparison ignores case |
| `Utilities.QuoteUnlessQuoted` | 97_utilities.js:31-36 | a value already starting or ending in `"` is kept, and any other value is wrapped in quotes |
| `Utilities.Cells` | 97_utilities.js:29-37 | one cell per key in key order; flattening fails exactly when a value is modelled as `Opaque` |
| `Utilities.JsonToString` | 97_utilities.js:23-48 | the result is null exactly when a value is modelled as `Opaque`; the column list is each key followed by the delimiter, with one leading and one trailing comma removed, whatever the delimiter |
| `Utilities.CommaListsAreJoins` | 97_utilities.js:37-41 | with the comma delimiter and no leading comma, values and columns are the comma-joins of the cells and keys |
| `Utilities.OtherDelimiterKeepsTrailing` | 97_utilities.js:37-41 | with any delimiter not ending in a comma, the trailing delimiter is left on the values |
| `Utilities.LeadingEmptyValueDropped` | 97_utilities.js:30-40 | `{a: null, b: true}` flattens to values `true` against columns `a,b` |
| `Utilities.KeepingLeadingListsAreJoins` | 97_utilities.js:37-41 | the corrected flattening keeps one value per column: values and columns are the comma-joins of the cells and keys |
| `Utilities.LeadingEmptyValueKept` | 97_utilities.js:30-40 | the corrected flattening gives `,true` against `a,b` for `{a: null, b: true}` |

## Left out

- File opening, the readline stream, `await once(rl, 'close')` and console logging are not modelled. A file is the list of lines the reader would deliver, and the streaming callback is the list of events it would receive.
- Places where the code and the promised behaviour differ; the model follows the code:
  - `a,"b,c` gives two fields, not three.
  - The streaming `rowCount` counts the header line and the bulk one does not.
  - The bulk reader never checks the first data line, because `idx` is still 0 when it is read.
  - The last field of a line without a line feed is not normalised.
  - With the ASCII filter, normalisation is not idempotent, because removing a character can join two spaces.
- `csvLineToObject`'s error path throws a ReferenceError (`idx` is undefined there). It is modelled as a failure value `ReferenceError("idx")`, not a message string.
- JavaScript object key order puts integer-like keys first. `__proto__` and prototype keys are also special. Objects here are insertion-ordered lists of string keys with none of those rules.
- `toLowerCase` is modelled as ASCII lower-casing; Unicode case mapping is not modelled.
- `original_csvTextTo2DArray` is an unused earlier copy of the buffer tokenizer. It is not part of this model.
- `addCanonicalName`, `parseCanonicalName`, `gbifToValSpecies` and `gbifToValIngest` are not part of this model.
- Utilities.AddTaxonRank: requires a truthy `canonicalName`, because the call to `addCanonicalName` that fills a missing one is not part of this model.
- `whereClause` accepts `staticTypes` but never reads them, so the model has no such parameter.
- The `tableColumns`/`tableTypes` module caches are filled at server start-up from the database. They are parameters here.
- Calling `.toLowerCase()` or `.split()` on a non-string throws a TypeError, which the GBIF mappers do not catch. The mappers' preconditions (`DirectInput`, `OccInput`, `TextWhenTruthy`) exclude exactly the inputs on which such a call is reached, instead of modelling the exception. The rank is lower-cased for the parent lookup only when the record has no truthy `parentKey`, so only then must it be a string.
- Values are null, undefined, booleans, integers and strings; every object value, arrays and Dates included, is one `Opaque` value. Floating-point numbers are not modelled, and integers print in plain decimal. Query parameters are the one place arrays appear: a `whereClause` parameter is one string or the list of strings Express builds for a repeated key.
- Utilities.Cells: an `Opaque` value always makes the flattening throw. That holds for plain objects, but `isNaN` coerces arrays such as `[]` or `[7]` and Dates to numbers, so the source writes them as text (`{a: [], b: 1}` flattens to values `1` and columns `a,b`, not to the catch's nulls). Arrays and Dates are modelled as throwing.
- `isNaN` in `jsonToString` is a parameter `numeric`, because JavaScript's numeric coercion of strings is not modelled.
- The tokenizer lemmas require a delimiter other than `"` (and other than a line feed where rows are concerned). The tokenizer functions themselves accept any delimiter, and `TestOrderMattersForQuoteDelimiter` shows what happens with `"`.
- `parseColumns` mutates the caller's `cValues` array; the model returns the extended list on success. When it throws on a truthy non-string value of an array column, the values already pushed for earlier keys stay in the caller's array, and the model's `Failure(NotSplittable(..))` does not carry them.
- CsvIngest.CsvFileTo2DArray and CsvIngest.CsvFileLineByLine: the field-count error is thrown inside the readline `line` listener, after the function has suspended at `await once(rl, 'close')`. The surrounding try/catch never sees it, so in the source it is an uncaught exception, not a rejection of the returned promise. The model's `Failure(FieldCountMismatch(..))` stands for that uncaught exception, and the lines read before it keep their effects.
- The delimiter is one character (`delim: char`), while the source accepts any string. The source compares `delim === l` against one code point at a time, so a multi-character or empty delimiter never splits a line; `csvLineToObject`'s `rowT.slice(0, -1)` would then keep all but the last character of such a delimiter at the end of the rebuilt line. Those delimiters are not modelled.

## Findings

| source | as written | input that shows it | evidently intended | confidence | as-written member | corrected member |
|---|---|---|---|---|---|---|
| 97_utilities.js:40 | the clean-up regex removes a leading comma as well as the trailing one, so an empty first value disappears and the value list loses a column | `{a: null, b: true}` gives values `true` for columns `a,b` | strip only the trailing delimiter, giving `,true`, one value per column | high, not executed | `Utilities.LeadingEmptyValueDropped` | `Utilities.KeepingLeadingListsAreJoins` |

=== FILE: csv_ingest.dfy ===
/**
 * Ingesting delimited files: pairing header fields with row fields (`csvLineToObject`), and
 * the per-line handlers of the bulk reader `csvFileTo2DArray` and the streaming reader
 * `csvFileLineByLine`, as folds over the file's lines. Reading the file and splitting it into
 * lines is outside the model: a file is its sequence of lines.
 */
module CsvIngest {
  import opened Wrappers
  import opened Text
  import opened Js
  import opened CsvTokenizer

  // ---------------------------------------------------------------------------
  // Rows as objects

  /** A delivered row: the field array without a header, a header-keyed object with one. */
  datatype RowValue = Fields(fields: seq<string>) | Record(obj: Obj<string>)

  /** `head[i]` used as a property name; past the header's end JavaScript reads `undefined`. */
  function HeadKey(head: seq<string>, i: nat): string
  {
    if i < |head| then head[i] else "undefined"
  }

  function HeadKeys(head: seq<string>, n: nat): (ks: seq<string>)
    ensures |ks| == n
    ensures forall i :: 0 <= i < n ==> ks[i] == HeadKey(head, i)
  {
    seq(n, i requires 0 <= i < n => HeadKey(head, i))
  }

  /** The loop `rowO[head[i]] = rowA[i]` over the row's fields, from `{}`. */
  function RowObject(head: seq<string>, rowA: seq<string>): Obj<string>
  {
    Build(HeadKeys(head, |rowA|), rowA)
  }

  /**
   * With a header of distinct names and a row of the same length, the row object has the
   * header's names as keys, in order, each mapped to the field at its position.
   */
  lemma {:induction false} RowObjectDistinct(head: seq<string>, rowA: seq<string>)
    requires |rowA| == |head| && Distinct(head)
    ensures Keys(RowObject(head, rowA)) == head
    ensures forall i :: 0 <= i < |head| ==> Lookup(RowObject(head, rowA), head[i]) == Some(rowA[i])
  {
    assert HeadKeys(head, |rowA|) == head;
    BuildDistinct(head, rowA);
  }

  /** With repeated header names the last assignment wins; names not in the header are absent. */
  lemma RowObjectLookup(head: seq<string>, rowA: seq<string>, k: string)
    requires |rowA| == |head|
    ensures k in head ==> Lookup(RowObject(head, rowA), k) == Some(rowA[LastIndexOf(head, k)])
    ensures k !in head ==> Lookup(RowObject(head, rowA), k) == None
  {
    assert HeadKeys(head, |rowA|) == head;
    BuildLookup(head, rowA, k);
  }

  // ---------------------------------------------------------------------------
  // csvLineToObject

  /** The three forms of one line: object, field array and rebuilt text. */
  datatype LineObject = LineObject(rowO: Obj<string>, rowA: seq<string>, rowT: string)

  /**
   * The source's throw on a count mismatch interpolates `idx`, which is not declared in that
   * function, so what is thrown is a `ReferenceError` naming it.
   */
  datatype LineError = ReferenceError(name: string)

  /** `csvLineToObject(delim, head, line, filterAscii)`. */
  function CsvLineToObject(delim: char, head: string, line: string, filterAscii: bool): (r: Result<LineObject, LineError>)
    ensures var arrH := CsvLineTo1DArray(head, delim, filterAscii);
            var rowA := CsvLineTo1DArray(line, delim, filterAscii);
            && (r.Failure? <==> |rowA| != |arrH|)
            && (r.Failure? ==> r.error == ReferenceError("idx"))
            && (r.Success? ==> r.value.rowA == rowA && r.value.rowO == RowObject(arrH, rowA)
                               && r.value.rowT == Join(rowA, [delim]))
  {
    var arrH := CsvLineTo1DArray(head, delim, filterAscii);
    var rowA := CsvLineTo1DArray(line, delim, filterAscii);
    if |rowA| != |arrH| then Failure(ReferenceError("idx"))
    else
      RebuiltLine(rowA, delim);
      Success(LineObject(RowObject(arrH, rowA), rowA, DropLast(JoinTrailing(rowA, [delim]))))
  }

  /** `rowT` built as `rowA[i] + delim` for each field, minus the last character, is the delimiter-join. */
  lemma RebuiltLine(rowA: seq<string>, delim: char)
    requires |rowA| > 0
    ensures DropLast(JoinTrailing(rowA, [delim])) == Join(rowA, [delim])
  {
    JoinTrailingIsJoinPlusSep(rowA, [delim]);
    var j := Join(rowA, [delim]);
    assert (j + [delim])[..|j + [delim]| - 1] == j;
  }

  /**
   * Cleaning a line is idempotent (filter off): when every field of the line is free of the
   * delimiter, quotes and line feeds, feeding `rowT` back in gives the same three forms.
   */
  lemma LineObjectIdempotent(delim: char, head: string, line: string)
    requires delim != Quote && delim != '\n'
    requires CsvLineToObject(delim, head, line, false).Success?
    requires var rowA := CsvLineTo1DArray(line, delim, false);
             forall i :: 0 <= i < |rowA| ==> Plain(rowA[i], delim)
    ensures var r := CsvLineToObject(delim, head, line, false).value;
            CsvLineToObject(delim, head, r.rowT, false) == Success(r)
  {
    RetokenizeRow(line, delim);
  }

  // ---------------------------------------------------------------------------
  // The line handlers

  /** What the handlers throw on a field-count mismatch: the row's count, `idx`, the header's count. */
  datatype IngestError = FieldCountMismatch(count: nat, row: nat, headerCount: nat)

  /** The thrown text, `ERROR: wrong delimiter count (…) in row …. Header has … delimiters.` */
  function Message(e: IngestError): string
  {
    "ERROR: wrong delimiter count (" + NatToString(e.count) + ") in row " + NatToString(e.row)
      + ". Header has " + NatToString(e.headerCount) + " delimiters."
  }

  /** Every line tokenized. */
  function TokenizeAll(lines: seq<string>, delim: char, filterAscii: bool): (rs: seq<seq<string>>)
    ensures |rs| == |lines|
    ensures forall k :: 0 <= k < |lines| ==> rs[k] == CsvLineTo1DArray(lines[k], delim, filterAscii)
  {
    seq(|lines|, k requires 0 <= k < |lines| => CsvLineTo1DArray(lines[k], delim, filterAscii))
  }

  predicate NoEmptyRow(rs: seq<seq<string>>)
  {
    forall k :: 0 <= k < |rs| ==> |rs[k]| > 0
  }

  /** Every row from `from` on has the header's field count. */
  predicate Matches(rs: seq<seq<string>>, from: nat)
    requires |rs| > 0
  {
    forall k :: from <= k < |rs| ==> |rs[k]| == |rs[0]|
  }

  /** `k` is the first row from `from` on whose field count differs from the header's. */
  predicate FirstMismatchAt(rs: seq<seq<string>>, from: nat, k: nat)
    requires |rs| > 0
  {
    from <= k < |rs| && |rs[k]| != |rs[0]| && forall j :: from <= j < k ==> |rs[j]| == |rs[0]|
  }

  /** The bulk reader's registers, which are also its result `{rows, rowCount, header}`. */
  datatype FileRows = FileRows(rows: seq<RowValue>, rowCount: nat, header: seq<string>)

  function BulkStart(): FileRows
  {
    FileRows([], 0, [])
  }

  /** The bulk reader's `line` handler, given the line's fields. */
  function BulkLine(st: FileRows, rowA: seq<string>, headRow: bool): Result<FileRows, IngestError>
  {
    if headRow && st.rowCount > 0 && |rowA| != |st.header| then
      Failure(FieldCountMismatch(|rowA|, st.rowCount, |st.header|))
    else if headRow && st.rowCount == 0 && |st.header| == 0 then
      Success(st.(header := rowA))
    else if headRow then
      Success(FileRows(st.rows + [Record(RowObject(st.header, rowA))], st.rowCount + 1, st.header))
    else
      Success(FileRows(st.rows + [Fields(rowA)], st.rowCount + 1, st.header))
  }

  /** The handler run over the lines in order; a throw ends the read. */
  function FoldBulk(rs: seq<seq<string>>, headRow: bool): Result<FileRows, IngestError>
  {
    if |rs| == 0 then Success(BulkStart())
    else
      match FoldBulk(rs[..|rs| - 1], headRow)
      case Failure(e) => Failure(e)
      case Success(st) => BulkLine(st, rs[|rs| - 1], headRow)
  }

  /** `csvFileTo2DArray(file, delim, headRow, filterAscii)` on the file's lines. */
  function CsvFileTo2DArray(lines: seq<string>, delim: char, headRow: bool, filterAscii: bool): Result<FileRows, IngestError>
  {
    FoldBulk(TokenizeAll(lines, delim, filterAscii), headRow)
  }

  /** The data rows of the bulk reader in header mode: row `j` pairs the header with line `j + 1`. */
  function DataRecords(rs: seq<seq<string>>): (rows: seq<RowValue>)
    requires |rs| > 0
    ensures |rows| == |rs| - 1
  {
    seq(|rs| - 1, j requires 0 <= j < |rs| - 1 => Record(RowObject(rs[0], rs[j + 1])))
  }

  function AllFields(rs: seq<seq<string>>): (rows: seq<RowValue>)
    ensures |rows| == |rs|
  {
    seq(|rs|, j requires 0 <= j < |rs| => Fields(rs[j]))
  }

  /**
   * What the bulk reader promises in header mode for non-empty input: it succeeds exactly
   * when every line from the third on has the header's field count (the first data row is
   * never checked, because `idx` is still 0 there); on success row `j` is the object pairing
   * the header with line `j + 1`, the header is not counted; otherwise the error reports the
   * first offending line's count, its data-row number and the header's count.
   */
  predicate BulkSpec(rs: seq<seq<string>>, r: Result<FileRows, IngestError>)
    requires |rs| > 0
  {
    && (r.Success? <==> Matches(rs, 2))
    && (r.Success? ==> r.value == FileRows(DataRecords(rs), |rs| - 1, rs[0]))
    && (r.Failure? ==> exists k: nat | k < |rs| :: FirstMismatchAt(rs, 2, k) && 2 <= k && r.error == FieldCountMismatch(|rs[k]|, k - 1, |rs[0]|))
  }

  /** Bulk reader, header mode, over tokenized lines: no lines give no rows and no header. */
  lemma {:induction false} BulkHeaderFold(rs: seq<seq<string>>)
    requires NoEmptyRow(rs)
    ensures |rs| == 0 ==> FoldBulk(rs, true) == Success(FileRows([], 0, []))
    ensures |rs| > 0 ==> BulkSpec(rs, FoldBulk(rs, true))
  {
    if |rs| == 1 {
      assert DataRecords(rs) == [];
    } else if |rs| > 1 {
      var n := |rs| - 1;
      assert NoEmptyRow(rs[..n]);
      BulkHeaderFold(rs[..n]);
      BulkHeaderStep(rs);
    }
  }

  lemma {:induction false} BulkHeaderStep(rs: seq<seq<string>>)
    requires NoEmptyRow(rs) && |rs| > 1
    requires BulkSpec(rs[..|rs| - 1], FoldBulk(rs[..|rs| - 1], true))
    ensures BulkSpec(rs, FoldBulk(rs, true))
  {
    var n := |rs| - 1;
    if FoldBulk(rs[..n], true).Failure? {
      BulkAfterFailure(rs);
    } else if n > 1 && |rs[n]| != |rs[0]| {
      BulkMismatchAtEnd(rs);
    } else {
      BulkExtend(rs);
    }
  }

  lemma BulkMismatchAtEnd(rs: seq<seq<string>>)
    requires NoEmptyRow(rs) && |rs| > 2
    requires BulkSpec(rs[..|rs| - 1], FoldBulk(rs[..|rs| - 1], true))
    requires FoldBulk(rs[..|rs| - 1], true).Success?
    requires |rs[|rs| - 1]| != |rs[0]|
    ensures BulkSpec(rs, FoldBulk(rs, true))
  {
    var n := |rs| - 1;
    var pre := rs[..n];
    assert pre[0] == rs[0];
    assert Matches(pre, 2);
    assert forall j :: 2 <= j < n ==> pre[j] == rs[j];
    assert FirstMismatchAt(rs, 2, n);
    assert FoldBulk(rs, true) == Failure(FieldCountMismatch(|rs[n]|, n - 1, |rs[0]|));
  }

  lemma {:induction false} BulkExtend(rs: seq<seq<string>>)
    requires NoEmptyRow(rs) && |rs| > 1
    requires BulkSpec(rs[..|rs| - 1], FoldBulk(rs[..|rs| - 1], true))
    requires FoldBulk(rs[..|rs| - 1], true).Success?
    requires |rs| == 2 || |rs[|rs| - 1]| == |rs[0]|
    ensures BulkSpec(rs, FoldBulk(rs, true))
  {
    var n := |rs| - 1;
    var pre := rs[..n];
    assert pre[0] == rs[0];
    var st := FoldBulk(pre, true).value;
    assert st == FileRows(DataRecords(pre), n - 1, rs[0]);
    DataRecordsSnoc(rs);
    assert FoldBulk(rs, true) == Success(FileRows(DataRecords(rs), n, rs[0]));
    MatchesSnoc(rs, 2);
  }

  lemma MatchesSnoc(rs: seq<seq<string>>, from: nat)
    requires |rs| > 1
    requires Matches(rs[..|rs| - 1], from)
    requires |rs| - 1 < from || |rs[|rs| - 1]| == |rs[0]|
    ensures Matches(rs, from)
  {
    var pre := rs[..|rs| - 1];
    forall k | from <= k < |rs| ensures |rs[k]| == |rs[0]| {
      if k < |rs| - 1 {
        assert pre[k] == rs[k] && pre[0] == rs[0];
      }
    }
  }

  lemma {:induction false} BulkAfterFailure(rs: seq<seq<string>>)
    requires |rs| > 1
    requires BulkSpec(rs[..|rs| - 1], FoldBulk(rs[..|rs| - 1], true))
    requires FoldBulk(rs[..|rs| - 1], true).Failure?
    ensures BulkSpec(rs, FoldBulk(rs, true))
  {
    var pre := rs[..|rs| - 1];
    var prev := FoldBulk(pre, true);
    var k: nat :| FirstMismatchAt(pre, 2, k) && 2 <= k && prev.error == FieldCountMismatch(|pre[k]|, k - 1, |pre[0]|);
    assert pre[k] == rs[k] && pre[0] == rs[0];
    assert forall j :: 2 <= j < k ==> pre[j] == rs[j];
    assert FirstMismatchAt(rs, 2, k);
  }

  lemma DataRecordsSnoc(rs: seq<seq<string>>)
    requires |rs| > 1
    ensures DataRecords(rs[..|rs| - 1]) + [Record(RowObject(rs[0], rs[|rs| - 1]))] == DataRecords(rs)
  {
  }

  /** Bulk reader without a header: every line becomes a field-array row, and all are counted. */
  lemma {:induction false} BulkNoHeaderFold(rs: seq<seq<string>>)
    ensures FoldBulk(rs, false) == Success(FileRows(AllFields(rs), |rs|, []))
  {
    if |rs| > 0 {
      var n := |rs| - 1;
      BulkNoHeaderFold(rs[..n]);
      assert AllFields(rs[..n]) + [Fields(rs[n])] == AllFields(rs);
    }
  }

  /** `csvFileTo2DArray` in header mode, in terms of the tokenized lines. */
  lemma BulkHeaderMode(lines: seq<string>, delim: char, filterAscii: bool)
    ensures var rs := TokenizeAll(lines, delim, filterAscii);
            var r := CsvFileTo2DArray(lines, delim, true, filterAscii);
            && (|lines| == 0 ==> r == Success(FileRows([], 0, [])))
            && (|lines| > 0 ==> (r.Success? <==> Matches(rs, 2)))
            && (|lines| > 0 && r.Success? ==> r.value == FileRows(DataRecords(rs), |lines| - 1, rs[0]))
            && (|lines| > 0 && r.Failure? ==>
                  exists k: nat | k < |rs| :: FirstMismatchAt(rs, 2, k) && 2 <= k && r.error == FieldCountMismatch(|rs[k]|, k - 1, |rs[0]|))
  {
    var rs := TokenizeAll(lines, delim, filterAscii);
    BulkHeaderFold(rs);
  }

  /** `csvFileTo2DArray` without a header: one field array per line, all counted, empty header. */
  lemma BulkNoHeaderMode(lines: seq<string>, delim: char, filterAscii: bool)
    ensures CsvFileTo2DArray(lines, delim, false, filterAscii)
         == Success(FileRows(AllFields(TokenizeAll(lines, delim, filterAscii)), |lines|, []))
  {
    BulkNoHeaderFold(TokenizeAll(lines, delim, filterAscii));
  }

  /**
   * `csvFileToArrayOfObjects`: header mode whatever `headRow` says. It fails exactly when a
   * line from the third on has a field count other than the header's.
   */
  function CsvFileTo2DObject(lines: seq<string>, delim: char, headRow: bool, filterAscii: bool): (r: Result<FileRows, IngestError>)
    ensures var rs := TokenizeAll(lines, delim, filterAscii);
            && (|lines| == 0 ==> r == Success(FileRows([], 0, [])))
            && (|lines| > 0 ==> (r.Success? <==> Matches(rs, 2)))
            && (|lines| > 0 && r.Success? ==> r.value == FileRows(DataRecords(rs), |lines| - 1, rs[0]))
            && (|lines| > 0 && r.Failure? ==>
                  exists k: nat | k < |rs| :: FirstMismatchAt(rs, 2, k) && 2 <= k && r.error == FieldCountMismatch(|rs[k]|, k - 1, |rs[0]|))
  {
    BulkHeaderMode(lines, delim, filterAscii);
    CsvFileTo2DArray(lines, delim, true, filterAscii)
  }

  // ---------------------------------------------------------------------------
  // The streaming reader

  /** One callback invocation `callBack(row, index)`. */
  datatype Event = Event(row: RowValue, index: nat)

  /** The streaming reader's registers: callbacks made so far, `idx` and `head`. */
  datatype Stream = Stream(events: seq<Event>, idx: nat, head: seq<string>)

  function StreamStart(): Stream
  {
    Stream([], 0, [])
  }

  /** The streaming reader's `line` handler, given the line's fields. */
  function StreamLine(st: Stream, rowA: seq<string>, headRow: bool): Result<Stream, IngestError>
  {
    if headRow && st.idx > 0 && |rowA| != |st.head| then
      Failure(FieldCountMismatch(|rowA|, st.idx, |st.head|))
    else if headRow && st.idx == 0 && |st.head| == 0 then
      Success(Stream(st.events + [Event(Fields(rowA), st.idx)], st.idx + 1, rowA))
    else if headRow then
      Success(Stream(st.events + [Event(Record(RowObject(st.head, rowA)), st.idx)], st.idx + 1, st.head))
    else
      Success(Stream(st.events + [Event(Fields(rowA), st.idx)], st.idx + 1, st.head))
  }

  /** The registers after the lines, and the error that stopped the read, if any. */
  datatype Streaming = Streaming(st: Stream, halted: Option<IngestError>)

  function FoldStream(rs: seq<seq<string>>, headRow: bool): Streaming
  {
    if |rs| == 0 then Streaming(StreamStart(), None)
    else
      var prev := FoldStream(rs[..|rs| - 1], headRow);
      if prev.halted.Some? then prev
      else
        match StreamLine(prev.st, rs[|rs| - 1], headRow)
        case Failure(e) => Streaming(prev.st, Some(e))
        case Success(st) => Streaming(st, None)
  }

  /** What `csvFileLineByLine` resolves to. */
  datatype Summary = Summary(rowCount: nat, header: seq<string>)

  /** The callbacks made, and the promise's outcome: the summary, or the thrown error. */
  datatype LineByLine = LineByLine(events: seq<Event>, outcome: Result<Summary, IngestError>)

  /** `csvFileLineByLine(file, delim, headRow, filterAscii, callBack)` on the file's lines. */
  function CsvFileLineByLine(lines: seq<string>, delim: char, headRow: bool, filterAscii: bool): LineByLine
  {
    var f := FoldStream(TokenizeAll(lines, delim, filterAscii), headRow);
    LineByLine(f.st.events, if f.halted.Some? then Failure(f.halted.value) else Success(Summary(f.st.idx, f.st.head)))
  }

  /** The callbacks of header mode up to line `m`: the header at index 0, then one object per line. */
  function HeaderEvents(rs: seq<seq<string>>, m: nat): (evs: seq<Event>)
    requires 0 < |rs| && m <= |rs|
    ensures |evs| == m
  {
    seq(m, k requires 0 <= k < m => Event(if k == 0 then Fields(rs[0]) else Record(RowObject(rs[0], rs[k])), k))
  }

  function PlainEvents(rs: seq<seq<string>>): (evs: seq<Event>)
    ensures |evs| == |rs|
  {
    seq(|rs|, k requires 0 <= k < |rs| => Event(Fields(rs[k]), k))
  }

  /**
   * What the streaming reader promises in header mode for non-empty input: the header is
   * delivered at index 0 and counted; the read succeeds exactly when every later line has
   * the header's field count, the first data line included, and then one callback was made
   * per line, in order, and every line counted; otherwise the error names the first
   * offending line, and the callbacks made before it stay made.
   */
  predicate StreamSpec(rs: seq<seq<string>>, f: Streaming)
    requires |rs| > 0
  {
    && (f.halted.None? <==> Matches(rs, 1))
    && (f.halted.None? ==> f.st == Stream(HeaderEvents(rs, |rs|), |rs|, rs[0]))
    && (f.halted.Some? ==>
          exists k: nat | k < |rs| :: FirstMismatchAt(rs, 1, k)
                                      && f.halted.value == FieldCountMismatch(|rs[k]|, k, |rs[0]|)
                                      && f.st.events == HeaderEvents(rs, k))
  }

  /** Streaming reader, header mode, over tokenized lines: no lines give no callbacks. */
  lemma {:induction false} StreamHeaderFold(rs: seq<seq<string>>)
    requires NoEmptyRow(rs)
    ensures |rs| == 0 ==> FoldStream(rs, true) == Streaming(Stream([], 0, []), None)
    ensures |rs| > 0 ==> StreamSpec(rs, FoldStream(rs, true))
  {
    if |rs| == 1 {
      assert [Event(Fields(rs[0]), 0)] == HeaderEvents(rs, 1);
    } else if |rs| > 1 {
      var n := |rs| - 1;
      assert NoEmptyRow(rs[..n]);
      StreamHeaderFold(rs[..n]);
      StreamHeaderStep(rs);
    }
  }

  lemma {:induction false} StreamHeaderStep(rs: seq<seq<string>>)
    requires NoEmptyRow(rs) && |rs| > 1
    requires StreamSpec(rs[..|rs| - 1], FoldStream(rs[..|rs| - 1], true))
    ensures StreamSpec(rs, FoldStream(rs, true))
  {
    var n := |rs| - 1;
    if FoldStream(rs[..n], true).halted.Some? {
      StreamAfterFailure(rs);
    } else if |rs[n]| != |rs[0]| {
      StreamMismatchAtEnd(rs);
    } else {
      StreamExtend(rs);
    }
  }

  lemma HeaderEventsPrefix(rs: seq<seq<string>>, k: nat)
    requires |rs| > 1 && k < |rs|
    ensures HeaderEvents(rs[..|rs| - 1], k) == HeaderEvents(rs, k)
  {
    var pre := rs[..|rs| - 1];
    assert pre[0] == rs[0];
    forall j | 0 <= j < k
      ensures HeaderEvents(pre, k)[j] == HeaderEvents(rs, k)[j]
    {
      assert pre[j] == rs[j];
    }
  }

  lemma HeaderEventsSnoc(rs: seq<seq<string>>, n: nat)
    requires 0 < n < |rs|
    ensures HeaderEvents(rs, n) + [Event(Record(RowObject(rs[0], rs[n])), n)] == HeaderEvents(rs, n + 1)
  {
    var lhs := HeaderEvents(rs, n) + [Event(Record(RowObject(rs[0], rs[n])), n)];
    var rhs := HeaderEvents(rs, n + 1);
    forall k | 0 <= k < n + 1
      ensures lhs[k] == rhs[k]
    {
      if k < n {
        assert lhs[k] == HeaderEvents(rs, n)[k];
      }
    }
  }

  lemma {:induction false} StreamAfterFailure(rs: seq<seq<string>>)
    requires |rs| > 1
    requires StreamSpec(rs[..|rs| - 1], FoldStream(rs[..|rs| - 1], true))
    requires FoldStream(rs[..|rs| - 1], true).halted.Some?
    ensures StreamSpec(rs, FoldStream(rs, true))
  {
    var pre := rs[..|rs| - 1];
    var prev := FoldStream(pre, true);
    var k: nat :| k < |pre| && FirstMismatchAt(pre, 1, k) && prev.halted.value == FieldCountMismatch(|pre[k]|, k, |pre[0]|)
                   && prev.st.events == HeaderEvents(pre, k);
    assert pre[k] == rs[k] && pre[0] == rs[0];
    assert forall j :: 1 <= j < k ==> pre[j] == rs[j];
    assert FirstMismatchAt(rs, 1, k);
    HeaderEventsPrefix(rs, k);
  }

  lemma {:induction false} StreamMismatchAtEnd(rs: seq<seq<string>>)
    requires NoEmptyRow(rs) && |rs| > 1
    requires StreamSpec(rs[..|rs| - 1], FoldStream(rs[..|rs| - 1], true))
    requires FoldStream(rs[..|rs| - 1], true).halted.None?
    requires |rs[|rs| - 1]| != |rs[0]|
    ensures StreamSpec(rs, FoldStream(rs, true))
  {
    var n := |rs| - 1;
    var pre := rs[..n];
    assert pre[0] == rs[0];
    assert Matches(pre, 1);
    assert forall j :: 1 <= j < n ==> pre[j] == rs[j];
    assert FirstMismatchAt(rs, 1, n);
    HeaderEventsPrefix(rs, n);
    assert FoldStream(rs, true) == Streaming(Stream(HeaderEvents(rs, n), n, rs[0]), Some(FieldCountMismatch(|rs[n]|, n, |rs[0]|)));
  }

  lemma {:induction false} StreamExtend(rs: seq<seq<string>>)
    requires NoEmptyRow(rs) && |rs| > 1
    requires StreamSpec(rs[..|rs| - 1], FoldStream(rs[..|rs| - 1], true))
    requires FoldStream(rs[..|rs| - 1], true).halted.None?
    requires |rs[|rs| - 1]| == |rs[0]|
    ensures StreamSpec(rs, FoldStream(rs, true))
  {
    var n := |rs| - 1;
    var pre := rs[..n];
    assert pre[0] == rs[0];
    HeaderEventsPrefix(rs, n);
    HeaderEventsSnoc(rs, n);
    assert FoldStream(rs, true) == Streaming(Stream(HeaderEvents(rs, n + 1), n + 1, rs[0]), None);
    MatchesSnoc(rs, 1);
  }

  /** Streaming reader without a header: one field-array callback per line, in order, all counted. */
  lemma {:induction false} StreamNoHeaderFold(rs: seq<seq<string>>)
    ensures FoldStream(rs, false) == Streaming(Stream(PlainEvents(rs), |rs|, []), None)
  {
    if |rs| > 0 {
      var n := |rs| - 1;
      StreamNoHeaderFold(rs[..n]);
      assert PlainEvents(rs[..n]) + [Event(Fields(rs[n]), n)] == PlainEvents(rs);
    }
  }

  /** `csvFileLineByLine` in header mode, in terms of the tokenized lines. */
  lemma StreamHeaderMode(lines: seq<string>, delim: char, filterAscii: bool)
    ensures var rs := TokenizeAll(lines, delim, filterAscii);
            var r := CsvFileLineByLine(lines, delim, true, filterAscii);
            && (|lines| == 0 ==> r == LineByLine([], Success(Summary(0, []))))
            && (|lines| > 0 ==> (r.outcome.Success? <==> Matches(rs, 1)))
            && (|lines| > 0 && r.outcome.Success? ==>
                  r.outcome.value == Summary(|lines|, rs[0]) && r.events == HeaderEvents(rs, |lines|))
            && (|lines| > 0 && r.outcome.Failure? ==>
                  exists k: nat :: FirstMismatchAt(rs, 1, k) && r.outcome.error == FieldCountMismatch(|rs[k]|, k, |rs[0]|)
                              && r.events == HeaderEvents(rs, k))
  {
    StreamHeaderFold(TokenizeAll(lines, delim, filterAscii));
  }

  /** `csvFileLineByLine` without a header: one field-array callback per line, every line counted. */
  lemma StreamNoHeaderMode(lines: seq<string>, delim: char, filterAscii: bool)
    ensures CsvFileLineByLine(lines, delim, false, filterAscii)
         == LineByLine(PlainEvents(TokenizeAll(lines, delim, filterAscii)), Success(Summary(|lines|, [])))
  {
    StreamNoHeaderFold(TokenizeAll(lines, delim, filterAscii));
  }

  /** Whatever the mode, callbacks carry the indices 0, 1, 2, … in order, one per accepted line. */
  lemma {:induction false} StreamIndices(rs: seq<seq<string>>, headRow: bool)
    ensures var f := FoldStream(rs, headRow);
            |f.st.events| == f.st.idx <= |rs|
            && (forall k :: 0 <= k < |f.st.events| ==> f.st.events[k].index == k)
            && (f.halted.None? ==> f.st.idx == |rs|)
  {
    if |rs| > 0 {
      StreamIndices(rs[..|rs| - 1], headRow);
    }
  }

  /**
   * The two readers agree where the stream succeeds: the bulk read then succeeds too, with
   * the same header, one fewer counted row (the header), and the callbacks' objects as rows.
   */
  lemma StreamSuccessImpliesBulk(lines: seq<string>, delim: char, filterAscii: bool)
    requires CsvFileLineByLine(lines, delim, true, filterAscii).outcome.Success?
    requires |lines| > 0
    ensures var s := CsvFileLineByLine(lines, delim, true, filterAscii);
            var b := CsvFileTo2DArray(lines, delim, true, filterAscii);
            && b.Success?
            && b.value.header == s.outcome.value.header
            && b.value.rowCount + 1 == s.outcome.value.rowCount
            && |b.value.rows| + 1 == |s.events|
            && forall j :: 0 <= j < |b.value.rows| ==> b.value.rows[j] == s.events[j + 1].row
  {
    var rs := TokenizeAll(lines, delim, filterAscii);
    StreamHeaderMode(lines, delim, filterAscii);
    BulkHeaderMode(lines, delim, filterAscii);
    var s := CsvFileLineByLine(lines, delim, true, filterAscii);
    assert Matches(rs, 1);
    assert Matches(rs, 2);
    var b := CsvFileTo2DArray(lines, delim, true, filterAscii);
    assert b.value == FileRows(DataRecords(rs), |lines| - 1, rs[0]);
    assert s.events == HeaderEvents(rs, |lines|);
    DataRecordsAreLaterEvents(rs);
  }

  lemma DataRecordsAreLaterEvents(rs: seq<seq<string>>)
    requires |rs| > 0
    ensures forall j :: 0 <= j < |rs| - 1 ==> DataRecords(rs)[j] == HeaderEvents(rs, |rs|)[j + 1].row
  {
    forall j | 0 <= j < |rs| - 1
      ensures DataRecords(rs)[j] == HeaderEvents(rs, |rs|)[j + 1].row
    {
      assert DataRecords(rs)[j] == Record(RowObject(rs[0], rs[j + 1]));
    }
  }

  /**
   * The first data line escapes the bulk reader's check but not the stream's: with two lines
   * of different field counts the bulk read succeeds and the stream fails after the header.
   */
  lemma FirstDataRowUnchecked(header: string, line: string, delim: char, filterAscii: bool)
    requires |CsvLineTo1DArray(line, delim, filterAscii)| != |CsvLineTo1DArray(header, delim, filterAscii)|
    ensures CsvFileTo2DArray([header, line], delim, true, filterAscii).Success?
    ensures CsvFileLineByLine([header, line], delim, true, filterAscii).outcome.Failure?
    ensures |CsvFileLineByLine([header, line], delim, true, filterAscii).events| == 1
  {
    var rs := TokenizeAll([header, line], delim, filterAscii);
    BulkHeaderMode([header, line], delim, filterAscii);
    StreamHeaderMode([header, line], delim, filterAscii);
    assert !Matches(rs, 1);
  }
}

=== FILE: csv_text.dfy ===
/**
 * The buffer tokenizer `csvTextTo2DArray`: the same character machine as the line
 * tokenizer, run over a whole text. An unquoted line feed ends a row instead of the scan;
 * fields closed by the delimiter are collapsed but not trimmed; the last field of a row
 * ended by a line feed loses one carriage return and is normalized; the last row is raw.
 */
module CsvText {
  import opened Wrappers
  import opened Text
  import opened CsvTokenizer

  /** Registers of the buffer machine: the line machine's plus the finished `rows`. */
  datatype TextState = TextState(s: bool, p: Option<char>, rows: seq<seq<string>>, done: seq<string>, cur: string)

  function TextStart(): TextState
  {
    TextState(true, None, [], [], "")
  }

  /** The last field of a row ended by a line feed: a `\r` just before it dropped, then normalized. */
  function EndField(cur: string, p: Option<char>, filterAscii: bool): string
  {
    Normalize(if p == Some('\r') then DropLast(cur) else cur, filterAscii)
  }

  predicate NonEmptyRows(rows: seq<seq<string>>)
  {
    forall i :: 0 <= i < |rows| ==> |rows[i]| > 0
  }

  /** One iteration of the loop body. */
  function TextStepOn(st: TextState, c: char, delim: char, filterAscii: bool): (r: TextState)
  {
    if c == delim && st.s then
      TextState(st.s, None, st.rows, st.done + [Squash(st.cur, filterAscii)], "")
    else if c == '\n' && st.s then
      TextState(st.s, None, st.rows + [st.done + [EndField(st.cur, st.p, filterAscii)]], [], "")
    else if c == Quote then
      TextState(!st.s, Some(c), st.rows, st.done, if st.s && st.p == Some(Quote) then st.cur + [c] else st.cur)
    else
      TextState(st.s, Some(c), st.rows, st.done, st.cur + [c])
  }

  /** The loop over the whole text; finished rows are only ever appended to. */
  function RunText(text: string, delim: char, filterAscii: bool, st: TextState): (r: TextState)
    decreases |text|
  {
    if |text| == 0 then st else RunText(text[1..], delim, filterAscii, TextStepOn(st, text[0], delim, filterAscii))
  }

  /** Finished rows are only ever appended to, and each one has a field. */
  lemma {:induction false} RunTextGrows(text: string, delim: char, filterAscii: bool, st: TextState)
    ensures var r := RunText(text, delim, filterAscii, st);
            st.rows <= r.rows && (NonEmptyRows(st.rows) ==> NonEmptyRows(r.rows))
    decreases |text|
  {
    if |text| > 0 {
      RunTextGrows(text[1..], delim, filterAscii, TextStepOn(st, text[0], delim, filterAscii));
    }
  }

  /** `csvTextTo2DArray(text, delim, filterAscii)`: never empty, and no row is empty. */
  function CsvTextTo2DArray(text: string, delim: char, filterAscii: bool): (rows: seq<seq<string>>)
    ensures |rows| > 0 && NonEmptyRows(rows)
  {
    RunTextGrows(text, delim, filterAscii, TextStart());
    Finish(RunText(text, delim, filterAscii, TextStart()))
  }

  /** The rows once the text is read: the finished ones, then the row in progress. */
  function Finish(t: TextState): seq<seq<string>>
  {
    t.rows + [t.done + [t.cur]]
  }

  /** The loop as the source writes it, with the registers in local variables. */
  method ScanText(text: string, delim: char, filterAscii: bool) returns (rows: seq<seq<string>>)
    ensures rows == CsvTextTo2DArray(text, delim, filterAscii)
  {
    var s, p, done, cur := true, None, [], "";
    rows := [];
    var i := 0;
    while i < |text|
      invariant 0 <= i <= |text|
      invariant RunText(text[i..], delim, filterAscii, TextState(s, p, rows, done, cur))
             == RunText(text, delim, filterAscii, TextStart())
    {
      RunTextAt(text, i, delim, filterAscii, TextState(s, p, rows, done, cur));
      var c := text[i];
      if c == delim && s {
        done, cur, p := done + [Squash(cur, filterAscii)], "", None;
      } else if c == '\n' && s {
        rows := rows + [done + [EndField(cur, p, filterAscii)]];
        done, cur, p := [], "", None;
      } else if c == Quote {
        if s && p == Some(Quote) {
          cur := cur + [c];
        }
        s, p := !s, Some(c);
      } else {
        cur, p := cur + [c], Some(c);
      }
      i := i + 1;
    }
    rows := rows + [done + [cur]];
  }

  lemma RunTextAt(text: string, i: nat, delim: char, filterAscii: bool, st: TextState)
    requires i < |text|
    ensures RunText(text[i..], delim, filterAscii, st)
         == RunText(text[i + 1..], delim, filterAscii, TextStepOn(st, text[i], delim, filterAscii))
  {
    assert text[i..][0] == text[i] && text[i..][1..] == text[i + 1..];
  }

  lemma RunTextCons(c: char, t: string, delim: char, filterAscii: bool, st: TextState)
    ensures RunText([c] + t, delim, filterAscii, st) == RunText(t, delim, filterAscii, TextStepOn(st, c, delim, filterAscii))
  {
    assert ([c] + t)[0] == c && ([c] + t)[1..] == t;
  }

  lemma {:induction false} RunTextConcat(a: string, b: string, delim: char, filterAscii: bool, st: TextState)
    ensures RunText(a + b, delim, filterAscii, st) == RunText(b, delim, filterAscii, RunText(a, delim, filterAscii, st))
    decreases |a|
  {
    if |a| == 0 {
      assert a + b == b;
    } else {
      assert a + b == [a[0]] + (a[1..] + b);
      RunTextCons(a[0], a[1..] + b, delim, filterAscii, st);
      RunTextConcat(a[1..], b, delim, filterAscii, TextStepOn(st, a[0], delim, filterAscii));
    }
  }

  // ---------------------------------------------------------------------------
  // Row count

  /** Line feeds read outside quotes, starting with flag `s`: each ends a row. */
  function UnquotedLineFeeds(text: string, s: bool): nat
    decreases |text|
  {
    if |text| == 0 then 0
    else (if text[0] == '\n' && s then 1 else 0) + UnquotedLineFeeds(text[1..], if text[0] == Quote then !s else s)
  }

  lemma {:induction false} RunTextRowCount(text: string, delim: char, filterAscii: bool, st: TextState)
    requires delim != Quote && delim != '\n'
    ensures |RunText(text, delim, filterAscii, st).rows| == |st.rows| + UnquotedLineFeeds(text, st.s)
    decreases |text|
  {
    if |text| > 0 {
      RunTextRowCount(text[1..], delim, filterAscii, TextStepOn(st, text[0], delim, filterAscii));
    }
  }

  /** One row more than there are line feeds outside quotes. */
  lemma RowCount(text: string, delim: char, filterAscii: bool)
    requires delim != Quote && delim != '\n'
    ensures |CsvTextTo2DArray(text, delim, filterAscii)| == 1 + UnquotedLineFeeds(text, true)
  {
    RunTextRowCount(text, delim, filterAscii, TextStart());
  }

  lemma {:induction false} QuoteFreeLineFeeds(text: string, s: bool)
    requires Quote !in text
    ensures UnquotedLineFeeds(text, s) == (if s then Count('\n', text) else 0)
    decreases |text|
  {
    if |text| > 0 {
      QuoteFreeLineFeeds(text[1..], s);
    }
  }

  /** Without quotes, every line feed ends a row. */
  lemma QuoteFreeRowCount(text: string, delim: char, filterAscii: bool)
    requires delim != Quote && delim != '\n'
    requires Quote !in text
    ensures |CsvTextTo2DArray(text, delim, filterAscii)| == 1 + Count('\n', text)
  {
    RowCount(text, delim, filterAscii);
    QuoteFreeLineFeeds(text, true);
  }

  // ---------------------------------------------------------------------------
  // Quoted fields

  lemma {:induction false} RunTextEscaped(x: string, rest: string, delim: char, filterAscii: bool, p: Option<char>, rows: seq<seq<string>>, done: seq<string>, cur: string)
    requires delim != Quote
    ensures RunText(Escape(x) + rest, delim, filterAscii, TextState(false, p, rows, done, cur))
         == RunText(rest, delim, filterAscii, TextState(false, PrevAfter(x, p), rows, done, cur + x))
    decreases |x|
  {
    if |x| == 0 {
      assert Escape(x) + rest == rest && cur + x == cur;
    } else {
      var tail := Escape(x[1..]) + rest;
      AppendAssoc(cur, [x[0]], x[1..]);
      assert [x[0]] + x[1..] == x;
      assert PrevAfter(x[1..], Some(x[0])) == PrevAfter(x, p);
      if x[0] == Quote {
        assert Escape(x) + rest == [Quote] + ([Quote] + tail);
        RunTextCons(Quote, [Quote] + tail, delim, filterAscii, TextState(false, p, rows, done, cur));
        RunTextCons(Quote, tail, delim, filterAscii, TextState(true, Some(Quote), rows, done, cur));
      } else {
        assert Escape(x) + rest == [x[0]] + tail;
        RunTextCons(x[0], tail, delim, filterAscii, TextState(false, p, rows, done, cur));
      }
      RunTextEscaped(x[1..], rest, delim, filterAscii, Some(x[0]), rows, done, cur + [x[0]]);
    }
  }

  /**
   * A quoted field is one field of one row whatever it holds: line feeds, carriage
   * returns and delimiters inside quotes are kept, and doubled quotes give one quote.
   */
  lemma QuotedFieldOneRow(x: string, delim: char, filterAscii: bool)
    requires delim != Quote
    ensures CsvTextTo2DArray(QuoteField(x), delim, filterAscii) == [[x]]
  {
    var st := TextState(true, None, [], [], "");
    var inside := TextState(false, PrevAfter(x, Some(Quote)), [], [], x);
    assert QuoteField(x) == [Quote] + (Escape(x) + [Quote]);
    assert "" + x == x;
    calc {
      RunText(QuoteField(x), delim, filterAscii, st);
      { RunTextCons(Quote, Escape(x) + [Quote], delim, filterAscii, st); }
      RunText(Escape(x) + [Quote], delim, filterAscii, TextState(false, Some(Quote), [], [], ""));
      { RunTextEscaped(x, [Quote], delim, filterAscii, Some(Quote), [], [], ""); }
      RunText([Quote], delim, filterAscii, inside);
      { assert [Quote] == [Quote] + ""; RunTextCons(Quote, "", delim, filterAscii, inside); }
      TextState(true, Some(Quote), [], [], x);
    }
    assert TextStart() == st;
    var none: seq<string> := [];
    assert none + [x] == [x];
  }

  // ---------------------------------------------------------------------------
  // Quote-free text: rows are the lines, fields the delimiter split

  /** The register `p` when the current field is `cur` and nothing else was read since it began. */
  function PrevOf(cur: string): Option<char>
  {
    if |cur| == 0 then None else Some(LastChar(cur))
  }

  /** Drops one carriage return at the end. */
  function DropCR(x: string): string
  {
    if |x| > 0 && LastChar(x) == '\r' then DropLast(x) else x
  }

  function MapSquash(xs: seq<string>, filterAscii: bool): (r: seq<string>)
    ensures |r| == |xs|
  {
    if |xs| == 0 then [] else [Squash(xs[0], filterAscii)] + MapSquash(xs[1..], filterAscii)
  }

  /** A row ended by a line feed: parts collapsed, the last also without its `\r` and trimmed. */
  function ClosedRow(line: string, delim: char, filterAscii: bool): (r: seq<string>)
    ensures |r| == 1 + Count(delim, line)
  {
    var parts := Split(line, delim);
    SplitLength(line, delim);
    MapSquash(Init(parts), filterAscii) + [Normalize(DropCR(Last(parts)), filterAscii)]
  }

  /** The final row: parts collapsed but the last, which is kept as read. */
  function OpenRow(line: string, delim: char, filterAscii: bool): (r: seq<string>)
    ensures |r| == 1 + Count(delim, line)
  {
    var parts := Split(line, delim);
    SplitLength(line, delim);
    MapSquash(Init(parts), filterAscii) + [Last(parts)]
  }

  function MapClosedRow(lines: seq<string>, delim: char, filterAscii: bool): (r: seq<seq<string>>)
    ensures |r| == |lines|
  {
    if |lines| == 0 then [] else [ClosedRow(lines[0], delim, filterAscii)] + MapClosedRow(lines[1..], delim, filterAscii)
  }

  lemma MapSquashCons(x: string, ys: seq<string>, filterAscii: bool)
    requires |ys| > 0
    ensures MapSquash(Init([x] + ys), filterAscii) == [Squash(x, filterAscii)] + MapSquash(Init(ys), filterAscii)
  {
    assert Init([x] + ys) == [x] + Init(ys);
  }

  /** The state after quote-free text without line feeds, read outside quotes. */
  function PlainEnd(text: string, delim: char, filterAscii: bool, rows: seq<seq<string>>, done: seq<string>, cur: string): TextState
  {
    var parts := ContinueParts(cur, text, delim);
    TextState(true, PrevOf(Last(parts)), rows, done + MapSquash(Init(parts), filterAscii), Last(parts))
  }

  lemma {:induction false} RunTextPlain(text: string, delim: char, filterAscii: bool, rows: seq<seq<string>>, done: seq<string>, cur: string)
    requires Quote !in text && '\n' !in text
    ensures RunText(text, delim, filterAscii, TextState(true, PrevOf(cur), rows, done, cur))
         == PlainEnd(text, delim, filterAscii, rows, done, cur)
    decreases |text|, 1
  {
    if |text| == 0 {
      ContinuePartsEmpty(cur, delim);
      assert done + [] == done;
    } else if text[0] == delim {
      RunTextPlainDelim(text, delim, filterAscii, rows, done, cur);
    } else {
      RunTextPlainOther(text, delim, filterAscii, rows, done, cur);
    }
  }

  lemma {:induction false} RunTextPlainDelim(text: string, delim: char, filterAscii: bool, rows: seq<seq<string>>, done: seq<string>, cur: string)
    requires Quote !in text && '\n' !in text
    requires |text| > 0 && text[0] == delim
    ensures RunText(text, delim, filterAscii, TextState(true, PrevOf(cur), rows, done, cur))
         == PlainEnd(text, delim, filterAscii, rows, done, cur)
    decreases |text|, 0
  {
    var done' := done + [Squash(cur, filterAscii)];
    assert text == [delim] + text[1..];
    RunTextCons(delim, text[1..], delim, filterAscii, TextState(true, PrevOf(cur), rows, done, cur));
    assert TextStepOn(TextState(true, PrevOf(cur), rows, done, cur), delim, delim, filterAscii)
        == TextState(true, PrevOf(""), rows, done', "");
    assert Quote !in text[1..] && '\n' !in text[1..];
    RunTextPlain(text[1..], delim, filterAscii, rows, done', "");
    PlainEndAtDelim(text, delim, filterAscii, rows, done, cur);
  }

  lemma PlainEndAtDelim(text: string, delim: char, filterAscii: bool, rows: seq<seq<string>>, done: seq<string>, cur: string)
    requires |text| > 0 && text[0] == delim
    ensures PlainEnd(text[1..], delim, filterAscii, rows, done + [Squash(cur, filterAscii)], "")
         == PlainEnd(text, delim, filterAscii, rows, done, cur)
  {
    var rest := ContinueParts("", text[1..], delim);
    ContinuePartsAtDelim(cur, text, delim);
    MapSquashCons(cur, rest, filterAscii);
    assert Last([cur] + rest) == Last(rest);
    assert (done + [Squash(cur, filterAscii)]) + MapSquash(Init(rest), filterAscii)
        == done + ([Squash(cur, filterAscii)] + MapSquash(Init(rest), filterAscii));
  }

  lemma {:induction false} RunTextPlainOther(text: string, delim: char, filterAscii: bool, rows: seq<seq<string>>, done: seq<string>, cur: string)
    requires Quote !in text && '\n' !in text
    requires |text| > 0 && text[0] != delim
    ensures RunText(text, delim, filterAscii, TextState(true, PrevOf(cur), rows, done, cur))
         == PlainEnd(text, delim, filterAscii, rows, done, cur)
    decreases |text|, 0
  {
    var c := text[0];
    assert c != Quote && c != '\n';
    assert text == [c] + text[1..];
    RunTextCons(c, text[1..], delim, filterAscii, TextState(true, PrevOf(cur), rows, done, cur));
    assert PrevOf(cur + [c]) == Some(c);
    assert Quote !in text[1..] && '\n' !in text[1..];
    RunTextPlain(text[1..], delim, filterAscii, rows, done, cur + [c]);
    ContinuePartsAtOther(cur, text, delim);
  }

  /** The state after one quote-free line from the start of a row. */
  lemma RunTextLine(line: string, delim: char, filterAscii: bool, rows: seq<seq<string>>)
    requires Quote !in line && '\n' !in line
    ensures var parts := Split(line, delim);
            RunText(line, delim, filterAscii, TextState(true, None, rows, [], ""))
              == TextState(true, PrevOf(Last(parts)), rows, MapSquash(Init(parts), filterAscii), Last(parts))
  {
    RunTextPlain(line, delim, filterAscii, rows, [], "");
    var parts := Split(line, delim);
    assert ContinueParts("", line, delim) == parts by {
      assert "" + parts[0] == parts[0];
      assert [parts[0]] + parts[1..] == parts;
    }
    assert [] + MapSquash(Init(parts), filterAscii) == MapSquash(Init(parts), filterAscii);
  }

  lemma EndFieldPrevOf(cur: string, filterAscii: bool)
    ensures EndField(cur, PrevOf(cur), filterAscii) == Normalize(DropCR(cur), filterAscii)
  {
  }

  /**
   * Quote-free lines joined by line feeds: one row per line, fields the delimiter split,
   * collapsed but not trimmed; every row but the last loses a `\r` before its line feed and
   * has its last field normalized; the last row's last field is kept as read.
   */
  lemma PlainLinesRows(lines: seq<string>, delim: char, filterAscii: bool)
    requires delim != Quote && delim != '\n'
    requires |lines| > 0
    requires forall i :: 0 <= i < |lines| ==> Quote !in lines[i] && '\n' !in lines[i]
    ensures CsvTextTo2DArray(Join(lines, "\n"), delim, filterAscii)
         == MapClosedRow(Init(lines), delim, filterAscii) + [OpenRow(Last(lines), delim, filterAscii)]
  {
    PlainLinesAll(lines);
    PlainLinesRun(lines, delim, filterAscii, []);
    assert [] + MapClosedRow(Init(lines), delim, filterAscii) == MapClosedRow(Init(lines), delim, filterAscii);
  }

  /** Every line is free of quotes and line feeds. */
  predicate PlainLines(lines: seq<string>)
  {
    |lines| == 0 || (Quote !in lines[0] && '\n' !in lines[0] && PlainLines(lines[1..]))
  }

  lemma {:induction false} PlainLinesAll(lines: seq<string>)
    requires forall i :: 0 <= i < |lines| ==> Quote !in lines[i] && '\n' !in lines[i]
    ensures PlainLines(lines)
  {
    if |lines| > 0 {
      assert forall i :: 0 <= i < |lines[1..]| ==> lines[1..][i] == lines[i + 1];
      PlainLinesAll(lines[1..]);
    }
  }

  lemma {:induction false} PlainLinesRun(lines: seq<string>, delim: char, filterAscii: bool, rows: seq<seq<string>>)
    requires delim != Quote && delim != '\n'
    requires |lines| > 0 && PlainLines(lines)
    ensures Finish(RunText(Join(lines, "\n"), delim, filterAscii, TextState(true, None, rows, [], "")))
         == rows + MapClosedRow(Init(lines), delim, filterAscii) + [OpenRow(Last(lines), delim, filterAscii)]
    decreases |lines|, 1
  {
    if |lines| == 1 {
      PlainLineRun(lines[0], delim, filterAscii, rows);
      assert Join(lines, "\n") == lines[0];
      assert Init(lines) == [] && Last(lines) == lines[0];
    } else {
      PlainLinesRunMore(lines, delim, filterAscii, rows);
    }
  }

  lemma {:induction false} PlainLinesRunMore(lines: seq<string>, delim: char, filterAscii: bool, rows: seq<seq<string>>)
    requires delim != Quote && delim != '\n'
    requires |lines| > 1 && PlainLines(lines)
    ensures Finish(RunText(Join(lines, "\n"), delim, filterAscii, TextState(true, None, rows, [], "")))
         == rows + MapClosedRow(Init(lines), delim, filterAscii) + [OpenRow(Last(lines), delim, filterAscii)]
    decreases |lines|, 0
  {
    var row := ClosedRow(lines[0], delim, filterAscii);
    FirstLineStep(lines, delim, filterAscii, rows);
    PlainLinesRun(lines[1..], delim, filterAscii, rows + [row]);
    MapClosedRowInit(lines, delim, filterAscii);
  }

  lemma FirstLineStep(lines: seq<string>, delim: char, filterAscii: bool, rows: seq<seq<string>>)
    requires delim != '\n'
    requires |lines| > 1 && PlainLines(lines)
    ensures RunText(Join(lines, "\n"), delim, filterAscii, TextState(true, None, rows, [], ""))
         == RunText(Join(lines[1..], "\n"), delim, filterAscii, TextState(true, None, rows + [ClosedRow(lines[0], delim, filterAscii)], [], ""))
  {
    var tail := Join(lines[1..], "\n");
    assert Join(lines, "\n") == lines[0] + ("\n" + tail);
    PlainLineThenMore(lines[0], tail, delim, filterAscii, rows);
  }

  lemma MapClosedRowInit(lines: seq<string>, delim: char, filterAscii: bool)
    requires |lines| > 1
    ensures MapClosedRow(Init(lines), delim, filterAscii)
         == [ClosedRow(lines[0], delim, filterAscii)] + MapClosedRow(Init(lines[1..]), delim, filterAscii)
    ensures Last(lines) == Last(lines[1..])
    ensures forall rows: seq<seq<string>>, last: seq<string> ::
              (rows + [ClosedRow(lines[0], delim, filterAscii)] + MapClosedRow(Init(lines[1..]), delim, filterAscii) + [last]
                 == rows + MapClosedRow(Init(lines), delim, filterAscii) + [last])
  {
    assert Init(lines) == [lines[0]] + Init(lines[1..]);
    assert Init(lines)[1..] == Init(lines[1..]);
  }

  lemma PlainLineRun(line: string, delim: char, filterAscii: bool, rows: seq<seq<string>>)
    requires Quote !in line && '\n' !in line
    ensures Finish(RunText(line, delim, filterAscii, TextState(true, None, rows, [], "")))
         == rows + [OpenRow(line, delim, filterAscii)]
  {
    RunTextLine(line, delim, filterAscii, rows);
  }

  /** A quote-free line and its line feed add that line's closed row and start a fresh one. */
  lemma PlainLineThenMore(line: string, tail: string, delim: char, filterAscii: bool, rows: seq<seq<string>>)
    requires delim != '\n'
    requires Quote !in line && '\n' !in line
    ensures RunText(line + ("\n" + tail), delim, filterAscii, TextState(true, None, rows, [], ""))
         == RunText(tail, delim, filterAscii, TextState(true, None, rows + [ClosedRow(line, delim, filterAscii)], [], ""))
  {
    var start := TextState(true, None, rows, [], "");
    RunTextConcat(line, "\n" + tail, delim, filterAscii, start);
    var t := RunText(line, delim, filterAscii, start);
    RunTextCons('\n', tail, delim, filterAscii, t);
    RunTextLine(line, delim, filterAscii, rows);
    EndFieldPrevOf(t.cur, filterAscii);
  }
}

=== FILE: csv_tokenizer.dfy ===
/**
 * The delimited-text tokenizer of 99_parse_csv_to_array.js: a character state machine with a
 * flag `s` (true outside quotes), a previous-character register `p` and a growing row of
 * fields, run over one line (`csvLineTo1DArray`) or over a whole buffer (`csvTextTo2DArray`).
 *
 * The dialect is the source's own, not RFC 4180: a delimiter closes a field only outside
 * quotes, a `"` toggles the flag, and a `"` read right after another `"` while outside quotes
 * emits one literal quote. Fields closed by a delimiter are normalized; the last field of a
 * line is returned as read.
 */
module CsvTokenizer {
  import opened Wrappers
  import opened Text

  const Quote: char := '"'

  // ---------------------------------------------------------------------------
  // Field normalization

  /** `replace(/\s+/g, " ")`, then `replace(/[^ -~]+/g, "")` when filtering is on. */
  function Squash(f: string, filterAscii: bool): string
  {
    if filterAscii then FilterAscii(Collapse(f)) else Collapse(f)
  }

  /** Squash, then `trim()`. */
  function Normalize(f: string, filterAscii: bool): string
  {
    Trim(Squash(f, filterAscii))
  }

  /** A field closed by the delimiter in the line tokenizer: the literal `""` becomes empty first. */
  function CloseField(f: string, filterAscii: bool): string
  {
    Normalize(if f == [Quote, Quote] then "" else f, filterAscii)
  }

  // ---------------------------------------------------------------------------
  // The line tokenizer

  /**
   * Registers of the line machine: `s` is true outside quotes, `p` the previous character
   * (`None` for the source's `''`), `done` the closed fields and `cur` the field being read.
   * The source's `row` is `done + [cur]`, so it is never empty.
   */
  datatype LineState = LineState(s: bool, p: Option<char>, done: seq<string>, cur: string)

  /** Either the machine goes on, or an unquoted line feed stopped it with the final row. */
  datatype LineStep = Next(st: LineState) | Stop(row: seq<string>)

  function LineStart(): LineState
  {
    LineState(true, None, [], "")
  }

  /** One iteration of the loop body: the delimiter test comes first, then the line feed, then the quote. */
  function LineStepOn(st: LineState, c: char, delim: char, filterAscii: bool): (r: LineStep)
    ensures r.Stop? ==> r.row == st.done + [Normalize(st.cur, filterAscii)]
  {
    if c == delim && st.s then
      Next(LineState(st.s, None, st.done + [CloseField(st.cur, filterAscii)], ""))
    else if c == '\n' && st.s then
      Stop(st.done + [Normalize(st.cur, filterAscii)])
    else if c == Quote then
      Next(LineState(!st.s, Some(c), st.done, if st.s && st.p == Some(Quote) then st.cur + [c] else st.cur))
    else
      Next(LineState(st.s, Some(c), st.done, st.cur + [c]))
  }

  /** Runs the machine over `text` from `st`. */
  function RunLine(text: string, delim: char, filterAscii: bool, st: LineState): (r: LineStep)
    ensures r.Stop? ==> |r.row| > 0
    decreases |text|
  {
    if |text| == 0 then Next(st)
    else
      match LineStepOn(st, text[0], delim, filterAscii)
      case Stop(row) => Stop(row)
      case Next(st') => RunLine(text[1..], delim, filterAscii, st')
  }

  /** The row a run returns. */
  function RowOf(r: LineStep): seq<string>
  {
    match r
    case Next(st) => st.done + [st.cur]
    case Stop(row) => row
  }

  /** `csvLineTo1DArray(text, delim, filterAscii)`. */
  function CsvLineTo1DArray(text: string, delim: char, filterAscii: bool): (row: seq<string>)
    ensures |row| > 0
  {
    RowOf(RunLine(text, delim, filterAscii, LineStart()))
  }

  /** The source's loop, with the registers as local variables; it computes `CsvLineTo1DArray`. */
  method ScanLine(text: string, delim: char, filterAscii: bool) returns (row: seq<string>)
    ensures row == CsvLineTo1DArray(text, delim, filterAscii)
    ensures |row| > 0
  {
    var s, p, done, cur := true, None, [], "";
    var i := 0;
    ghost var goal := RunLine(text, delim, filterAscii, LineStart());
    while i < |text|
      invariant 0 <= i <= |text|
      invariant RunLine(text[i..], delim, filterAscii, LineState(s, p, done, cur)) == goal
    {
      ghost var before := LineState(s, p, done, cur);
      var stop, s', p', done', cur' := Feed(s, p, done, cur, text[i], delim, filterAscii);
      if stop {
        StepStops(text, i, before, delim, filterAscii);
        return done + [Normalize(cur, filterAscii)];
      }
      StepAdvances(text, i, before, LineState(s', p', done', cur'), delim, filterAscii);
      s, p, done, cur := s', p', done', cur';
      i := i + 1;
    }
    assert text[i..] == [];
    row := done + [cur];
  }

  /**
   * The loop body on the registers: the delimiter closes the field, an unquoted line feed
   * stops, a quote flips `s` (a quote right after a closing quote is kept), anything else is
   * appended.
   */
  method Feed(s: bool, p: Option<char>, done: seq<string>, cur: string, c: char, delim: char, filterAscii: bool)
    returns (stop: bool, s': bool, p': Option<char>, done': seq<string>, cur': string)
    ensures stop == LineStepOn(LineState(s, p, done, cur), c, delim, filterAscii).Stop?
    ensures !stop ==> LineStepOn(LineState(s, p, done, cur), c, delim, filterAscii) == Next(LineState(s', p', done', cur'))
  {
    stop, s', p', done', cur' := false, s, p, done, cur;
    if c == delim && s {
      done', cur', p' := done + [CloseField(cur, filterAscii)], "", None;
    } else if c == '\n' && s {
      stop := true;
    } else if c == Quote {
      if s && p == Some(Quote) {
        cur' := cur + [c];
      }
      s', p' := !s, Some(c);
    } else {
      cur', p' := cur + [c], Some(c);
    }
  }

  /** A step that goes on leaves the rest of the run to the next position. */
  lemma StepAdvances(text: string, i: nat, st: LineState, st': LineState, delim: char, filterAscii: bool)
    requires i < |text|
    requires LineStepOn(st, text[i], delim, filterAscii) == Next(st')
    ensures RunLine(text[i + 1..], delim, filterAscii, st') == RunLine(text[i..], delim, filterAscii, st)
  {
    RunLineAt(text, i, delim, filterAscii, st);
  }

  /** A step that stops ends the run with the row it closed. */
  lemma StepStops(text: string, i: nat, st: LineState, delim: char, filterAscii: bool)
    requires i < |text|
    requires LineStepOn(st, text[i], delim, filterAscii).Stop?
    ensures RunLine(text[i..], delim, filterAscii, st) == Stop(st.done + [Normalize(st.cur, filterAscii)])
  {
    RunLineAt(text, i, delim, filterAscii, st);
  }

  /** Running from position `i` is one step, then running from `i + 1`. */
  lemma RunLineAt(text: string, i: nat, delim: char, filterAscii: bool, st: LineState)
    requires i < |text|
    ensures RunLine(text[i..], delim, filterAscii, st)
         == match LineStepOn(st, text[i], delim, filterAscii)
            case Stop(row) => Stop(row)
            case Next(t) => RunLine(text[i + 1..], delim, filterAscii, t)
  {
    assert text[i..][0] == text[i] && text[i..][1..] == text[i + 1..];
  }

  /** The loop with the quote test placed before the delimiter test, as the comments at :171 and :185 describe the older order. */
  function LineStepQuoteFirst(st: LineState, c: char, delim: char, filterAscii: bool): LineStep
  {
    if c == Quote then
      Next(LineState(!st.s, Some(c), st.done, if st.s && st.p == Some(Quote) then st.cur + [c] else st.cur))
    else if c == delim && st.s then
      Next(LineState(st.s, None, st.done + [CloseField(st.cur, filterAscii)], ""))
    else if c == '\n' && st.s then
      Stop(st.done + [Normalize(st.cur, filterAscii)])
    else
      Next(LineState(st.s, Some(c), st.done, st.cur + [c]))
  }

  /** The order of the delimiter and quote tests only matters when the delimiter is `"`. */
  lemma TestOrderIrrelevant(st: LineState, c: char, delim: char, filterAscii: bool)
    requires delim != Quote
    ensures LineStepQuoteFirst(st, c, delim, filterAscii) == LineStepOn(st, c, delim, filterAscii)
  {
  }

  /** With `"` as the delimiter the two orders part: the current order closes a field, the older one opens a quote. */
  lemma TestOrderMattersForQuoteDelimiter()
    ensures LineStepOn(LineStart(), Quote, Quote, false) == Next(LineState(true, None, [""], ""))
    ensures LineStepQuoteFirst(LineStart(), Quote, Quote, false) == Next(LineState(false, Some(Quote), [], ""))
  {
    assert CloseField("", false) == "";
  }

  // ---------------------------------------------------------------------------
  // Reference definitions for the line tokenizer

  function Init(xs: seq<string>): seq<string>
    requires |xs| > 0
  {
    xs[..|xs| - 1]
  }

  function Last(xs: seq<string>): string
    requires |xs| > 0
  {
    xs[|xs| - 1]
  }

  lemma InitLast(xs: seq<string>)
    requires |xs| > 0
    ensures Init(xs) + [Last(xs)] == xs
  {
  }

  function MapClose(xs: seq<string>, filterAscii: bool): (r: seq<string>)
    ensures |r| == |xs|
    ensures forall i :: 0 <= i < |xs| ==> r[i] == CloseField(xs[i], filterAscii)
  {
    if |xs| == 0 then [] else [CloseField(xs[0], filterAscii)] + MapClose(xs[1..], filterAscii)
  }

  /** The fields of a line split at `parts`: every part closed but the last, which is kept raw. */
  function CloseInit(parts: seq<string>, filterAscii: bool): (r: seq<string>)
    requires |parts| > 0
    ensures |r| == |parts|
  {
    MapClose(Init(parts), filterAscii) + [Last(parts)]
  }

  /** The parts of `text` when the current field `cur` continues into it. */
  function ContinueParts(cur: string, text: string, delim: char): (r: seq<string>)
    ensures |r| > 0
  {
    var parts := Split(text, delim);
    [cur + parts[0]] + parts[1..]
  }

  /** A field body in the source's quoting: every `"` doubled. */
  function Escape(x: string): string
  {
    if |x| == 0 then "" else (if x[0] == Quote then [Quote, Quote] else [x[0]]) + Escape(x[1..])
  }

  /** A field wrapped in quotes with its quotes doubled, as RFC 4180 section 2 writes one. */
  function QuoteField(x: string): string
  {
    [Quote] + Escape(x) + [Quote]
  }

  /** A field needs quoting when it holds the delimiter, a quote or a line feed. */
  predicate Plain(x: string, delim: char)
  {
    delim !in x && Quote !in x && '\n' !in x
  }

  /** Writes a field, quoting it only when needed. */
  function EncodeField(x: string, delim: char): string
  {
    if Plain(x, delim) then x else QuoteField(x)
  }

  function MapEncode(xs: seq<string>, delim: char): (r: seq<string>)
    ensures |r| == |xs|
  {
    if |xs| == 0 then [] else [EncodeField(xs[0], delim)] + MapEncode(xs[1..], delim)
  }

  /** Parity of the quotes read so far: the flag `s` is true exactly after an even number. */
  predicate EvenQuotes(a: string)
  {
    Count(Quote, a) % 2 == 0
  }

  // ---------------------------------------------------------------------------
  // Lemmas about the line tokenizer

  /** Running over `a + b` is running over `a`, then over `b` unless `a` already stopped. */
  lemma {:induction false} RunLineConcat(a: string, b: string, delim: char, filterAscii: bool, st: LineState)
    ensures RunLine(a + b, delim, filterAscii, st)
         == match RunLine(a, delim, filterAscii, st)
            case Stop(row) => Stop(row)
            case Next(t) => RunLine(b, delim, filterAscii, t)
    decreases |a|
  {
    if |a| == 0 {
      assert a + b == b;
    } else {
      assert (a + b)[0] == a[0] && (a + b)[1..] == a[1..] + b;
      match LineStepOn(st, a[0], delim, filterAscii)
      case Stop(row) =>
      case Next(t) => RunLineConcat(a[1..], b, delim, filterAscii, t);
    }
  }

  lemma MapCloseAppend(xs: seq<string>, ys: seq<string>, filterAscii: bool)
    ensures MapClose(xs + ys, filterAscii) == MapClose(xs, filterAscii) + MapClose(ys, filterAscii)
  {
  }

  lemma ContinuePartsEmpty(cur: string, delim: char)
    ensures ContinueParts(cur, "", delim) == [cur]
  {
    assert cur + "" == cur;
  }

  lemma ContinuePartsAtDelim(cur: string, text: string, delim: char)
    requires |text| > 0 && text[0] == delim
    ensures ContinueParts(cur, text, delim) == [cur] + ContinueParts("", text[1..], delim)
  {
    SplitFirstIsSep(text, delim);
    var rest := Split(text[1..], delim);
    assert cur + "" == cur;
    assert "" + rest[0] == rest[0];
    assert [rest[0]] + rest[1..] == rest;
  }

  lemma ContinuePartsAtOther(cur: string, text: string, delim: char)
    requires |text| > 0 && text[0] != delim
    ensures ContinueParts(cur, text, delim) == ContinueParts(cur + [text[0]], text[1..], delim)
  {
    SplitFirstNotSep(text, delim);
    var rest := Split(text[1..], delim);
    assert cur + ([text[0]] + rest[0]) == (cur + [text[0]]) + rest[0];
  }

  lemma SeqAssoc(a: seq<string>, b: seq<string>, c: seq<string>)
    ensures (a + b) + c == a + (b + c)
  {
  }

  lemma CloseInitHead(xs: seq<string>, filterAscii: bool)
    requires |xs| > 1
    ensures CloseInit(xs, filterAscii) == [CloseField(xs[0], filterAscii)] + CloseInit(xs[1..], filterAscii)
  {
    CloseInitCons(xs[0], xs[1..], filterAscii);
    assert [xs[0]] + xs[1..] == xs;
  }

  lemma CloseInitCons(x: string, ys: seq<string>, filterAscii: bool)
    requires |ys| > 0
    ensures CloseInit([x] + ys, filterAscii) == [CloseField(x, filterAscii)] + CloseInit(ys, filterAscii)
  {
    assert Init([x] + ys) == [x] + Init(ys);
    MapCloseAppend([x], Init(ys), filterAscii);
  }

  /**
   * Outside quotes, on quote-free text without line feeds, the machine closes every part
   * of the delimiter split but the last, which continues the current field.
   */
  lemma {:induction false} RunLinePlain(text: string, delim: char, filterAscii: bool, p: Option<char>, done: seq<string>, cur: string)
    requires Quote !in text && '\n' !in text
    ensures RowOf(RunLine(text, delim, filterAscii, LineState(true, p, done, cur)))
         == done + CloseInit(ContinueParts(cur, text, delim), filterAscii)
    decreases |text|, 1
  {
    if |text| == 0 {
      ContinuePartsEmpty(cur, delim);
    } else if text[0] == delim {
      RunLinePlainDelim(text, delim, filterAscii, p, done, cur);
    } else {
      RunLinePlainOther(text, delim, filterAscii, p, done, cur);
    }
  }

  lemma {:induction false} RunLinePlainDelim(text: string, delim: char, filterAscii: bool, p: Option<char>, done: seq<string>, cur: string)
    requires Quote !in text && '\n' !in text
    requires |text| > 0 && text[0] == delim
    ensures RowOf(RunLine(text, delim, filterAscii, LineState(true, p, done, cur)))
         == done + CloseInit(ContinueParts(cur, text, delim), filterAscii)
    decreases |text|, 0
  {
    var done' := done + [CloseField(cur, filterAscii)];
    var rest := ContinueParts("", text[1..], delim);
    calc {
      RowOf(RunLine(text, delim, filterAscii, LineState(true, p, done, cur)));
    == { StepAtDelim(text, delim, filterAscii, p, done, cur); }
      RowOf(RunLine(text[1..], delim, filterAscii, LineState(true, None, done', "")));
    == { assert Quote !in text[1..] && '\n' !in text[1..];
         RunLinePlain(text[1..], delim, filterAscii, None, done', ""); }
      done' + CloseInit(rest, filterAscii);
    == { SeqAssoc(done, [CloseField(cur, filterAscii)], CloseInit(rest, filterAscii)); }
      done + ([CloseField(cur, filterAscii)] + CloseInit(rest, filterAscii));
    == { CloseInitCons(cur, rest, filterAscii); }
      done + CloseInit([cur] + rest, filterAscii);
    == { ContinuePartsAtDelim(cur, text, delim); }
      done + CloseInit(ContinueParts(cur, text, delim), filterAscii);
    }
  }

  lemma StepAtDelim(text: string, delim: char, filterAscii: bool, p: Option<char>, done: seq<string>, cur: string)
    requires |text| > 0 && text[0] == delim
    ensures RunLine(text, delim, filterAscii, LineState(true, p, done, cur))
         == RunLine(text[1..], delim, filterAscii, LineState(true, None, done + [CloseField(cur, filterAscii)], ""))
  {
  }

  lemma StepAtOther(text: string, delim: char, filterAscii: bool, p: Option<char>, done: seq<string>, cur: string)
    requires |text| > 0 && text[0] != delim && text[0] != Quote && text[0] != '\n'
    ensures RunLine(text, delim, filterAscii, LineState(true, p, done, cur))
         == RunLine(text[1..], delim, filterAscii, LineState(true, Some(text[0]), done, cur + [text[0]]))
  {
  }

  lemma {:induction false} RunLinePlainOther(text: string, delim: char, filterAscii: bool, p: Option<char>, done: seq<string>, cur: string)
    requires Quote !in text && '\n' !in text
    requires |text| > 0 && text[0] != delim
    ensures RowOf(RunLine(text, delim, filterAscii, LineState(true, p, done, cur)))
         == done + CloseInit(ContinueParts(cur, text, delim), filterAscii)
    decreases |text|, 0
  {
    var c := text[0];
    assert c != Quote && c != '\n';
    StepAtOther(text, delim, filterAscii, p, done, cur);
    assert Quote !in text[1..] && '\n' !in text[1..];
    RunLinePlain(text[1..], delim, filterAscii, Some(c), done, cur + [c]);
    ContinuePartsAtOther(cur, text, delim);
  }

  /** Quote-free lines without line feeds: the delimiter split, every part closed but the last. */
  lemma PlainLineIsSplit(text: string, delim: char, filterAscii: bool)
    requires Quote !in text && '\n' !in text
    ensures CsvLineTo1DArray(text, delim, filterAscii) == CloseInit(Split(text, delim), filterAscii)
  {
    RunLinePlain(text, delim, filterAscii, None, [], "");
    var parts := Split(text, delim);
    assert ContinueParts("", text, delim) == parts by {
      assert "" + parts[0] == parts[0];
      assert [parts[0]] + parts[1..] == parts;
    }
  }

  /** A quote-free line without line feeds has one more field than it has delimiters. */
  lemma PlainLineFieldCount(text: string, delim: char, filterAscii: bool)
    requires Quote !in text && '\n' !in text
    ensures |CsvLineTo1DArray(text, delim, filterAscii)| == 1 + Count(delim, text)
  {
    PlainLineIsSplit(text, delim, filterAscii);
    SplitLength(text, delim);
  }

  lemma {:induction false} NotInJoin(xs: seq<string>, sep: char, c: char)
    requires c != sep
    requires forall i :: 0 <= i < |xs| ==> c !in xs[i]
    ensures c !in Join(xs, [sep])
  {
    if |xs| > 1 {
      NotInJoin(xs[1..], sep, c);
    }
  }

  /**
   * Round trip: joining plain fields with the delimiter and tokenizing gives the fields back,
   * when every field but the last is already in closed (normalized) form.
   */
  lemma {:induction false} PlainRoundTrip(fields: seq<string>, delim: char, filterAscii: bool)
    requires delim != Quote && delim != '\n'
    requires |fields| > 0
    requires forall i :: 0 <= i < |fields| ==> Plain(fields[i], delim)
    requires forall i :: 0 <= i < |fields| - 1 ==> CloseField(fields[i], filterAscii) == fields[i]
    ensures CsvLineTo1DArray(Join(fields, [delim]), delim, filterAscii) == fields
  {
    var text := Join(fields, [delim]);
    NotInJoin(fields, delim, Quote);
    NotInJoin(fields, delim, '\n');
    PlainLineIsSplit(text, delim, filterAscii);
    JoinThenSplit(fields, delim);
    CloseInitFixed(fields, filterAscii);
  }

  lemma CloseInitFixed(fields: seq<string>, filterAscii: bool)
    requires |fields| > 0
    requires forall i :: 0 <= i < |fields| - 1 ==> CloseField(fields[i], filterAscii) == fields[i]
    ensures CloseInit(fields, filterAscii) == fields
  {
    assert MapClose(Init(fields), filterAscii) == Init(fields);
    assert Init(fields) + [Last(fields)] == fields;
  }

  /** The register `p` after reading `x` from a state whose register was `p`. */
  function PrevAfter(x: string, p: Option<char>): Option<char>
  {
    if |x| == 0 then p else Some(LastChar(x))
  }

  lemma RunLineCons(c: char, t: string, delim: char, filterAscii: bool, st: LineState)
    ensures RunLine([c] + t, delim, filterAscii, st)
         == (var step := LineStepOn(st, c, delim, filterAscii);
             if step.Stop? then step else RunLine(t, delim, filterAscii, step.st))
  {
    assert ([c] + t)[0] == c && ([c] + t)[1..] == t;
  }

  /** Inside quotes, quote-free text (delimiters and line feeds included) is appended verbatim. */
  lemma {:induction false} RunInsideQuotes(b: string, delim: char, filterAscii: bool, p: Option<char>, done: seq<string>, cur: string)
    requires Quote !in b
    ensures RunLine(b, delim, filterAscii, LineState(false, p, done, cur))
         == Next(LineState(false, PrevAfter(b, p), done, cur + b))
    decreases |b|
  {
    if |b| == 0 {
      assert cur + b == cur;
    } else {
      assert b == [b[0]] + b[1..];
      RunLineCons(b[0], b[1..], delim, filterAscii, LineState(false, p, done, cur));
      RunInsideQuotes(b[1..], delim, filterAscii, Some(b[0]), done, cur + [b[0]]);
      AppendAssoc(cur, [b[0]], b[1..]);
      assert [b[0]] + b[1..] == b;
      assert PrevAfter(b[1..], Some(b[0])) == PrevAfter(b, p);
    }
  }

  /** Outside quotes, a plain field is appended verbatim. */
  lemma {:induction false} RunPlainField(x: string, rest: string, delim: char, filterAscii: bool, p: Option<char>, done: seq<string>, cur: string)
    requires Plain(x, delim)
    ensures RunLine(x + rest, delim, filterAscii, LineState(true, p, done, cur))
         == RunLine(rest, delim, filterAscii, LineState(true, PrevAfter(x, p), done, cur + x))
    decreases |x|
  {
    if |x| == 0 {
      assert x + rest == rest && cur + x == cur;
    } else {
      assert x + rest == [x[0]] + (x[1..] + rest);
      RunLineCons(x[0], x[1..] + rest, delim, filterAscii, LineState(true, p, done, cur));
      RunPlainField(x[1..], rest, delim, filterAscii, Some(x[0]), done, cur + [x[0]]);
      AppendAssoc(cur, [x[0]], x[1..]);
      assert [x[0]] + x[1..] == x;
      assert PrevAfter(x[1..], Some(x[0])) == PrevAfter(x, p);
    }
  }

  /** Inside quotes, an escaped body yields the body: each doubled `"` gives one literal quote. */
  lemma {:induction false} RunEscaped(x: string, rest: string, delim: char, filterAscii: bool, p: Option<char>, done: seq<string>, cur: string)
    requires delim != Quote
    ensures RunLine(Escape(x) + rest, delim, filterAscii, LineState(false, p, done, cur))
         == RunLine(rest, delim, filterAscii, LineState(false, PrevAfter(x, p), done, cur + x))
    decreases |x|
  {
    if |x| == 0 {
      assert Escape(x) + rest == rest && cur + x == cur;
    } else {
      var tail := Escape(x[1..]) + rest;
      AppendAssoc(cur, [x[0]], x[1..]);
      assert [x[0]] + x[1..] == x;
      assert PrevAfter(x[1..], Some(x[0])) == PrevAfter(x, p);
      if x[0] == Quote {
        assert Escape(x) + rest == [Quote] + ([Quote] + tail);
        RunLineCons(Quote, [Quote] + tail, delim, filterAscii, LineState(false, p, done, cur));
        RunLineCons(Quote, tail, delim, filterAscii, LineState(true, Some(Quote), done, cur));
      } else {
        assert Escape(x) + rest == [x[0]] + tail;
        RunLineCons(x[0], tail, delim, filterAscii, LineState(false, p, done, cur));
      }
      RunEscaped(x[1..], rest, delim, filterAscii, Some(x[0]), done, cur + [x[0]]);
    }
  }

  /** A quoted field, read outside quotes right after a delimiter or at the start, yields its body verbatim. */
  lemma RunQuotedField(x: string, rest: string, delim: char, filterAscii: bool, done: seq<string>, cur: string)
    requires delim != Quote
    ensures RunLine(QuoteField(x) + rest, delim, filterAscii, LineState(true, None, done, cur))
         == RunLine(rest, delim, filterAscii, LineState(true, Some(Quote), done, cur + x))
  {
    assert QuoteField(x) + rest == [Quote] + (Escape(x) + ([Quote] + rest));
    RunLineCons(Quote, Escape(x) + ([Quote] + rest), delim, filterAscii, LineState(true, None, done, cur));
    RunEscaped(x, [Quote] + rest, delim, filterAscii, Some(Quote), done, cur);
    RunLineCons(Quote, rest, delim, filterAscii, LineState(false, PrevAfter(x, Some(Quote)), done, cur + x));
  }

  /** The register after reading one written field. */
  function PrevAfterField(x: string, delim: char): Option<char>
  {
    if Plain(x, delim) then PrevAfter(x, None) else Some(Quote)
  }

  lemma RunEncodedField(x: string, rest: string, delim: char, filterAscii: bool, done: seq<string>)
    requires delim != Quote
    ensures RunLine(EncodeField(x, delim) + rest, delim, filterAscii, LineState(true, None, done, ""))
         == RunLine(rest, delim, filterAscii, LineState(true, PrevAfterField(x, delim), done, x))
  {
    assert "" + x == x;
    if Plain(x, delim) {
      RunPlainField(x, rest, delim, filterAscii, None, done, "");
    } else {
      RunQuotedField(x, rest, delim, filterAscii, done, "");
    }
  }

  lemma {:induction false} RunEncodedFields(xs: seq<string>, delim: char, filterAscii: bool, done: seq<string>)
    requires delim != Quote
    requires |xs| > 0
    ensures RowOf(RunLine(Join(MapEncode(xs, delim), [delim]), delim, filterAscii, LineState(true, None, done, "")))
         == done + CloseInit(xs, filterAscii)
    decreases |xs|, 2
  {
    if |xs| == 1 {
      RunEncodedOne(xs[0], delim, filterAscii, done);
      assert xs == [xs[0]];
    } else {
      RunEncodedMore(xs, delim, filterAscii, done);
    }
  }

  lemma RunEncodedOne(x: string, delim: char, filterAscii: bool, done: seq<string>)
    requires delim != Quote
    ensures RowOf(RunLine(Join(MapEncode([x], delim), [delim]), delim, filterAscii, LineState(true, None, done, "")))
         == done + CloseInit([x], filterAscii)
  {
    assert MapEncode([x], delim) == [EncodeField(x, delim)];
    assert Join(MapEncode([x], delim), [delim]) == EncodeField(x, delim) + "";
    RunEncodedField(x, "", delim, filterAscii, done);
    assert Init([x]) == [] && Last([x]) == x;
  }

  lemma {:induction false} RunEncodedMore(xs: seq<string>, delim: char, filterAscii: bool, done: seq<string>)
    requires delim != Quote
    requires |xs| > 1
    ensures RowOf(RunLine(Join(MapEncode(xs, delim), [delim]), delim, filterAscii, LineState(true, None, done, "")))
         == done + CloseInit(xs, filterAscii)
    decreases |xs|, 1
  {
    RunEncodedTail(xs, delim, filterAscii, done);
    CloseInitHead(xs, filterAscii);
    SeqAssoc(done, [CloseField(xs[0], filterAscii)], CloseInit(xs[1..], filterAscii));
  }

  /** After the first field and its delimiter, the rest of the line yields the remaining fields. */
  lemma {:induction false} RunEncodedTail(xs: seq<string>, delim: char, filterAscii: bool, done: seq<string>)
    requires delim != Quote
    requires |xs| > 1
    ensures RowOf(RunLine(Join(MapEncode(xs, delim), [delim]), delim, filterAscii, LineState(true, None, done, "")))
         == (done + [CloseField(xs[0], filterAscii)]) + CloseInit(xs[1..], filterAscii)
    decreases |xs|, 0
  {
    RunEncodedHead(xs, delim, filterAscii, done);
    RunEncodedFields(xs[1..], delim, filterAscii, done + [CloseField(xs[0], filterAscii)]);
  }

  /** The first written field and its delimiter close that field and leave the rest to read. */
  lemma RunEncodedHead(xs: seq<string>, delim: char, filterAscii: bool, done: seq<string>)
    requires delim != Quote
    requires |xs| > 1
    ensures RunLine(Join(MapEncode(xs, delim), [delim]), delim, filterAscii, LineState(true, None, done, ""))
         == RunLine(Join(MapEncode(xs[1..], delim), [delim]), delim, filterAscii,
                    LineState(true, None, done + [CloseField(xs[0], filterAscii)], ""))
  {
    var e := EncodeField(xs[0], delim);
    var es := MapEncode(xs, delim);
    assert es[0] == e && es[1..] == MapEncode(xs[1..], delim);
    var tail := Join(es[1..], [delim]);
    assert Join(es, [delim]) == e + ([delim] + tail);
    var done' := done + [CloseField(xs[0], filterAscii)];
    calc {
      RunLine(Join(es, [delim]), delim, filterAscii, LineState(true, None, done, ""));
      { RunEncodedField(xs[0], [delim] + tail, delim, filterAscii, done); }
      RunLine([delim] + tail, delim, filterAscii, LineState(true, PrevAfterField(xs[0], delim), done, xs[0]));
      { RunLineCons(delim, tail, delim, filterAscii, LineState(true, PrevAfterField(xs[0], delim), done, xs[0])); }
      RunLine(tail, delim, filterAscii, LineState(true, None, done', ""));
    }
  }

  /** Reading one character outside the delimiter flips `s` exactly on a quote. */
  lemma StepFlag(st: LineState, c: char, delim: char, filterAscii: bool)
    requires delim != Quote
    requires LineStepOn(st, c, delim, filterAscii).Next?
    ensures LineStepOn(st, c, delim, filterAscii).st.s == (if c == Quote then !st.s else st.s)
  {
  }

  /**
   * Round trip for arbitrary fields: writing each field (quoted with doubled quotes when it
   * holds the delimiter, a quote or a line feed), joining with the delimiter and tokenizing
   * gives back every field, closed fields normalized and the last verbatim.
   */
  lemma {:induction false} EncodeRoundTrip(xs: seq<string>, delim: char, filterAscii: bool)
    requires delim != Quote
    requires |xs| > 0
    ensures CsvLineTo1DArray(Join(MapEncode(xs, delim), [delim]), delim, filterAscii) == CloseInit(xs, filterAscii)
  {
    RunEncodedFields(xs, delim, filterAscii, []);
    assert [] + CloseInit(xs, filterAscii) == CloseInit(xs, filterAscii);
  }

  /** The flag `s` is true exactly when an even number of quotes has been read from the start state. */
  lemma {:induction false} QuoteParity(a: string, delim: char, filterAscii: bool, st: LineState)
    requires delim != Quote
    requires RunLine(a, delim, filterAscii, st).Next?
    ensures RunLine(a, delim, filterAscii, st).st.s == (st.s == EvenQuotes(a))
    decreases |a|
  {
    if |a| > 0 {
      var step := LineStepOn(st, a[0], delim, filterAscii);
      assert RunLine(a, delim, filterAscii, st) == (if step.Stop? then step else RunLine(a[1..], delim, filterAscii, step.st));
      assert step.Next?;
      StepFlag(st, a[0], delim, filterAscii);
      QuoteParity(a[1..], delim, filterAscii, step.st);
      EvenQuotesCons(a);
    }
  }

  /** Reading one more character flips the parity exactly on a quote. */
  lemma EvenQuotesCons(a: string)
    requires |a| > 0
    ensures EvenQuotes(a) == (if a[0] == Quote then !EvenQuotes(a[1..]) else EvenQuotes(a[1..]))
  {
    assert Count(Quote, a) == (if a[0] == Quote then 1 else 0) + Count(Quote, a[1..]);
  }

  /** Without a line feed the machine never stops early. */
  lemma {:induction false} NoLineFeedNoStop(a: string, delim: char, filterAscii: bool, st: LineState)
    requires '\n' !in a
    ensures RunLine(a, delim, filterAscii, st).Next?
    decreases |a|
  {
    if |a| > 0 {
      assert a == [a[0]] + a[1..];
      RunLineCons(a[0], a[1..], delim, filterAscii, st);
      NoLineFeedNoStop(a[1..], delim, filterAscii, LineStepOn(st, a[0], delim, filterAscii).st);
    }
  }

  /** After an odd number of quotes nothing splits any more: quote-free text is appended to the last field. */
  lemma OddQuotesNoSplit(a: string, b: string, delim: char, filterAscii: bool)
    requires delim != Quote
    requires '\n' !in a && !EvenQuotes(a) && Quote !in b
    ensures var r := CsvLineTo1DArray(a, delim, filterAscii);
            CsvLineTo1DArray(a + b, delim, filterAscii) == Init(r) + [Last(r) + b]
  {
    NoLineFeedNoStop(a, delim, filterAscii, LineStart());
    QuoteParity(a, delim, filterAscii, LineStart());
    RunLineConcat(a, b, delim, filterAscii, LineStart());
    var t := RunLine(a, delim, filterAscii, LineStart()).st;
    RunInsideQuotes(b, delim, filterAscii, t.p, t.done, t.cur);
    var r := t.done + [t.cur];
    assert Init(r) == t.done;
  }

  /**
   * A line feed read outside quotes ends the line: the last field is normalized and
   * everything after it is ignored.
   */
  lemma LineFeedEndsLine(a: string, b: string, delim: char, filterAscii: bool)
    requires delim != Quote && delim != '\n'
    requires '\n' !in a && EvenQuotes(a)
    ensures var r := CsvLineTo1DArray(a, delim, filterAscii);
            CsvLineTo1DArray(a + ['\n'] + b, delim, filterAscii) == Init(r) + [Normalize(Last(r), filterAscii)]
  {
    NoLineFeedNoStop(a, delim, filterAscii, LineStart());
    QuoteParity(a, delim, filterAscii, LineStart());
    assert a + ['\n'] + b == a + ([ '\n'] + b);
    RunLineConcat(a, ['\n'] + b, delim, filterAscii, LineStart());
    var t := RunLine(a, delim, filterAscii, LineStart()).st;
    RunLineCons('\n', b, delim, filterAscii, t);
    var r := t.done + [t.cur];
    assert Init(r) == t.done;
  }

  // ---------------------------------------------------------------------------
  // Closed fields are tidy, and tidy plain rows survive a second pass

  predicate AllTidy(xs: seq<string>)
  {
    forall i :: 0 <= i < |xs| ==> Tidy(xs[i])
  }

  lemma NormalizeIsTidy(f: string)
    ensures Tidy(Normalize(f, false))
    ensures Tidy(CloseField(f, false))
  {
    CollapseTrimIsTidy(f);
    CollapseTrimIsTidy("");
  }

  predicate StepTidy(r: LineStep)
  {
    match r
    case Next(t) => AllTidy(t.done)
    case Stop(row) => AllTidy(row)
  }

  lemma StepKeepsTidy(st: LineState, c: char, delim: char)
    requires AllTidy(st.done)
    ensures StepTidy(LineStepOn(st, c, delim, false))
  {
    if c == delim && st.s {
      NormalizeIsTidy(st.cur);
      AllTidyAppend(st.done, CloseField(st.cur, false));
    } else if c == '\n' && st.s {
      NormalizeIsTidy(st.cur);
      AllTidyAppend(st.done, Normalize(st.cur, false));
    }
  }

  lemma AllTidyAppend(xs: seq<string>, x: string)
    requires AllTidy(xs) && Tidy(x)
    ensures AllTidy(xs + [x])
  {
    forall i | 0 <= i < |xs + [x]|
      ensures Tidy((xs + [x])[i])
    {
      if i < |xs| {
        assert (xs + [x])[i] == xs[i];
      } else {
        assert (xs + [x])[i] == x;
      }
    }
  }

  lemma {:induction false} RunLineKeepsTidy(text: string, delim: char, st: LineState)
    requires AllTidy(st.done)
    ensures StepTidy(RunLine(text, delim, false, st))
    decreases |text|
  {
    if |text| > 0 {
      assert text == [text[0]] + text[1..];
      RunLineCons(text[0], text[1..], delim, false, st);
      StepKeepsTidy(st, text[0], delim);
      var step := LineStepOn(st, text[0], delim, false);
      if step.Next? {
        RunLineKeepsTidy(text[1..], delim, step.st);
      }
    }
  }

  /** With the filter off, every field closed by a delimiter is collapsed and trimmed (tidy). */
  lemma ClosedFieldsTidy(text: string, delim: char)
    ensures var row := CsvLineTo1DArray(text, delim, false);
            forall i :: 0 <= i < |row| - 1 ==> Tidy(row[i])
  {
    RunLineKeepsTidy(text, delim, LineStart());
  }

  lemma {:induction false} FilterAsciiFixed(s: string)
    requires forall i :: 0 <= i < |s| ==> IsPrintableAscii(s[i])
    ensures FilterAscii(s) == s
  {
    if |s| > 0 {
      FilterAsciiFixed(s[1..]);
      assert [s[0]] + s[1..] == s;
    }
  }

  /** A tidy quote-free field (printable when filtering) is its own closed form. */
  lemma TidyCloseFixed(f: string, filterAscii: bool)
    requires Tidy(f) && Quote !in f
    requires filterAscii ==> forall i :: 0 <= i < |f| ==> IsPrintableAscii(f[i])
    ensures CloseField(f, filterAscii) == f
  {
    assert f != [Quote, Quote];
    CollapseFixesSquashed(f);
    if filterAscii {
      FilterAsciiFixed(f);
    }
    TidyFixed(f);
  }

  /**
   * Round trip: fields free of the delimiter, quotes and line feeds, without leading,
   * trailing or repeated white space (and printable when filtering), come back unchanged
   * from tokenizing their delimiter-join.
   */
  lemma TidyRoundTrip(fields: seq<string>, delim: char, filterAscii: bool)
    requires delim != Quote && delim != '\n'
    requires |fields| > 0
    requires forall i :: 0 <= i < |fields| ==> Plain(fields[i], delim) && Tidy(fields[i])
    requires filterAscii ==> forall i, j :: 0 <= i < |fields| && 0 <= j < |fields[i]| ==> IsPrintableAscii(fields[i][j])
    ensures CsvLineTo1DArray(Join(fields, [delim]), delim, filterAscii) == fields
  {
    forall i | 0 <= i < |fields| - 1
      ensures CloseField(fields[i], filterAscii) == fields[i]
    {
      TidyCloseFixed(fields[i], filterAscii);
    }
    PlainRoundTrip(fields, delim, filterAscii);
  }

  /**
   * A row whose fields are all plain comes back unchanged when its delimiter-join is
   * tokenized again (filter off): the line rebuilt from a row is stable.
   */
  lemma RetokenizeRow(text: string, delim: char)
    requires delim != Quote && delim != '\n'
    requires var row := CsvLineTo1DArray(text, delim, false);
             forall i :: 0 <= i < |row| ==> Plain(row[i], delim)
    ensures var row := CsvLineTo1DArray(text, delim, false);
            CsvLineTo1DArray(Join(row, [delim]), delim, false) == row
  {
    var row := CsvLineTo1DArray(text, delim, false);
    ClosedFieldsTidy(text, delim);
    forall i | 0 <= i < |row| - 1
      ensures CloseField(row[i], false) == row[i]
    {
      TidyCloseFixed(row[i], false);
    }
    PlainRoundTrip(row, delim, false);
  }

  /**
   * An opening quote that is never closed swallows the rest of the line: after plain tidy
   * fields and a delimiter, `"` followed by quote-free text yields that text verbatim as
   * the last field, delimiters and line feeds included.
   */
  lemma UnmatchedQuoteTakesRest(fields: seq<string>, y: string, delim: char, filterAscii: bool)
    requires delim != Quote && delim != '\n'
    requires |fields| > 0
    requires forall i :: 0 <= i < |fields| ==> Plain(fields[i], delim) && Tidy(fields[i])
    requires filterAscii ==> forall i, j :: 0 <= i < |fields| && 0 <= j < |fields[i]| ==> IsPrintableAscii(fields[i][j])
    requires Quote !in y
    ensures CsvLineTo1DArray(Join(fields, [delim]) + [delim, Quote] + y, delim, filterAscii) == fields + [y]
  {
    var a := Join(fields, [delim]);
    TidyFieldsRunState(fields, delim, filterAscii);
    TidyCloseFixed(Last(fields), filterAscii);
    OpenQuoteAfterDelim(a, y, delim, filterAscii);
    InitLast(fields);
  }

  lemma OpenQuoteAfterDelim(a: string, y: string, delim: char, filterAscii: bool)
    requires delim != Quote
    requires Quote !in y
    requires RunLine(a, delim, filterAscii, LineStart()).Next?
    requires RunLine(a, delim, filterAscii, LineStart()).st.s
    ensures var t := RunLine(a, delim, filterAscii, LineStart()).st;
            CsvLineTo1DArray(a + [delim, Quote] + y, delim, filterAscii) == t.done + [CloseField(t.cur, filterAscii), y]
  {
    var t := RunLine(a, delim, filterAscii, LineStart()).st;
    var closed := [CloseField(t.cur, filterAscii)];
    var tail := [delim] + ([Quote] + y);
    assert a + [delim, Quote] + y == a + tail by {
      AppendAssoc(a, [delim, Quote], y);
      assert [delim, Quote] + y == tail;
    }
    assert RunLine(a + tail, delim, filterAscii, LineStart()) == RunLine(tail, delim, filterAscii, t) by {
      RunLineConcat(a, tail, delim, filterAscii, LineStart());
    }
    DelimThenOpenQuote(y, delim, filterAscii, t);
    SeqAssoc(t.done, closed, [y]);
    assert closed + [y] == [CloseField(t.cur, filterAscii), y];
  }

  /** Outside quotes, a delimiter and then `"` with quote-free text: the text becomes the open field. */
  lemma DelimThenOpenQuote(y: string, delim: char, filterAscii: bool, t: LineState)
    requires delim != Quote
    requires Quote !in y
    requires t.s
    ensures RunLine([delim] + ([Quote] + y), delim, filterAscii, t)
         == Next(LineState(false, PrevAfter(y, Some(Quote)), t.done + [CloseField(t.cur, filterAscii)], y))
  {
    var done' := t.done + [CloseField(t.cur, filterAscii)];
    var open := LineState(true, None, done', "");
    var inside := LineState(false, Some(Quote), done', "");
    assert LineStepOn(t, delim, delim, filterAscii) == Next(open);
    assert RunLine([delim] + ([Quote] + y), delim, filterAscii, t) == RunLine([Quote] + y, delim, filterAscii, open) by {
      RunLineCons(delim, [Quote] + y, delim, filterAscii, t);
    }
    assert LineStepOn(open, Quote, delim, filterAscii) == Next(inside);
    assert RunLine([Quote] + y, delim, filterAscii, open) == RunLine(y, delim, filterAscii, inside) by {
      RunLineCons(Quote, y, delim, filterAscii, open);
    }
    RunInsideQuotes(y, delim, filterAscii, Some(Quote), done', "");
    assert "" + y == y;
  }

  /** After the join of plain tidy fields the machine is outside quotes with every field but the last closed. */
  lemma TidyFieldsRunState(fields: seq<string>, delim: char, filterAscii: bool)
    requires delim != Quote && delim != '\n'
    requires |fields| > 0
    requires forall i :: 0 <= i < |fields| ==> Plain(fields[i], delim) && Tidy(fields[i])
    requires filterAscii ==> forall i, j :: 0 <= i < |fields| && 0 <= j < |fields[i]| ==> IsPrintableAscii(fields[i][j])
    ensures var r := RunLine(Join(fields, [delim]), delim, filterAscii, LineStart());
            r.Next? && r.st.s && r.st.done == Init(fields) && r.st.cur == Last(fields)
  {
    var a := Join(fields, [delim]);
    NotInJoin(fields, delim, Quote);
    NotInJoin(fields, delim, '\n');
    NoLineFeedNoStop(a, delim, filterAscii, LineStart());
    QuoteParity(a, delim, filterAscii, LineStart());
    CountAbsent(Quote, a);
    var t := RunLine(a, delim, filterAscii, LineStart()).st;
    TidyRoundTrip(fields, delim, filterAscii);
    assert t.done + [t.cur] == fields;
    assert t.done == (t.done + [t.cur])[..|t.done|];
  }

  // ---------------------------------------------------------------------------
  // Worked examples

  /** Escaping works piece by piece. */
  lemma {:induction false} EscapeAppend(a: string, b: string)
    ensures Escape(a + b) == Escape(a) + Escape(b)
    decreases |a|
  {
    if |a| > 0 {
      assert (a + b)[1..] == a[1..] + b;
      EscapeAppend(a[1..], b);
      var head: string := if a[0] == Quote then [Quote, Quote] else [a[0]];
      AppendAssoc(head, Escape(a[1..]), Escape(b));
    } else {
      assert a + b == b;
    }
  }

  /** Text without quotes is its own escape. */
  lemma {:induction false} EscapePlain(a: string)
    requires Quote !in a
    ensures Escape(a) == a
    decreases |a|
  {
    if |a| > 0 {
      EscapePlain(a[1..]);
      assert [a[0]] + a[1..] == a;
    }
  }

  /** The text of the example below, spelled as the pieces its proof assembles. */
  lemma QuotedQuotesText()
    ensures "He said " + ([Quote] + "hi") + [Quote] == "He said \"hi\""
    ensures [Quote] + ("He said " + ([Quote, Quote] + "hi") + [Quote, Quote]) + [Quote] == "\"He said \"\"hi\"\"\""
  {
  }

  /** `"He said ""hi"""` reads as the single field `He said "hi"`: inside quotes, `""` is one quote. */
  lemma QuotedQuotesExample()
    ensures CsvLineTo1DArray("\"He said \"\"hi\"\"\"", ',', false) == ["He said \"hi\""]
  {
    var a, c := "He said ", [Quote];
    var x := a + (c + "hi") + c;
    var e := a + ([Quote, Quote] + "hi") + [Quote, Quote];
    assert Escape(x) == e by {
      assert c[1..] == [];
      EscapePlain(a);
      EscapePlain("hi");
      EscapeAppend(c, "hi");
      EscapeAppend(a, c + "hi");
      EscapeAppend(a + (c + "hi"), c);
    }
    assert Join(MapEncode([x], ','), [',']) == [Quote] + e + [Quote] by {
      assert x[8] == Quote;
      assert MapEncode([x], ',') == [QuoteField(x)];
    }
    EncodeRoundTrip([x], ',', false);
    QuotedQuotesText();
  }

  /**
   * Six quotes are the field `""` written in the source's quoting, and that field, closed by
   * the delimiter, becomes empty: `""""""` then `,x` reads as `["", "x"]`.
   */
  lemma SixQuotesClearedExample()
    ensures CsvLineTo1DArray("\"\"\"\"\"\",x", ',', false) == ["", "x"]
  {
    var q := [Quote, Quote];
    assert q[1..] == [Quote] && [Quote][1..] == [];
    assert Escape([Quote]) == [Quote, Quote];
    assert Escape(q) == "\"\"\"\"";
    assert !Plain(q, ',') by { assert q[0] == Quote; }
    assert EncodeField(q, ',') == [Quote] + "\"\"\"\"" + [Quote] == "\"\"\"\"\"\"";
    assert EncodeField("x", ',') == "x";
    assert MapEncode([q, "x"], ',') == ["\"\"\"\"\"\"", "x"];
    assert Join(MapEncode([q, "x"], ','), [',']) == "\"\"\"\"\"\",x";
    EncodeRoundTrip([q, "x"], ',', false);
    assert CloseField(q, false) == "";
  }

  /** A closed field is collapsed and trimmed, but the last field of a line is returned raw. */
  lemma LastFieldRawExample()
    ensures CsvLineTo1DArray("a , b ", ',', false) == ["a", " b "]
  {
    PlainLineIsSplit("a , b ", ',', false);
    LastFieldRawParts();
  }

  /** The pieces of the example above: its split, and the split closed as a line. */
  lemma LastFieldRawParts()
    ensures Split("a , b ", ',') == ["a ", " b "]
    ensures CloseInit(["a ", " b "], false) == ["a", " b "]
  {
    assert "a , b " == "a " + [','] + " b ";
    SplitAtFirstSep("a ", " b ", ',');
    SplitNoSep(" b ", ',');
    ClosedSpaceTrimmed();
    assert Init(["a ", " b "]) == ["a "];
    assert MapClose(["a "], false) == [CloseField("a ", false)];
  }

  /** The closed field of the example above loses its trailing space. */
  lemma ClosedSpaceTrimmed()
    ensures CloseField("a ", false) == "a"
  {
    assert "a "[1..] == " ";
    assert Collapse(" ") == " ";
    assert Collapse("a ") == "a ";
    assert TrimEnd("a ") == "a";
  }
}

=== FILE: gbif_to_val.dfy ===
/**
 * Conversion of GBIF taxon records to the VAL species-index row: the fixed-shape row
 * template, the parent-key lookup by rank, the split of a scientific name into canonical
 * name and author, and the two record builders.
 *
 * A GBIF record is a plain object of JavaScript values; a missing property reads as
 * `undefined`.
 */
module GbifToVal {
  import opened Wrappers
  import opened Text
  import opened Js

  /** The property `name` of `o` when it is truthy, `null` otherwise. */
  function OrNull(o: Obj<Value>, name: string): (v: Value)
    ensures Truthy(Field(o, name)) ==> v == Field(o, name)
    ensures !Truthy(Field(o, name)) ==> v == Null
  {
    OrElse(Field(o, name), Null)
  }

  /** A property the code calls string methods on when it is truthy. */
  predicate TextWhenTruthy(v: Value)
  {
    Truthy(v) ==> v.Str?
  }

  /** The property `name` of `o` lower-cased when it is truthy, `null` otherwise. */
  function LowerOrNull(o: Obj<Value>, name: string): (v: Value)
    requires TextWhenTruthy(Field(o, name))
    ensures Truthy(Field(o, name)) ==> v == Str(ToLower(Field(o, name).s))
    ensures !Truthy(Field(o, name)) ==> v == Null
  {
    if Truthy(Field(o, name)) then Str(ToLower(Field(o, name).s)) else Null
  }

  // ---------------------------------------------------------------------------
  // Parent key from the rank keys

  /** The ranks above species, from the top. */
  const HigherRanks: seq<string> := ["kingdom", "phylum", "class", "order", "family", "genus", "species"]

  /** The key property a lower-case rank takes its parent from, if it is one of the known ranks. */
  function ParentKeyField(rank: string): Option<string>
  {
    match rank
    case "kingdom" => Some("kingdomKey")
    case "phylum" => Some("kingdomKey")
    case "class" => Some("phylumKey")
    case "order" => Some("classKey")
    case "family" => Some("orderKey")
    case "genus" => Some("familyKey")
    case "species" => Some("genusKey")
    case "subspecies" => Some("speciesKey")
    case "variety" => Some("speciesKey")
    case _ => None
  }

  /**
   * Each rank below kingdom takes its parent from the key of the next higher rank; kingdom is
   * its own parent, and subspecies and variety hang from the species.
   */
  lemma ParentIsNextHigherRank()
    ensures forall i :: 1 <= i < |HigherRanks| ==> ParentKeyField(HigherRanks[i]) == Some(HigherRanks[i - 1] + "Key")
    ensures ParentKeyField("kingdom") == Some("kingdom" + "Key")
    ensures ParentKeyField("subspecies") == Some("species" + "Key")
    ensures ParentKeyField("variety") == Some("species" + "Key")
  {
    assert "kingdom" + "Key" == "kingdomKey";
    assert "phylum" + "Key" == "phylumKey";
    assert "class" + "Key" == "classKey";
    assert "order" + "Key" == "orderKey";
    assert "family" + "Key" == "familyKey";
    assert "genus" + "Key" == "genusKey";
    assert "species" + "Key" == "speciesKey";
  }

  /** The record's rank: `rank` when truthy, else `taxonRank` when truthy, else `null`. */
  function RankOf(gbif: Obj<Value>): Value
  {
    OrElse(Field(gbif, "rank"), OrElse(Field(gbif, "taxonRank"), Null))
  }

  /**
   * `getParentKeyFromTreeKeys(gbif)`: the key of the next higher rank, chosen by the record's
   * rank compared without regard to case; `null` without a rank or for a rank outside the table.
   */
  function GetParentKeyFromTreeKeys(gbif: Obj<Value>): (r: Value)
    requires TextWhenTruthy(RankOf(gbif))
    ensures !Truthy(RankOf(gbif)) ==> r == Null
    ensures Truthy(RankOf(gbif)) && ParentKeyField(ToLower(RankOf(gbif).s)).None? ==> r == Null
  {
    var rank := RankOf(gbif);
    if !Truthy(rank) then Null
    else
      match ParentKeyField(ToLower(rank.s))
      case None => Null
      case Some(f) => Field(gbif, f)
  }

  /**
   * For a record with a rank, the parent key is the key property of the next higher rank,
   * compared without regard to case; kingdom is its own parent and subspecies and variety
   * take the species key.
   */
  lemma ParentKeyByRank(gbif: Obj<Value>)
    requires TextWhenTruthy(RankOf(gbif)) && Truthy(RankOf(gbif))
    ensures var rank := ToLower(RankOf(gbif).s);
            var r := GetParentKeyFromTreeKeys(gbif);
            && (forall i :: 1 <= i < |HigherRanks| && rank == HigherRanks[i] ==> r == Field(gbif, HigherRanks[i - 1] + "Key"))
            && (rank == "kingdom" ==> r == Field(gbif, "kingdomKey"))
            && (rank == "subspecies" || rank == "variety" ==> r == Field(gbif, "speciesKey"))
  {
    var rank := ToLower(RankOf(gbif).s);
    forall i | 1 <= i < |HigherRanks| && rank == HigherRanks[i]
      ensures GetParentKeyFromTreeKeys(gbif) == Field(gbif, HigherRanks[i - 1] + "Key")
    {
      ParentIsNextHigherRank();
      assert ParentKeyField(HigherRanks[i]) == Some(HigherRanks[i - 1] + "Key");
      ParentFromField(gbif, HigherRanks[i - 1] + "Key");
    }
    if rank == "kingdom" {
      assert ParentKeyField(rank) == Some("kingdomKey");
      ParentFromField(gbif, "kingdomKey");
    }
    if rank == "subspecies" || rank == "variety" {
      assert ParentKeyField(rank) == Some("speciesKey");
      ParentFromField(gbif, "speciesKey");
    }
  }

  /** Once the rank names its parent's key property, the parent key is that property. */
  lemma ParentFromField(gbif: Obj<Value>, f: string)
    requires TextWhenTruthy(RankOf(gbif)) && Truthy(RankOf(gbif))
    requires ParentKeyField(ToLower(RankOf(gbif).s)) == Some(f)
    ensures GetParentKeyFromTreeKeys(gbif) == Field(gbif, f)
  {
  }

  /** A rank outside the table has no parent key. */
  lemma NoParentOutsideTable(gbif: Obj<Value>)
    requires TextWhenTruthy(RankOf(gbif)) && Truthy(RankOf(gbif))
    requires var rank := ToLower(RankOf(gbif).s);
             rank !in HigherRanks && rank != "subspecies" && rank != "variety"
    ensures GetParentKeyFromTreeKeys(gbif) == Null
  {
    var rank := ToLower(RankOf(gbif).s);
    assert forall i :: 0 <= i < |HigherRanks| ==> rank != HigherRanks[i];
  }

  // ---------------------------------------------------------------------------
  // Canonical name and author from a scientific name

  /** `name.replace(/  /g, " ")`: each pair of spaces, taken left to right, becomes one space. */
  function SingleSpaces(s: string): (r: string)
    ensures |r| <= |s|
  {
    if |s| == 0 then ""
    else if |s| >= 2 && s[0] == ' ' && s[1] == ' ' then " " + SingleSpaces(s[2..])
    else [s[0]] + SingleSpaces(s[1..])
  }

  /** The name's space-separated tokens, after the double spaces are replaced. */
  function Tokens(name: string): (ts: seq<string>)
    ensures |ts| > 0
    ensures Join(ts, " ") == SingleSpaces(name)
  {
    SplitThenJoin(SingleSpaces(name), ' ');
    Split(SingleSpaces(name), ' ')
  }

  /** `tokens[i]` in a string concatenation: past the end it reads `undefined`. */
  function Tok(ts: seq<string>, i: nat): string
  {
    if i < |ts| then ts[i] else "undefined"
  }

  /**
   * The author accumulated by the loop over `tokens[start..end)`: the first token sets it and
   * each later one is appended after a space; `null` when the loop does not run.
   */
  function AuthorLoop(ts: seq<string>, start: nat, end: nat): (a: Option<string>)
    requires end <= |ts|
    ensures a.Some? <==> start < end
  {
    if end <= start then None
    else if end == start + 1 then Some(ts[start])
    else Some(AuthorLoop(ts, start, end - 1).value + " " + ts[end - 1])
  }

  /** The author from token `start` on. */
  function Author(ts: seq<string>, start: nat): Option<string>
  {
    AuthorLoop(ts, start, |ts|)
  }

  /** The loop's author is the remaining tokens joined by single spaces. */
  lemma {:induction false} AuthorLoopIsJoin(ts: seq<string>, start: nat, end: nat)
    requires start < end <= |ts|
    ensures AuthorLoop(ts, start, end) == Some(Join(ts[start..end], " "))
  {
    if end > start + 1 {
      AuthorLoopIsJoin(ts, start, end - 1);
      JoinSnoc(ts[start..end - 1], ts[end - 1], " ");
      assert ts[start..end - 1] + [ts[end - 1]] == ts[start..end];
    } else {
      assert ts[start..end] == [ts[start]];
    }
  }

  /** A marker written between the species and the infraspecific name. */
  predicate IsRankMarker(t: string)
  {
    t == "subsp." || t == "var." || t == "f."
  }

  predicate IsInfraspecific(lowerRank: string)
  {
    lowerRank == "subspecies" || lowerRank == "variety" || lowerRank == "form"
  }

  /** The result of `parseCanonAuthorFromScientificRank`: `{canon, author}`. */
  datatype CanonAuthor = CanonAuthor(canon: string, author: Option<string>)

  /** Where the canonical name ends and the author begins, by rank and marker. */
  function AuthorStart(ts: seq<string>, lowerRank: string): nat
  {
    if lowerRank == "species" then 2
    else if IsInfraspecific(lowerRank) then (if |ts| > 2 && IsRankMarker(ts[2]) then 4 else 3)
    else 1
  }

  /** `parseCanonAuthorFromScientificRank(name, rank)`. */
  function ParseCanonAuthor(name: string, rank: string): (r: CanonAuthor)
    ensures r.author.Some? <==> AuthorStart(Tokens(name), ToLower(rank)) < |Tokens(name)|
    ensures r.author.Some? ==>
              r.author == Some(Join(Tokens(name)[AuthorStart(Tokens(name), ToLower(rank))..], " "))
  {
    var ts := Tokens(name);
    var lower := ToLower(rank);
    var r :=
      if lower == "species" then CanonAuthor(Tok(ts, 0) + " " + Tok(ts, 1), Author(ts, 2))
      else if IsInfraspecific(lower) then
        if |ts| > 2 && IsRankMarker(ts[2]) then CanonAuthor(Tok(ts, 0) + " " + Tok(ts, 1) + " " + Tok(ts, 3), Author(ts, 4))
        else CanonAuthor(Tok(ts, 0) + " " + Tok(ts, 1) + " " + Tok(ts, 2), Author(ts, 3))
      else CanonAuthor(ts[0], Author(ts, 1));
    var start := AuthorStart(ts, lower);
    if start < |ts| then
      AuthorLoopIsJoin(ts, start, |ts|);
      assert ts[start..|ts|] == ts[start..];
      r
    else r
  }

  /** Any other rank: the canonical name is the first token and the author is the rest. */
  lemma ParseOtherRank(name: string, rank: string)
    requires ToLower(rank) != "species" && !IsInfraspecific(ToLower(rank))
    ensures var r := ParseCanonAuthor(name, rank);
            && r.canon == Tokens(name)[0]
            && (r.author.None? <==> |Tokens(name)| == 1)
            && (r.author.Some? ==> r.canon + " " + r.author.value == SingleSpaces(name))
            && (r.author.None? ==> r.canon == SingleSpaces(name))
  {
    var ts := Tokens(name);
    if |ts| > 1 {
      JoinSplitAt(ts, 1, " ");
      assert ts[..1] == [ts[0]];
    }
  }

  /** Species: the canonical name is the first two tokens and the author is the rest. */
  lemma {:induction false} ParseSpecies(name: string, rank: string)
    requires ToLower(rank) == "species" && |Tokens(name)| >= 2
    ensures var r := ParseCanonAuthor(name, rank);
            && r.canon == Join(Tokens(name)[..2], " ")
            && (r.author.None? <==> |Tokens(name)| == 2)
            && (r.author.Some? ==> r.canon + " " + r.author.value == SingleSpaces(name))
            && (r.author.None? ==> r.canon == SingleSpaces(name))
  {
    var ts := Tokens(name);
    assert ts[..2][1..] == [ts[1]];
    if |ts| > 2 {
      JoinSplitAt(ts, 2, " ");
    } else {
      assert ts[..2] == ts;
    }
  }

  /**
   * Subspecies, variety or form without a marker: the canonical name is the first three
   * tokens and the author is the rest.
   */
  lemma ParseInfraspecificUnmarked(name: string, rank: string)
    requires IsInfraspecific(ToLower(rank)) && |Tokens(name)| >= 3 && !IsRankMarker(Tokens(name)[2])
    ensures var r := ParseCanonAuthor(name, rank);
            && r.canon == Join(Tokens(name)[..3], " ")
            && (r.author.None? <==> |Tokens(name)| == 3)
            && (r.author.Some? ==> r.canon + " " + r.author.value == SingleSpaces(name))
            && (r.author.None? ==> r.canon == SingleSpaces(name))
  {
    var ts := Tokens(name);
    assert ts[..3] == [ts[0], ts[1], ts[2]];
    Join3(ts[0], ts[1], ts[2], " ");
    if |ts| > 3 {
      JoinSplitAt(ts, 3, " ");
    } else {
      assert ts[..3] == ts;
    }
  }

  /**
   * Subspecies, variety or form with a `subsp.`, `var.` or `f.` marker as third token: the
   * marker is dropped from the canonical name, which is tokens 0, 1 and 3; the author starts
   * at token 4; the marker put back between them gives the name again.
   */
  lemma ParseInfraspecificMarked(name: string, rank: string)
    requires IsInfraspecific(ToLower(rank)) && |Tokens(name)| >= 4 && IsRankMarker(Tokens(name)[2])
    ensures var r := ParseCanonAuthor(name, rank);
            var ts := Tokens(name);
            && r.canon == Join([ts[0], ts[1], ts[3]], " ")
            && (r.author.None? <==> |ts| == 4)
            && (r.author.Some? ==> Join([ts[0], ts[1], ts[2], ts[3]], " ") + " " + r.author.value == SingleSpaces(name))
            && (r.author.None? ==> Join([ts[0], ts[1], ts[2], ts[3]], " ") == SingleSpaces(name))
  {
    var ts := Tokens(name);
    assert ts[..4] == [ts[0], ts[1], ts[2], ts[3]];
    Join3(ts[0], ts[1], ts[3], " ");
    if |ts| > 4 {
      JoinSplitAt(ts, 4, " ");
    } else {
      assert ts[..4] == ts;
    }
  }

  lemma Join3(a: string, b: string, c: string, sep: string)
    ensures Join([a, b, c], sep) == a + sep + b + sep + c
  {
    assert [a, b, c][1..] == [b, c];
    assert [b, c][1..] == [c];
    assert Join([b, c], sep) == b + sep + Join([c], sep);
    assert Join([a, b, c], sep) == a + sep + Join([b, c], sep);
    AppendAssoc(a + sep, b + sep, c);
    AppendAssoc(a + sep, b, sep);
  }

  /** The rank is compared without regard to case. */
  lemma ParseIgnoresCase(name: string, rank: string)
    ensures ParseCanonAuthor(name, rank) == ParseCanonAuthor(name, ToLower(rank))
  {
    ToLowerIdempotent(rank);
  }

  // ---------------------------------------------------------------------------
  // The VAL row

  /**
   * A VAL species row. `initValObject` creates every column, in this order, and the builders
   * only assign existing columns, so every row has the same columns in the same order; a
   * record with one field per column keeps that by construction. The column `class` is the
   * field `className`, `class` being a reserved word here.
   */
  datatype Row = Row(
    gbifId: Value, taxonId: Value, scientificName: Value, scientificNameAuthorship: Value,
    acceptedNameUsage: Value, acceptedNameUsageId: Value, taxonRank: Value, taxonomicStatus: Value,
    parentNameUsage: Value, parentNameUsageId: Value,
    specificEpithet: Value, infraspecificEpithet: Value, nomenclaturalCode: Value,
    vernacularName: Value, taxonRemarks: Value,
    kingdom: Value, kingdomId: Value, phylum: Value, phylumId: Value,
    className: Value, classId: Value, order: Value, orderId: Value, family: Value, familyId: Value,
    genus: Value, genusId: Value, species: Value, speciesId: Value,
    datasetName: Value, datasetId: Value, bibliographicCitation: Value, references: Value,
    institutionCode: Value, collectionCode: Value, establishmentMeans: Value)

  /** The columns that keep the template's value unless a builder assigns them. */
  predicate DatasetColumnsBlank(val: Row)
  {
    && val.parentNameUsage == Str("")
    && val.datasetName == Str("") && val.datasetId == Str("") && val.bibliographicCitation == Str("")
    && val.references == Str("") && val.institutionCode == Str("") && val.collectionCode == Str("")
    && val.establishmentMeans == Str("")
  }

  /** The names of the row's columns, in template order. */
  const ColumnNames: seq<string> := [
    "gbifId", "taxonId", "scientificName", "scientificNameAuthorship",
    "acceptedNameUsage", "acceptedNameUsageId", "taxonRank", "taxonomicStatus",
    "parentNameUsage", "parentNameUsageId",
    "specificEpithet", "infraspecificEpithet", "nomenclaturalCode",
    "vernacularName", "taxonRemarks",
    "kingdom", "kingdomId", "phylum", "phylumId",
    "class", "classId", "order", "orderId", "family", "familyId",
    "genus", "genusId", "species", "speciesId",
    "datasetName", "datasetId", "bibliographicCitation", "references",
    "institutionCode", "collectionCode", "establishmentMeans"]

  /** The row's values, one per entry of `ColumnNames`. */
  function RowValues(val: Row): (vs: seq<Value>)
    ensures |vs| == |ColumnNames|
  {
    [ val.gbifId, val.taxonId, val.scientificName, val.scientificNameAuthorship,
      val.acceptedNameUsage, val.acceptedNameUsageId, val.taxonRank, val.taxonomicStatus,
      val.parentNameUsage, val.parentNameUsageId,
      val.specificEpithet, val.infraspecificEpithet, val.nomenclaturalCode,
      val.vernacularName, val.taxonRemarks,
      val.kingdom, val.kingdomId, val.phylum, val.phylumId,
      val.className, val.classId, val.order, val.orderId, val.family, val.familyId,
      val.genus, val.genusId, val.species, val.speciesId,
      val.datasetName, val.datasetId, val.bibliographicCitation, val.references,
      val.institutionCode, val.collectionCode, val.establishmentMeans ]
  }

  /** Every column holds the empty string. */
  predicate AllBlank(val: Row)
  {
    RowValues(val) == seq(|ColumnNames|, _ => Str(""))
  }

  /** `initValObject()`: the 36 columns, every one holding `''`. */
  function InitValObject(): (val: Row)
    ensures |RowValues(val)| == 36
    ensures AllBlank(val)
    ensures DatasetColumnsBlank(val)
  {
    var e := Str("");
    Row(e, e, e, e, e, e, e, e, e, e, e, e, e, e, e, e, e, e, e, e, e, e, e, e, e, e, e, e, e, e, e, e, e, e, e, e)
  }

  /** The row the template builds is the only row whose every column is blank. */
  lemma BlankRowIsTemplate(val: Row)
    ensures AllBlank(val) <==> val == InitValObject()
  {
  }

  /**
   * The higher-taxon assignments both builders end with: each column takes the record's
   * property (`kingdomId` takes `kingdomKey`, and so on) when truthy and `null` otherwise.
   */
  function PutTaxa(val: Row, gbif: Obj<Value>): (r: Row)
    ensures r.kingdom == OrNull(gbif, "kingdom") && r.kingdomId == OrNull(gbif, "kingdomKey")
    ensures r.species == OrNull(gbif, "species") && r.speciesId == OrNull(gbif, "speciesKey")
    ensures r.taxonRemarks == OrNull(gbif, "remarks") && r.vernacularName == OrNull(gbif, "vernacularName")
    ensures r.phylum == OrNull(gbif, "phylum") && r.phylumId == OrNull(gbif, "phylumKey")
    ensures r.className == OrNull(gbif, "class") && r.classId == OrNull(gbif, "classKey")
    ensures r.order == OrNull(gbif, "order") && r.orderId == OrNull(gbif, "orderKey")
    ensures r.family == OrNull(gbif, "family") && r.familyId == OrNull(gbif, "familyKey")
    ensures r.genus == OrNull(gbif, "genus") && r.genusId == OrNull(gbif, "genusKey")
    ensures r.(vernacularName := val.vernacularName, taxonRemarks := val.taxonRemarks,
               kingdom := val.kingdom, kingdomId := val.kingdomId, phylum := val.phylum, phylumId := val.phylumId,
               className := val.className, classId := val.classId, order := val.order, orderId := val.orderId,
               family := val.family, familyId := val.familyId, genus := val.genus, genusId := val.genusId,
               species := val.species, speciesId := val.speciesId) == val
  {
    val.(vernacularName := OrNull(gbif, "vernacularName"),
         taxonRemarks := OrNull(gbif, "remarks"),
         kingdom := OrNull(gbif, "kingdom"),
         kingdomId := OrNull(gbif, "kingdomKey"),
         phylum := OrNull(gbif, "phylum"),
         phylumId := OrNull(gbif, "phylumKey"),
         className := OrNull(gbif, "class"),
         classId := OrNull(gbif, "classKey"),
         order := OrNull(gbif, "order"),
         orderId := OrNull(gbif, "orderKey"),
         family := OrNull(gbif, "family"),
         familyId := OrNull(gbif, "familyKey"),
         genus := OrNull(gbif, "genus"),
         genusId := OrNull(gbif, "genusKey"),
         species := OrNull(gbif, "species"),
         speciesId := OrNull(gbif, "speciesKey"))
  }

  /** `tokens[i]` as a value: `undefined` past the end. */
  function TokenValue(ts: seq<string>, i: nat): Value
  {
    if i < |ts| then Str(ts[i]) else Undefined
  }

  /**
   * What a GBIF species record must hold for the builder's string methods to apply. The rank
   * is lower-cased for the parent lookup only when the record has no parent key.
   */
  predicate DirectInput(gbif: Obj<Value>)
  {
    && TextWhenTruthy(Field(gbif, "canonicalName"))
    && TextWhenTruthy(Field(gbif, "rank"))
    && TextWhenTruthy(Field(gbif, "taxonomicStatus"))
    && (!Truthy(Field(gbif, "parentKey")) ==> TextWhenTruthy(RankOf(gbif)))
  }

  /** The record's `rank` lower-cased when it is truthy, and `undefined` otherwise. */
  function LowerRank(gbif: Obj<Value>): Option<string>
    requires TextWhenTruthy(Field(gbif, "rank"))
  {
    if Truthy(Field(gbif, "rank")) then Some(ToLower(Field(gbif, "rank").s)) else None
  }

  /**
   * The epithet assignments, made only for a record with a canonical name: the species
   * epithet is its second token for a species, `null` otherwise; the infraspecific epithet
   * is set three times in a row, each later assignment keeping the earlier value unless its
   * own rank matches.
   */
  function PutEpithets(val: Row, gbif: Obj<Value>): (r: Row)
    requires DirectInput(gbif)
    ensures r.(specificEpithet := val.specificEpithet, infraspecificEpithet := val.infraspecificEpithet) == val
  {
    var canon := Field(gbif, "canonicalName");
    if !Truthy(canon) then val
    else
      var rank := LowerRank(gbif);
      var sub := Split(canon.s, ' ');
      var v1 := val.(specificEpithet := if rank == Some("species") then TokenValue(sub, 1) else Null);
      var v2 := v1.(infraspecificEpithet := if rank == Some("subspecies") then TokenValue(sub, 2) else Null);
      var v3 := v2.(infraspecificEpithet := if rank == Some("variety") then TokenValue(sub, 2) else v2.infraspecificEpithet);
      v3.(infraspecificEpithet := if rank == Some("form") then TokenValue(sub, 2) else v3.infraspecificEpithet)
  }

  /**
   * The epithets come out as the ranks ask: with a canonical name, the species epithet is
   * its second token exactly for a species and the infraspecific epithet its third token
   * exactly for a subspecies, variety or form, `null` otherwise; without one nothing changes.
   */
  lemma EpithetsByRank(val: Row, gbif: Obj<Value>)
    requires DirectInput(gbif)
    ensures var r := PutEpithets(val, gbif);
            var canon := Field(gbif, "canonicalName");
            var rank := LowerRank(gbif);
            && (!Truthy(canon) ==> r == val)
            && (Truthy(canon) && rank == Some("species") ==> r.specificEpithet == TokenValue(Split(canon.s, ' '), 1))
            && (Truthy(canon) && rank != Some("species") ==> r.specificEpithet == Null)
            && (Truthy(canon) && rank.Some? && IsInfraspecific(rank.value) ==>
                  r.infraspecificEpithet == TokenValue(Split(canon.s, ' '), 2))
            && (Truthy(canon) && !(rank.Some? && IsInfraspecific(rank.value)) ==> r.infraspecificEpithet == Null)
  {
  }

  /**
   * `gbifToValDirect(gbif)`: the row template with the species record's values assigned.
   * The identifiers are the record's key; the scientific name is the canonical name when there
   * is one, so that it carries no author; the accepted name and key fall back to the record's
   * own; rank and status are lower-cased; the parent is the record's parent key or else the
   * key of the next higher rank; the code is `GBIF`; the dataset columns keep `''`.
   */
  function GbifToValDirect(gbif: Obj<Value>): (val: Row)
    requires DirectInput(gbif)
    ensures val.gbifId == Field(gbif, "key") && val.taxonId == Field(gbif, "key")
    ensures Truthy(Field(gbif, "canonicalName")) ==> val.scientificName == Field(gbif, "canonicalName")
    ensures !Truthy(Field(gbif, "canonicalName")) ==> val.scientificName == Field(gbif, "scientificName")
    ensures Truthy(Field(gbif, "acceptedKey")) ==> val.acceptedNameUsageId == Field(gbif, "acceptedKey")
    ensures !Truthy(Field(gbif, "acceptedKey")) ==> val.acceptedNameUsageId == val.gbifId
    ensures Truthy(Field(gbif, "accepted")) ==> val.acceptedNameUsage == Field(gbif, "accepted")
    ensures !Truthy(Field(gbif, "accepted")) ==> val.acceptedNameUsage == Field(gbif, "scientificName")
    ensures val.taxonRank == LowerOrNull(gbif, "rank")
    ensures val.taxonomicStatus == LowerOrNull(gbif, "taxonomicStatus")
    ensures Truthy(Field(gbif, "parentKey")) ==> val.parentNameUsageId == Field(gbif, "parentKey")
    ensures !Truthy(Field(gbif, "parentKey")) ==> val.parentNameUsageId == GetParentKeyFromTreeKeys(gbif)
    ensures val.nomenclaturalCode == Str("GBIF")
    ensures val.scientificNameAuthorship == OrNull(gbif, "authorship")
    ensures val.specificEpithet == PutEpithets(InitValObject(), gbif).specificEpithet
    ensures val.infraspecificEpithet == PutEpithets(InitValObject(), gbif).infraspecificEpithet
    ensures val == PutTaxa(val, gbif)
    ensures DatasetColumnsBlank(val)
  {
    var v := PutEpithets(InitValObject(), gbif);
    var v := v.(gbifId := Field(gbif, "key"),
                taxonId := Field(gbif, "key"),
                scientificName := OrElse(Field(gbif, "canonicalName"), Field(gbif, "scientificName")),
                acceptedNameUsageId := OrElse(Field(gbif, "acceptedKey"), Field(gbif, "key")),
                acceptedNameUsage := OrElse(Field(gbif, "accepted"), Field(gbif, "scientificName")),
                taxonRank := LowerOrNull(gbif, "rank"),
                taxonomicStatus := LowerOrNull(gbif, "taxonomicStatus"),
                parentNameUsageId := if Truthy(Field(gbif, "parentKey")) then Field(gbif, "parentKey")
                                     else GetParentKeyFromTreeKeys(gbif),
                nomenclaturalCode := Str("GBIF"),
                scientificNameAuthorship := OrNull(gbif, "authorship"));
    PutTaxa(v, gbif)
  }

  /**
   * A record with a parent key never reaches the tree-key lookup, so its rank need not be a
   * string: `{taxonRank: 5, parentKey: 7}` is mapped, with 7 as the parent.
   */
  lemma ParentKeySkipsRankLookup()
    ensures var gbif := [("taxonRank", Num(5)), ("parentKey", Num(7))];
            DirectInput(gbif) && GbifToValDirect(gbif).parentNameUsageId == Num(7)
  {
  }

  // ---------------------------------------------------------------------------
  // Occurrence species-list records

  /**
   * What a record of an occurrence download's species list must hold: a scientific name and
   * a rank to split it by, and string values wherever the code lower-cases one (the rank
   * for the parent lookup only when the record has no parent key).
   */
  predicate OccInput(gbif: Obj<Value>)
  {
    && Field(gbif, "scientificName").Str?
    && Field(gbif, "taxonRank").Str?
    && TextWhenTruthy(Field(gbif, "taxonomicStatus"))
    && (!Truthy(Field(gbif, "parentKey")) ==> TextWhenTruthy(RankOf(gbif)))
  }

  /** The record's scientific name split by its rank. */
  function OccCanonAuthor(gbif: Obj<Value>): CanonAuthor
    requires OccInput(gbif)
  {
    ParseCanonAuthor(Field(gbif, "scientificName").s, Field(gbif, "taxonRank").s)
  }

  /** A parsed author as a property value: `null` when there is none. */
  function AuthorValue(a: Option<string>): Value
  {
    match a
    case None => Null
    case Some(s) => Str(s)
  }

  /**
   * The record as `gbifOccSpeciesToValDirect` leaves it: the parsed canonical name and
   * author are written back onto it; every other property is as it was.
   */
  function OccRecord(gbif: Obj<Value>): (rec: Obj<Value>)
    requires OccInput(gbif)
    ensures Field(rec, "canonicalName") == Str(OccCanonAuthor(gbif).canon)
    ensures Field(rec, "authorship") == AuthorValue(OccCanonAuthor(gbif).author)
    ensures forall name :: name != "canonicalName" && name != "authorship" ==> Field(rec, name) == Field(gbif, name)
  {
    var ca := OccCanonAuthor(gbif);
    Put(Put(gbif, "canonicalName", Str(ca.canon)), "authorship", AuthorValue(ca.author))
  }

  /**
   * `gbifOccSpeciesToValDirect(gbif)`: the row for a species-list record, whose scientific
   * name carries the author. The name is split by rank; the canonical part becomes the
   * scientific name and the rest the authorship. The identifiers are the taxon key; the
   * accepted name and key fall back to the record's own; rank and status are lower-cased;
   * the parent is the record's parent key or else the key of the next higher rank; the code
   * is `GBIF`; no epithet is set and the dataset columns keep `''`.
   */
  function GbifOccSpeciesToValDirect(gbif: Obj<Value>): (val: Row)
    requires OccInput(gbif)
    ensures val.gbifId == Field(gbif, "taxonKey") && val.taxonId == Field(gbif, "taxonKey")
    ensures OccCanonAuthor(gbif).canon != "" ==> val.scientificName == Str(OccCanonAuthor(gbif).canon)
    ensures OccCanonAuthor(gbif).canon == "" ==> val.scientificName == Field(gbif, "scientificName")
    ensures val.scientificNameAuthorship == OrElse(AuthorValue(OccCanonAuthor(gbif).author), Null)
    ensures Truthy(Field(gbif, "acceptedTaxonKey")) ==> val.acceptedNameUsageId == Field(gbif, "acceptedTaxonKey")
    ensures !Truthy(Field(gbif, "acceptedTaxonKey")) ==> val.acceptedNameUsageId == val.gbifId
    ensures Truthy(Field(gbif, "acceptedScientificName")) ==> val.acceptedNameUsage == Field(gbif, "acceptedScientificName")
    ensures !Truthy(Field(gbif, "acceptedScientificName")) ==> val.acceptedNameUsage == Field(gbif, "scientificName")
    ensures val.taxonRank == LowerOrNull(gbif, "taxonRank")
    ensures val.taxonomicStatus == LowerOrNull(gbif, "taxonomicStatus")
    ensures Truthy(Field(gbif, "parentKey")) ==> val.parentNameUsageId == Field(gbif, "parentKey")
    ensures !Truthy(Field(gbif, "parentKey")) ==> val.parentNameUsageId == GetParentKeyFromTreeKeys(gbif)
    ensures val.nomenclaturalCode == Str("GBIF")
    ensures val == PutTaxa(val, gbif)
    ensures val.specificEpithet == Str("") && val.infraspecificEpithet == Str("")
    ensures DatasetColumnsBlank(val)
  {
    // The two properties written back are read from the parse; the others are read from
    // the record, which the write-back leaves as they were (`OccRecord`).
    var ca := OccCanonAuthor(gbif);
    var v := InitValObject();
    var v := v.(gbifId := Field(gbif, "taxonKey"),
                taxonId := Field(gbif, "taxonKey"),
                scientificName := OrElse(Str(ca.canon), Field(gbif, "scientificName")),
                acceptedNameUsageId := OrElse(Field(gbif, "acceptedTaxonKey"), Field(gbif, "taxonKey")),
                acceptedNameUsage := OrElse(Field(gbif, "acceptedScientificName"), Field(gbif, "scientificName")),
                taxonRank := LowerOrNull(gbif, "taxonRank"),
                taxonomicStatus := LowerOrNull(gbif, "taxonomicStatus"),
                parentNameUsageId := if Truthy(Field(gbif, "parentKey")) then Field(gbif, "parentKey")
                                     else GetParentKeyFromTreeKeys(gbif),
                nomenclaturalCode := Str("GBIF"),
                scientificNameAuthorship := OrElse(AuthorValue(ca.author), Null));
    PutTaxa(v, gbif)
  }

  /**
   * Outside the infraspecific ranks, the split loses nothing and moves no token across: the
   * canonical name and the author, put back together, give the name with its double spaces
   * collapsed.
   */
  lemma SplitRebuildsName(name: string, rank: string)
    requires !IsInfraspecific(ToLower(rank))
    requires ToLower(rank) == "species" ==> |Tokens(name)| >= 2
    ensures var ca := ParseCanonAuthor(name, rank);
            && (ca.author.Some? ==> ca.canon + " " + ca.author.value == SingleSpaces(name))
            && (ca.author.None? ==> ca.canon == SingleSpaces(name))
  {
    if ToLower(rank) == "species" {
      ParseSpecies(name, rank);
    } else {
      ParseOtherRank(name, rank);
    }
  }

  /**
   * The row's scientific name and authorship, put back together, give the record's
   * scientific name with its double spaces collapsed; an empty author (the name ended in a
   * space) reads as `null`.
   */
  lemma {:induction false} OccRowRebuildsName(gbif: Obj<Value>)
    requires OccInput(gbif)
    requires var name := Field(gbif, "scientificName").s;
             var rank := ToLower(Field(gbif, "taxonRank").s);
             && !IsInfraspecific(rank)
             && (rank == "species" ==> |Tokens(name)| >= 2)
             && OccCanonAuthor(gbif).canon != ""
    ensures var val := GbifOccSpeciesToValDirect(gbif);
            var name := Field(gbif, "scientificName").s;
            && val.scientificName.Str?
            && (val.scientificNameAuthorship.Str? ==>
                  val.scientificName.s + " " + val.scientificNameAuthorship.s == SingleSpaces(name))
            && (val.scientificNameAuthorship.Null? ==>
                  val.scientificName.s == SingleSpaces(name) || val.scientificName.s + " " == SingleSpaces(name))
  {
    var name := Field(gbif, "scientificName").s;
    var rank := Field(gbif, "taxonRank").s;
    var val := GbifOccSpeciesToValDirect(gbif);
    var ca := ParseCanonAuthor(name, rank);
    assert val.scientificName == Str(ca.canon);
    SplitRebuildsName(name, rank);
    if ca.author.Some? && ca.author.value == "" {
      assert ca.canon + " " + "" == ca.canon + " ";
    }
  }
}

=== FILE: js.dfy ===
/**
 * JavaScript values and plain objects, as far as the repository's pure logic observes them:
 * truthiness, `==`-null tests, and objects as insertion-ordered property lists in which
 * assigning an existing key overwrites it in place and assigning a new key appends it.
 */
module Js {
  import opened Wrappers

  /**
   * A JavaScript value. Numbers are integral (the repository only handles integer keys and
   * counts); `Opaque` stands for any object value, arrays and Dates included: it is truthy,
   * has no string methods and is taken to coerce to `NaN`, as a plain object does.
   */
  datatype Value = Undefined | Null | Bool(b: bool) | Num(n: int) | Str(s: string) | Opaque

  /** JavaScript truthiness: `false`, `0`, `''`, `null` and `undefined` are falsy. */
  predicate Truthy(v: Value)
  {
    match v
    case Bool(b) => b
    case Num(n) => n != 0
    case Str(s) => s != ""
    case Opaque => true
    case _ => false
  }

  /** `v != null` in JavaScript's loose comparison: false for both `null` and `undefined`. */
  predicate NotNullish(v: Value)
  {
    !v.Null? && !v.Undefined?
  }

  /** `a` when it is truthy, `b` otherwise. */
  function OrElse(a: Value, b: Value): (r: Value)
    ensures Truthy(a) ==> r == a
    ensures !Truthy(a) ==> r == b
  {
    if Truthy(a) then a else b
  }

  /** Properties in enumeration (insertion) order, under keys of any type. */
  type Props<K, V> = seq<(K, V)>

  /** A plain object: its string-keyed properties in enumeration (insertion) order. */
  type Obj<V> = Props<string, V>

  function Keys<K, V>(o: Props<K, V>): (ks: seq<K>)
    ensures |ks| == |o|
    ensures forall i :: 0 <= i < |o| ==> ks[i] == o[i].0
  {
    if |o| == 0 then [] else [o[0].0] + Keys(o[1..])
  }

  /** `o[k]`, with `None` for a missing property. */
  function Lookup<K(==), V>(o: Props<K, V>, k: K): (r: Option<V>)
    ensures r.None? <==> k !in Keys(o)
  {
    if |o| == 0 then None
    else if o[0].0 == k then Some(o[0].1)
    else Lookup(o[1..], k)
  }

  /** The value of property `name`, or `undefined` when `o` has no such property. */
  function Field<K(==)>(o: Props<K, Value>, name: K): (v: Value)
    ensures name !in Keys(o) ==> v == Undefined
  {
    match Lookup(o, name)
    case None => Undefined
    case Some(v) => v
  }

  /** Property assignment `o[k] = v`. */
  function Put<K(==,!new), V>(o: Props<K, V>, k: K, v: V): (r: Props<K, V>)
    ensures Lookup(r, k) == Some(v)
    ensures forall k' :: k' != k ==> Lookup(r, k') == Lookup(o, k')
  {
    if |o| == 0 then [(k, v)]
    else if o[0].0 == k then
      var r := [(k, v)] + o[1..];
      assert r[1..] == o[1..];
      r
    else
      var rest := Put(o[1..], k, v);
      var r := [o[0]] + rest;
      assert r[0] == o[0] && r[1..] == rest;
      r
  }

  /** Assigning an existing property keeps the key order; a new one is appended. */
  lemma {:induction false} PutKeys<K(!new), V>(o: Props<K, V>, k: K, v: V)
    ensures k in Keys(o) ==> Keys(Put(o, k, v)) == Keys(o)
    ensures k !in Keys(o) ==> Keys(Put(o, k, v)) == Keys(o) + [k]
  {
    if |o| > 0 {
      var r := Put(o, k, v);
      assert Keys(o) == [o[0].0] + Keys(o[1..]);
      if o[0].0 == k {
        assert r[1..] == o[1..];
        assert Keys(r) == [k] + Keys(o[1..]);
      } else {
        PutKeys(o[1..], k, v);
        var rest := Put(o[1..], k, v);
        assert r == [o[0]] + rest;
        assert r[1..] == rest;
        assert Keys(r) == [o[0].0] + Keys(rest);
        if k !in Keys(o) {
          assert Keys(rest) == Keys(o[1..]) + [k];
          AppendAssocSeq([o[0].0], Keys(o[1..]), [k]);
        }
      }
    }
  }

  lemma AppendAssocSeq<T>(a: seq<T>, b: seq<T>, c: seq<T>)
    ensures a + (b + c) == (a + b) + c
  {
  }

  /** Keys occurring in `ks` with their first occurrences kept, in order. */
  function FirstOccurrences(ks: seq<string>): (r: seq<string>)
    ensures forall k :: k in r <==> k in ks
  {
    if |ks| == 0 then []
    else
      var r := FirstOccurrences(ks[..|ks| - 1]);
      if ks[|ks| - 1] in r then r else r + [ks[|ks| - 1]]
  }

  predicate Distinct(ks: seq<string>)
  {
    forall i, j :: 0 <= i < j < |ks| ==> ks[i] != ks[j]
  }

  /** The object built by assigning `o[ks[i]] = vs[i]` for `i` in order, from `{}`. */
  function Build<V>(ks: seq<string>, vs: seq<V>): (o: Obj<V>)
    requires |ks| == |vs|
  {
    if |ks| == 0 then []
    else Put(Build(ks[..|ks| - 1], vs[..|vs| - 1]), ks[|ks| - 1], vs[|vs| - 1])
  }

  /** The last position of `k` in `ks`: the assignment that wins. */
  function LastIndexOf(ks: seq<string>, k: string): (i: nat)
    requires k in ks
    ensures i < |ks| && ks[i] == k
    ensures forall j :: i < j < |ks| ==> ks[j] != k
  {
    if ks[|ks| - 1] == k then |ks| - 1 else LastIndexOf(ks[..|ks| - 1], k)
  }

  lemma InPrefix(ks: seq<string>, k: string)
    requires |ks| > 0 && k in ks && ks[|ks| - 1] != k
    ensures k in ks[..|ks| - 1]
    ensures LastIndexOf(ks, k) == LastIndexOf(ks[..|ks| - 1], k)
  {
    var i :| 0 <= i < |ks| && ks[i] == k;
    assert ks[..|ks| - 1][i] == k;
  }

  /** Each key of a built object holds the value of its last assignment; other keys are absent. */
  lemma {:induction false} BuildLookup<V>(ks: seq<string>, vs: seq<V>, k: string)
    requires |ks| == |vs|
    ensures k in ks ==> Lookup(Build(ks, vs), k) == Some(vs[LastIndexOf(ks, k)])
    ensures k !in ks ==> Lookup(Build(ks, vs), k) == None
  {
    if |ks| > 0 {
      var n := |ks| - 1;
      var prev := Build(ks[..n], vs[..n]);
      assert Build(ks, vs) == Put(prev, ks[n], vs[n]);
      if k == ks[n] {
        assert LastIndexOf(ks, k) == n;
      } else {
        BuildLookup(ks[..n], vs[..n], k);
        assert Lookup(Build(ks, vs), k) == Lookup(prev, k);
        if k in ks {
          InPrefix(ks, k);
        } else {
          assert k !in ks[..n];
        }
      }
    }
  }

  /** A built object has the assigned keys, each once, in order of first assignment. */
  lemma {:induction false} BuildKeys<V>(ks: seq<string>, vs: seq<V>)
    requires |ks| == |vs|
    ensures Keys(Build(ks, vs)) == FirstOccurrences(ks)
  {
    if |ks| > 0 {
      var n := |ks| - 1;
      var prev := Build(ks[..n], vs[..n]);
      var firsts := FirstOccurrences(ks[..n]);
      BuildKeys(ks[..n], vs[..n]);
      assert Keys(prev) == firsts;
      PutKeys(prev, ks[n], vs[n]);
      assert Build(ks, vs) == Put(prev, ks[n], vs[n]);
      assert FirstOccurrences(ks) == if ks[n] in firsts then firsts else firsts + [ks[n]];
    }
  }

  lemma {:induction false} FirstOccurrencesOfDistinct(ks: seq<string>)
    requires Distinct(ks)
    ensures FirstOccurrences(ks) == ks
  {
    if |ks| > 0 {
      var n := |ks| - 1;
      FirstOccurrencesOfDistinct(ks[..n]);
      assert ks[n] !in ks[..n];
      assert ks[..n] + [ks[n]] == ks;
    }
  }

  /** With distinct keys, the object built from `ks` and `vs` maps `ks[i]` to `vs[i]`, in order. */
  lemma {:induction false} BuildDistinct<V>(ks: seq<string>, vs: seq<V>)
    requires |ks| == |vs|
    requires Distinct(ks)
    ensures Keys(Build(ks, vs)) == ks
    ensures forall i :: 0 <= i < |ks| ==> Lookup(Build(ks, vs), ks[i]) == Some(vs[i])
  {
    BuildKeys(ks, vs);
    FirstOccurrencesOfDistinct(ks);
    forall i | 0 <= i < |ks|
      ensures Lookup(Build(ks, vs), ks[i]) == Some(vs[i])
    {
      BuildLookup(ks, vs, ks[i]);
    }
  }
}

=== FILE: sql_clauses.dfy ===
/**
 * The SQL fragments built from request objects by the Postgres helpers: the column list,
 * `$n` placeholder list and value list of an INSERT/UPDATE (`parseColumns`), and the
 * WHERE text with its bound values (`whereClause`).
 *
 * The file-scope caches of table columns and column types are explicit map parameters.
 */
module SqlClauses {
  import opened Wrappers
  import opened Text
  import opened Js

  /** The Postgres type OID of an array of strings (`text[]`). */
  const TextArrayOid := 1015

  /** The placeholder for the `n`-th bound value: a dollar sign followed by `n` in decimal. */
  function Placeholder(n: int): string
  {
    "$" + IntToString(n)
  }

  /** The placeholders `$first`, `$first+1`, …, `n` of them. */
  function Placeholders(first: int, n: nat): (ps: seq<string>)
    ensures |ps| == n
  {
    seq(n, j requires 0 <= j < n => Placeholder(first + j))
  }

  /** `s` between double quotes, as a column name or array element is written. */
  function Quoted(s: string): string
  {
    "\"" + s + "\""
  }

  function QuoteAll(xs: seq<string>): (r: seq<string>)
    ensures |r| == |xs|
    ensures forall i :: 0 <= i < |xs| ==> r[i] == Quoted(xs[i])
  {
    if |xs| == 0 then [] else [Quoted(xs[0])] + QuoteAll(xs[1..])
  }

  /** The first position of `k` in `ks`: `ks.indexOf(k)`. */
  function IndexOf(ks: seq<string>, k: string): (i: nat)
    requires k in ks
    ensures i < |ks| && ks[i] == k
    ensures forall j :: 0 <= j < i ==> ks[j] != k
  {
    if ks[0] == k then 0 else 1 + IndexOf(ks[1..], k)
  }

  /**
   * The column (or type) list in force: the given one, or, when it is empty and a table is
   * named, the cached one for that table (`cache[tableName] || []`).
   */
  function CachedList<T>(given: seq<T>, tableName: Option<string>, cache: map<string, seq<T>>): (r: seq<T>)
    ensures |given| > 0 || tableName.None? || tableName.value == "" ==> r == given
    ensures |given| == 0 && tableName.Some? && tableName.value in cache && tableName.value != "" ==> r == cache[tableName.value]
    ensures |given| == 0 && tableName.Some? && tableName.value !in cache ==> r == []
  {
    if |given| == 0 && tableName.Some? && tableName.value != "" then
      (if tableName.value in cache then cache[tableName.value] else [])
    else given
  }

  // ---------------------------------------------------------------------------
  // parseColumns

  /** The result of `parseColumns`: `named`, `numbered` and `values`. */
  datatype Columns = Columns(named: string, numbered: string, values: seq<Value>)

  /** `body[key].split` is not a function: a truthy non-string value in a `text[]` column. */
  datatype ColumnError = NotSplittable(key: string)

  /**
   * The Postgres array literal built from a comma-separated string: each piece in double
   * quotes, the pieces separated by commas, all in braces.
   */
  function ArrayLiteral(s: string): (r: string)
    ensures r == "{" + Join(QuoteAll(Split(s, ',')), ",") + "}"
  {
    var pieces := QuoteAll(Split(s, ','));
    StripJoinTrailing(pieces);
    "{" + StripCommaEnds(JoinTrailing(pieces, ",")) + "}"
  }

  /**
   * The pieces of an array literal are the comma-separated pieces of the input, unmodified:
   * joined back with commas they give the input, and there is one more than there are commas.
   */
  lemma ArrayLiteralPieces(s: string)
    ensures var pieces := Split(s, ',');
            && ArrayLiteral(s) == "{" + Join(QuoteAll(pieces), ",") + "}"
            && Join(pieces, ",") == s
            && |pieces| == 1 + Count(',', s)
  {
    SplitThenJoin(s, ',');
    SplitLength(s, ',');
  }

  /** The text between an array element's two quotes. */
  function Unquote(q: string): string
  {
    if |q| >= 2 then q[1..|q| - 1] else q
  }

  /** The elements of an array literal read back: the text inside the braces, split at commas, unquoted. */
  function ArrayItems(lit: string): (items: seq<string>)
    ensures |items| > 0
  {
    var pieces := Split(if |lit| >= 2 then lit[1..|lit| - 1] else lit, ',');
    seq(|pieces|, i requires 0 <= i < |pieces| => Unquote(pieces[i]))
  }

  /**
   * An array literal reads back to the comma-separated pieces of its input, so joining the
   * elements with commas gives the input.
   */
  lemma ArrayLiteralRoundTrip(s: string)
    ensures ArrayItems(ArrayLiteral(s)) == Split(s, ',')
    ensures Join(ArrayItems(ArrayLiteral(s)), ",") == s
  {
    var pieces := Split(s, ',');
    var quoted := QuoteAll(pieces);
    var lit := ArrayLiteral(s);
    var inner := Join(quoted, ",");
    assert lit[1..|lit| - 1] == inner;
    SplitPartsNoSep(s, ',');
    forall i | 0 <= i < |quoted| ensures ',' !in quoted[i] {
      assert ',' !in pieces[i];
      assert quoted[i] == "\"" + pieces[i] + "\"";
    }
    JoinThenSplit(quoted, ',');
    assert Split(inner, ',') == quoted;
    forall i | 0 <= i < |pieces| ensures Unquote(quoted[i]) == pieces[i] {
      assert quoted[i] == "\"" + pieces[i] + "\"";
    }
    SplitThenJoin(s, ',');
  }

  /** Whether `key` is a column of type `text[]`: `types[cols.indexOf(key)] == 1015`. */
  predicate IsArrayColumn(key: string, cols: seq<string>, types: seq<int>)
  {
    key in cols && IndexOf(cols, key) < |types| && types[IndexOf(cols, key)] == TextArrayOid
  }

  /**
   * The value pushed for an accepted key: an array literal for a truthy value in a `text[]`
   * column, the value itself otherwise.
   */
  function ColumnValue(key: string, v: Value, isArray: bool): (r: Result<Value, ColumnError>)
    ensures r.Failure? <==> isArray && Truthy(v) && !v.Str?
    ensures r.Failure? ==> r.error == NotSplittable(key)
    ensures r.Success? && isArray && Truthy(v) ==> r.value == Str("{" + Join(QuoteAll(Split(v.s, ',')), ",") + "}")
    ensures r.Success? && !(isArray && Truthy(v)) ==> r.value == v
  {
    if isArray && Truthy(v) then
      (if v.Str? then Success(Str(ArrayLiteral(v.s))) else Failure(NotSplittable(key)))
    else Success(v)
  }

  /**
   * The value pushed for a truthy value of an array column reads back, element by element,
   * to the value's comma-separated pieces; any other value is pushed as it is.
   */
  lemma ColumnValueReadsBack(key: string, v: Value, isArray: bool)
    ensures var r := ColumnValue(key, v, isArray);
            && (r.Success? && isArray && Truthy(v) ==>
                  r.value.Str? && ArrayItems(r.value.s) == Split(v.s, ',') && Join(ArrayItems(r.value.s), ",") == v.s)
            && (!isArray ==> r == Success(v))
  {
    if isArray && Truthy(v) && v.Str? {
      ArrayLiteralRoundTrip(v.s);
    }
  }

  /** The loop's accumulators: `cNames`, `cNumbr`, `cValues` and `idx`. */
  datatype ColumnsAcc = ColumnsAcc(names: string, numbers: string, values: seq<Value>, idx: int)

  /** One iteration of the loop over the body's keys. */
  function AddColumn(a: ColumnsAcc, key: string, v: Value, cols: seq<string>, types: seq<int>): Result<ColumnsAcc, ColumnError>
  {
    if key in cols then
      match ColumnValue(key, v, IsArrayColumn(key, cols, types))
      case Failure(e) => Failure(e)
      case Success(cv) =>
        Success(ColumnsAcc(a.names + Quoted(key) + ",", a.numbers + Placeholder(a.idx) + ",", a.values + [cv], a.idx + 1))
    else Success(a)
  }

  /** The loop over the body's keys, in enumeration order; the first throw ends it. */
  function CollectColumns(body: Obj<Value>, start: ColumnsAcc, cols: seq<string>, types: seq<int>): Result<ColumnsAcc, ColumnError>
  {
    if |body| == 0 then Success(start)
    else
      match CollectColumns(body[..|body| - 1], start, cols, types)
      case Failure(e) => Failure(e)
      case Success(a) => AddColumn(a, body[|body| - 1].0, body[|body| - 1].1, cols, types)
  }

  /** The body's properties whose keys are known columns, in body order. */
  function Accepted(body: Obj<Value>, cols: seq<string>): (acc: Obj<Value>)
    ensures |acc| <= |body|
  {
    if |body| == 0 then []
    else Accepted(body[..|body| - 1], cols) + (if body[|body| - 1].0 in cols then [body[|body| - 1]] else [])
  }

  /** Whether converting the `j`-th accepted property throws. */
  predicate ThrowsAt(acc: Obj<Value>, j: int, cols: seq<string>, types: seq<int>)
    requires 0 <= j < |acc|
  {
    ColumnValue(acc[j].0, acc[j].1, IsArrayColumn(acc[j].0, cols, types)).Failure?
  }

  /** Whether `values` is `cValues` followed by one converted value per accepted property. */
  predicate ValuesOf(values: seq<Value>, cValues: seq<Value>, acc: Obj<Value>, cols: seq<string>, types: seq<int>)
  {
    && |values| == |cValues| + |acc|
    && values[..|cValues|] == cValues
    && forall j :: 0 <= j < |acc| ==>
         ColumnValue(acc[j].0, acc[j].1, IsArrayColumn(acc[j].0, cols, types)) == Success(values[|cValues| + j])
  }

  /** Whether converting some accepted property throws. */
  predicate AnyThrows(acc: Obj<Value>, cols: seq<string>, types: seq<int>)
  {
    exists j :: 0 <= j < |acc| && ThrowsAt(acc, j, cols, types)
  }

  /**
   * The loop's accumulators after the properties of `body`: the quoted accepted keys and the
   * placeholders from `idx`, each followed by a comma, and one converted value per accepted
   * key appended to `cValues`; or the first throw.
   */
  predicate CollectMatches(body: Obj<Value>, cValues: seq<Value>, idx: int, cols: seq<string>, types: seq<int>)
  {
    var r := CollectColumns(body, ColumnsAcc("", "", cValues, idx), cols, types);
    var acc := Accepted(body, cols);
    && (r.Failure? <==> AnyThrows(acc, cols, types))
    && (r.Success? ==>
          && r.value.names == JoinTrailing(QuoteAll(Keys(acc)), ",")
          && r.value.numbers == JoinTrailing(Placeholders(idx, |acc|), ",")
          && r.value.idx == idx + |acc|
          && ValuesOf(r.value.values, cValues, acc, cols, types))
  }

  /** A throw stays a throw, and the throwing property stays accepted. */
  lemma CollectStepAfterThrow(body: Obj<Value>, cValues: seq<Value>, idx: int, cols: seq<string>, types: seq<int>)
    requires |body| > 0 && CollectMatches(body[..|body| - 1], cValues, idx, cols, types)
    requires CollectColumns(body[..|body| - 1], ColumnsAcc("", "", cValues, idx), cols, types).Failure?
    ensures CollectMatches(body, cValues, idx, cols, types)
  {
    var n := |body| - 1;
    var prev := Accepted(body[..n], cols);
    var acc := Accepted(body, cols);
    var j :| 0 <= j < |prev| && ThrowsAt(prev, j, cols, types);
    assert acc[j] == prev[j];
    assert ThrowsAt(acc, j, cols, types);
  }

  /** A property whose key is not a column leaves the accumulators as they are. */
  lemma CollectStepIgnored(body: Obj<Value>, cValues: seq<Value>, idx: int, cols: seq<string>, types: seq<int>)
    requires |body| > 0 && CollectMatches(body[..|body| - 1], cValues, idx, cols, types)
    requires CollectColumns(body[..|body| - 1], ColumnsAcc("", "", cValues, idx), cols, types).Success?
    requires body[|body| - 1].0 !in cols
    ensures CollectMatches(body, cValues, idx, cols, types)
  {
    var n := |body| - 1;
    assert Accepted(body, cols) == Accepted(body[..n], cols);
  }

  /** A property whose conversion throws ends the loop with that throw. */
  lemma CollectStepThrows(body: Obj<Value>, cValues: seq<Value>, idx: int, cols: seq<string>, types: seq<int>)
    requires |body| > 0 && CollectMatches(body[..|body| - 1], cValues, idx, cols, types)
    requires CollectColumns(body[..|body| - 1], ColumnsAcc("", "", cValues, idx), cols, types).Success?
    requires var (key, v) := body[|body| - 1];
             key in cols && ColumnValue(key, v, IsArrayColumn(key, cols, types)).Failure?
    ensures CollectMatches(body, cValues, idx, cols, types)
  {
    var n := |body| - 1;
    var prev := Accepted(body[..n], cols);
    var acc := Accepted(body, cols);
    assert acc == prev + [body[n]];
    assert ThrowsAt(acc, |prev|, cols, types);
  }

  /** A property of a known column appends its name, its placeholder and its value. */
  lemma CollectStepAdded(body: Obj<Value>, cValues: seq<Value>, idx: int, cols: seq<string>, types: seq<int>)
    requires |body| > 0 && CollectMatches(body[..|body| - 1], cValues, idx, cols, types)
    requires CollectColumns(body[..|body| - 1], ColumnsAcc("", "", cValues, idx), cols, types).Success?
    requires var (key, v) := body[|body| - 1];
             key in cols && ColumnValue(key, v, IsArrayColumn(key, cols, types)).Success?
    ensures CollectMatches(body, cValues, idx, cols, types)
  {
    var n := |body| - 1;
    var (key, v) := body[n];
    var a := CollectColumns(body[..n], ColumnsAcc("", "", cValues, idx), cols, types).value;
    var prev := Accepted(body[..n], cols);
    var acc := Accepted(body, cols);
    assert acc == prev + [(key, v)];
    NoThrowAppended(prev, key, v, cols, types);
    AddedName(prev, key, v);
    AddedPlaceholder(idx, |prev|);
    AddedValues(a.values, cValues, prev, key, v, cols, types);
  }

  lemma NoThrowAppended(prev: Obj<Value>, key: string, v: Value, cols: seq<string>, types: seq<int>)
    requires !AnyThrows(prev, cols, types)
    requires ColumnValue(key, v, IsArrayColumn(key, cols, types)).Success?
    ensures !AnyThrows(prev + [(key, v)], cols, types)
  {
    var acc := prev + [(key, v)];
    forall j | 0 <= j < |acc|
      ensures !ThrowsAt(acc, j, cols, types)
    {
      if j < |prev| {
        assert acc[j] == prev[j];
        assert !ThrowsAt(prev, j, cols, types);
      }
    }
  }

  /** Accepting one more key appends its quoted name. */
  lemma AddedName(prev: Obj<Value>, key: string, v: Value)
    ensures JoinTrailing(QuoteAll(Keys(prev + [(key, v)])), ",") == JoinTrailing(QuoteAll(Keys(prev)), ",") + Quoted(key) + ","
  {
    var ks := Keys(prev + [(key, v)]);
    assert ks == Keys(prev) + [key];
    QuoteAllSnoc(Keys(prev), key);
    JoinTrailingSnoc(QuoteAll(Keys(prev)), Quoted(key), ",");
  }

  lemma QuoteAllSnoc(xs: seq<string>, x: string)
    ensures QuoteAll(xs + [x]) == QuoteAll(xs) + [Quoted(x)]
  {
  }

  /** Accepting one more key appends the next placeholder. */
  lemma AddedPlaceholder(idx: int, n: nat)
    ensures JoinTrailing(Placeholders(idx, n + 1), ",") == JoinTrailing(Placeholders(idx, n), ",") + Placeholder(idx + n) + ","
  {
    PlaceholdersSnoc(idx, n);
    JoinTrailingSnoc(Placeholders(idx, n), Placeholder(idx + n), ",");
  }

  /** Accepting one more key appends its converted value. */
  lemma AddedValues(values: seq<Value>, cValues: seq<Value>, prev: Obj<Value>, key: string, v: Value, cols: seq<string>, types: seq<int>)
    requires ValuesOf(values, cValues, prev, cols, types)
    requires ColumnValue(key, v, IsArrayColumn(key, cols, types)).Success?
    ensures ValuesOf(values + [ColumnValue(key, v, IsArrayColumn(key, cols, types)).value], cValues, prev + [(key, v)], cols, types)
  {
    var acc := prev + [(key, v)];
    var values' := values + [ColumnValue(key, v, IsArrayColumn(key, cols, types)).value];
    assert values'[..|cValues|] == values[..|cValues|];
    forall j | 0 <= j < |acc|
      ensures ColumnValue(acc[j].0, acc[j].1, IsArrayColumn(acc[j].0, cols, types)) == Success(values'[|cValues| + j])
    {
      if j < |prev| {
        assert acc[j] == prev[j];
      }
    }
  }

  lemma {:induction false} CollectColumnsSpec(body: Obj<Value>, cValues: seq<Value>, idx: int, cols: seq<string>, types: seq<int>)
    ensures CollectMatches(body, cValues, idx, cols, types)
  {
    if |body| > 0 {
      var n := |body| - 1;
      var (key, v) := body[n];
      CollectColumnsSpec(body[..n], cValues, idx, cols, types);
      if CollectColumns(body[..n], ColumnsAcc("", "", cValues, idx), cols, types).Failure? {
        CollectStepAfterThrow(body, cValues, idx, cols, types);
      } else if key !in cols {
        CollectStepIgnored(body, cValues, idx, cols, types);
      } else if ColumnValue(key, v, IsArrayColumn(key, cols, types)).Failure? {
        CollectStepThrows(body, cValues, idx, cols, types);
      } else {
        CollectStepAdded(body, cValues, idx, cols, types);
      }
    }
  }

  /**
   * `parseColumns(body, idx, cValues, staticColumns, staticTypes, tableName)`, with the
   * table caches passed in. Only keys naming a known column take part: their quoted names
   * comma-joined in body order, placeholders numbered consecutively from `idx`, and one value
   * each appended to `cValues`.
   */
  function ParseColumns(body: Obj<Value>, idx: int, cValues: seq<Value>, staticColumns: seq<string>,
                        staticTypes: seq<int>, tableName: Option<string>,
                        tableColumns: map<string, seq<string>>, tableTypes: map<string, seq<int>>): (r: Result<Columns, ColumnError>)
    ensures var cols := CachedList(staticColumns, tableName, tableColumns);
            var types := CachedList(staticTypes, tableName, tableTypes);
            var acc := Accepted(body, cols);
            && (r.Failure? <==> AnyThrows(acc, cols, types))
            && (r.Success? ==>
                  && r.value.named == Join(QuoteAll(Keys(acc)), ",")
                  && r.value.numbered == Join(Placeholders(idx, |acc|), ",")
                  && ValuesOf(r.value.values, cValues, acc, cols, types))
  {
    var cols := CachedList(staticColumns, tableName, tableColumns);
    var types := CachedList(staticTypes, tableName, tableTypes);
    CollectColumnsSpec(body, cValues, idx, cols, types);
    var acc := Accepted(body, cols);
    QuotedHeads(Keys(acc));
    StripJoinTrailing(QuoteAll(Keys(acc)));
    PlaceholderHeads(idx, |acc|);
    StripJoinTrailing(Placeholders(idx, |acc|));
    match CollectColumns(body, ColumnsAcc("", "", cValues, idx), cols, types)
    case Failure(e) => Failure(e)
    case Success(a) =>
      if |body| == 0 then Success(Columns(a.names, a.numbers, a.values))
      else Success(Columns(StripCommaEnds(a.names), StripCommaEnds(a.numbers), a.values))
  }

  lemma QuotedHeads(xs: seq<string>)
    ensures |xs| > 0 ==> |QuoteAll(xs)[0]| > 0 && QuoteAll(xs)[0][0] == '"'
  {
  }

  lemma PlaceholderHeads(first: int, n: nat)
    ensures n > 0 ==> |Placeholders(first, n)[0]| > 0 && Placeholders(first, n)[0][0] == '$'
  {
    if n > 0 {
      var p := Placeholders(first, n)[0];
      assert p == Placeholder(first + 0);
      assert p == "$" + IntToString(first);
      assert p[0] == ("$" + IntToString(first))[0] == '$';
    }
  }

  /** An empty body gives an empty column list, an empty placeholder list and `cValues` unchanged. */
  lemma ParseColumnsEmpty(idx: int, cValues: seq<Value>, staticColumns: seq<string>, staticTypes: seq<int>,
                          tableName: Option<string>, tableColumns: map<string, seq<string>>, tableTypes: map<string, seq<int>>)
    ensures ParseColumns([], idx, cValues, staticColumns, staticTypes, tableName, tableColumns, tableTypes)
            == Success(Columns("", "", cValues))
  {
  }

  /** With no known columns, no property is accepted. */
  lemma {:induction false} NothingAccepted(body: Obj<Value>)
    ensures Accepted(body, []) == []
  {
    if |body| > 0 {
      NothingAccepted(body[..|body| - 1]);
    }
  }

  /**
   * With no column list given, the cached list of the named table stands in for it: the
   * result is the one obtained by passing the cached list explicitly, and a table that is
   * not cached, or no table name, gives an empty column list that accepts no property.
   */
  lemma CachedColumnsStandIn(body: Obj<Value>, idx: int, cValues: seq<Value>, staticTypes: seq<int>,
                             tableName: Option<string>, tableColumns: map<string, seq<string>>, tableTypes: map<string, seq<int>>)
    ensures tableName.Some? && tableName.value != "" && tableName.value in tableColumns ==>
              ParseColumns(body, idx, cValues, [], staticTypes, tableName, tableColumns, tableTypes)
              == ParseColumns(body, idx, cValues, tableColumns[tableName.value], staticTypes, tableName, tableColumns, tableTypes)
    ensures tableName.None? || tableName.value == "" || tableName.value !in tableColumns ==>
              ParseColumns(body, idx, cValues, [], staticTypes, tableName, tableColumns, tableTypes) == Success(Columns("", "", cValues))
  {
    if tableName.None? || tableName.value == "" || tableName.value !in tableColumns {
      NothingAccepted(body);
      var r := ParseColumns(body, idx, cValues, [], staticTypes, tableName, tableColumns, tableTypes);
      assert r.Success?;
      assert r.value.values == cValues by {
        assert r.value.values[..|cValues|] == cValues;
      }
    }
  }

  /** A property whose key is not a known column changes nothing, wherever it appears. */
  lemma {:induction false} UnknownKeyIgnored(a: Obj<Value>, b: Obj<Value>, key: string, v: Value, cols: seq<string>)
    requires key !in cols
    ensures Accepted(a + [(key, v)] + b, cols) == Accepted(a + b, cols)
  {
    if |b| == 0 {
      assert a + [(key, v)] + b == a + [(key, v)];
      assert (a + [(key, v)])[..|a|] == a;
      assert a + b == a;
    } else {
      var n := |b| - 1;
      UnknownKeyIgnored(a, b[..n], key, v, cols);
      assert (a + [(key, v)] + b)[..|a| + 1 + n] == a + [(key, v)] + b[..n];
      assert (a + b)[..|a| + n] == a + b[..n];
    }
  }

  // ---------------------------------------------------------------------------
  // whereClause

  /** A query parameter value: one string, or the array Express builds for a repeated key. */
  datatype Param = One(s: string) | Many(items: seq<string>)

  /** The result of `whereClause`: `text` and `values`. */
  datatype Where = Where(text: string, values: seq<string>)

  /** The column part of a parameter key: the text before its first `|`, or the whole key. */
  function ColumnOf(key: string): string
  {
    Split(key, '|')[0]
  }

  /** `key.split("|")[1]`, defaulting to `=`, with `!` turned into `!=`. */
  function OperatorOf(key: string): (op: string)
    ensures op != "" && op != "!"
  {
    var parts := Split(key, '|');
    var op := if |parts| > 1 && parts[1] != "" then parts[1] else "=";
    if op == "!" then "!=" else op
  }

  /** A key without `|` names its column and compares with `=`. */
  lemma KeyWithoutOperator(col: string)
    requires '|' !in col
    ensures ColumnOf(col) == col && OperatorOf(col) == "="
  {
    SplitNoSep(col, '|');
  }

  /** A key `col|op` names column `col` and operator `op`, with the default and `!` rewritten. */
  lemma KeyWithOperator(col: string, op: string)
    requires '|' !in col && '|' !in op
    ensures ColumnOf(col + "|" + op) == col
    ensures OperatorOf(col + "|" + op) == (if op == "" then "=" else if op == "!" then "!=" else op)
  {
    SplitNoSep(op, '|');
    SplitAtFirstSep(col, op, '|');
  }

  /** A column whose name starts with `logical` carries a logical operator rather than a value. */
  predicate IsLogical(col: string)
  {
    StartsWith(col, "logical")
  }

  /** The column already carries a table prefix and its own quotes: `col.includes('."')`. */
  predicate IsQualified(col: string)
  {
    Contains(col, ".\"")
  }

  /** Whether a parameter key takes part in the clause. */
  predicate AcceptedKey(key: string, cols: seq<string>)
  {
    ColumnOf(key) in cols || IsLogical(ColumnOf(key))
  }

  /** `${params[key]}`: a string as it is, an array as its comma-joined items. */
  function ParamText(p: Param): string
  {
    match p
    case One(s) => s
    case Many(items) => Join(items, ",")
  }

  /** The values a parameter binds. */
  function ParamValues(p: Param): (vs: seq<string>)
    ensures p.One? ==> vs == [p.s]
    ensures p.Many? ==> vs == p.items
  {
    match p
    case One(s) => [s]
    case Many(items) => items
  }

  /** The running state: `where`, `values` and `idx`. */
  datatype WhereState = WhereState(text: string, values: seq<string>, idx: int)

  /** The `forEach` that writes `$idx` for each array item, separated by commas. */
  function ListPlaceholders(first: int, k: nat): string
  {
    if k == 0 then ""
    else ListPlaceholders(first, k - 1) + (if k - 1 > 0 then "," else "") + Placeholder(first + k - 1)
  }

  /** One iteration of the loop over the parameter keys. */
  function WhereStep(st: WhereState, key: string, p: Param, cols: seq<string>): WhereState
  {
    var col := ColumnOf(key);
    var op := OperatorOf(key);
    if !AcceptedKey(key, cols) then st
    else
      var text := if st.text == "" then "where" else st.text;
      var values := if IsLogical(col) then st.values else st.values + ParamValues(p);
      if IsQualified(col) then
        WhereState(text + (" " + col + " " + op + " " + Placeholder(st.idx)), values, st.idx + 1)
      else if IsLogical(col) then
        WhereState(text + (" " + ParamText(p) + " "), values, st.idx)
      else if p.Many? then
        WhereState(text + (" \"" + col + "\" " + op + " (" + ListPlaceholders(st.idx, |p.items|) + ")"),
                   values, st.idx + |p.items|)
      else
        WhereState(text + (" \"" + col + "\" " + op + " " + Placeholder(st.idx)), values, st.idx + 1)
  }

  /** The loop over the parameter keys, in enumeration order, from `where = ''`, `idx = 1`. */
  function WhereFold(params: Obj<Param>, cols: seq<string>): WhereState
  {
    if |params| == 0 then WhereState("", [], 1)
    else
      var n := |params| - 1;
      WhereStep(WhereFold(params[..n], cols), params[n].0, params[n].1, cols)
  }

  /** The column list in force: the given one, or the cached one under `String(tableName)`. */
  function WhereColumns(staticColumns: seq<string>, tableName: Option<string>, tableColumns: map<string, seq<string>>): seq<string>
  {
    var name := if tableName.Some? then tableName.value else "null";
    if |staticColumns| == 0 then (if name in tableColumns then tableColumns[name] else []) else staticColumns
  }

  /** `whereClause(params, staticColumns, staticTypes, tableName)` with the column cache passed in. */
  function WhereClause(params: Obj<Param>, staticColumns: seq<string>, tableName: Option<string>,
                       tableColumns: map<string, seq<string>>): (r: Where)
    ensures var cols := WhereColumns(staticColumns, tableName, tableColumns);
            (r.text == "" <==> forall i :: 0 <= i < |params| ==> !AcceptedKey(params[i].0, cols))
    ensures r.text != "" ==> StartsWith(r.text, "where")
  {
    var cols := WhereColumns(staticColumns, tableName, tableColumns);
    var st := WhereFold(params, cols);
    WhereFoldConditions(params, cols);
    ConditionsEmpty(params, cols);
    Where(st.text, st.values)
  }

  // ---------------------------------------------------------------------------
  // The clause as a list of conditions

  /** One condition the clause holds, with the placeholder numbers it uses. */
  datatype Condition =
    | Compare(col: string, op: string, n: int)                 // ` "col" op $n`
    | InList(col: string, op: string, first: int, k: nat)      // ` "col" op ($first,…)`
    | Prefixed(col: string, op: string, n: int)                // ` col op $n`
    | Verbatim(text: string)                                   // ` text `

  function Render(c: Condition): string
  {
    match c
    case Compare(col, op, n) => " \"" + col + "\" " + op + " " + Placeholder(n)
    case InList(col, op, first, k) => " \"" + col + "\" " + op + " (" + Join(Placeholders(first, k), ",") + ")"
    case Prefixed(col, op, n) => " " + col + " " + op + " " + Placeholder(n)
    case Verbatim(text) => " " + text + " "
  }

  /** The placeholder numbers a condition uses, in order. */
  function Numbers(c: Condition): (ns: seq<int>)
  {
    match c
    case Compare(_, _, n) => [n]
    case InList(_, _, first, k) => seq(k, j requires 0 <= j < k => first + j)
    case Prefixed(_, _, n) => [n]
    case Verbatim(_) => []
  }

  function RenderAll(cs: seq<Condition>): string
  {
    if |cs| == 0 then "" else RenderAll(cs[..|cs| - 1]) + Render(cs[|cs| - 1])
  }

  function AllNumbers(cs: seq<Condition>): seq<int>
  {
    if |cs| == 0 then [] else AllNumbers(cs[..|cs| - 1]) + Numbers(cs[|cs| - 1])
  }

  /** The condition an accepted key contributes when its first placeholder is `$n`. */
  function ConditionFor(key: string, p: Param, n: int): Condition
  {
    var col := ColumnOf(key);
    var op := OperatorOf(key);
    if IsQualified(col) then Prefixed(col, op, n)
    else if IsLogical(col) then Verbatim(ParamText(p))
    else if p.Many? then InList(col, op, n, |p.items|)
    else Compare(col, op, n)
  }

  /** The conditions of the accepted keys, in key order, numbered on from `$1`. */
  function Conditions(params: Obj<Param>, cols: seq<string>): seq<Condition>
  {
    if |params| == 0 then []
    else
      var n := |params| - 1;
      var cs := Conditions(params[..n], cols);
      if AcceptedKey(params[n].0, cols) then cs + [ConditionFor(params[n].0, params[n].1, 1 + |AllNumbers(cs)|)]
      else cs
  }

  /** The values bound by the accepted non-logical keys, in key order. */
  function BoundValues(params: Obj<Param>, cols: seq<string>): seq<string>
  {
    if |params| == 0 then []
    else
      var n := |params| - 1;
      var key := params[n].0;
      BoundValues(params[..n], cols)
        + (if AcceptedKey(key, cols) && !IsLogical(ColumnOf(key)) then ParamValues(params[n].1) else [])
  }

  /** The array placeholders the loop writes are the comma-joined list of placeholders. */
  lemma {:induction false} ListPlaceholdersIsJoin(first: int, k: nat)
    ensures ListPlaceholders(first, k) == Join(Placeholders(first, k), ",")
  {
    if k > 1 {
      var prev := Placeholders(first, k - 1);
      var last := Placeholder(first + (k - 1));
      ListPlaceholdersIsJoin(first, k - 1);
      PlaceholdersSnoc(first, k - 1);
      assert Placeholders(first, k) == prev + [last];
      JoinSnoc(prev, last, ",");
      assert ListPlaceholders(first, k) == ListPlaceholders(first, k - 1) + "," + last;
    } else if k == 1 {
      assert ListPlaceholders(first, 1) == ListPlaceholders(first, 0) + "" + Placeholder(first);
    }
  }

  lemma PlaceholdersSnoc(first: int, n: nat)
    ensures Placeholders(first, n + 1) == Placeholders(first, n) + [Placeholder(first + n)]
  {
    var lhs := Placeholders(first, n + 1);
    var rhs := Placeholders(first, n) + [Placeholder(first + n)];
    forall j | 0 <= j < n + 1
      ensures lhs[j] == rhs[j]
    {
      if j < n {
        assert rhs[j] == Placeholders(first, n)[j];
      }
    }
  }

  /** There are no conditions exactly when no key is accepted. */
  lemma {:induction false} ConditionsEmpty(params: Obj<Param>, cols: seq<string>)
    ensures |Conditions(params, cols)| == 0 <==> forall i :: 0 <= i < |params| ==> !AcceptedKey(params[i].0, cols)
  {
    if |params| > 0 {
      var n := |params| - 1;
      ConditionsEmpty(params[..n], cols);
      assert forall i :: 0 <= i < n ==> params[..n][i] == params[i];
    }
  }

  lemma RenderAllSnoc(cs: seq<Condition>, c: Condition)
    ensures RenderAll(cs + [c]) == RenderAll(cs) + Render(c)
    ensures AllNumbers(cs + [c]) == AllNumbers(cs) + Numbers(c)
  {
    assert (cs + [c])[..|cs|] == cs;
  }

  /** An accepted key appends the rendering of its condition to the text, after `where` if it is the first. */
  lemma WhereStepText(st: WhereState, key: string, p: Param, cols: seq<string>)
    requires AcceptedKey(key, cols)
    ensures WhereStep(st, key, p, cols).text
            == (if st.text == "" then "where" else st.text) + Render(ConditionFor(key, p, st.idx))
    ensures WhereStep(st, key, p, cols).idx == st.idx + |Numbers(ConditionFor(key, p, st.idx))|
    ensures WhereStep(st, key, p, cols).values
            == st.values + (if IsLogical(ColumnOf(key)) then [] else ParamValues(p))
  {
    var c := ConditionFor(key, p, st.idx);
    if c.InList? {
      ListPlaceholdersIsJoin(c.first, c.k);
    }
  }

  /** Appending a condition's rendering to the text of the earlier conditions. */
  lemma AppendCondition(text: string, cs: seq<Condition>, c: Condition)
    requires text == (if |cs| == 0 then "" else "where" + RenderAll(cs))
    ensures (if text == "" then "where" else text) + Render(c) == "where" + RenderAll(cs + [c])
  {
    RenderAllSnoc(cs, c);
    var r := Render(c);
    if |cs| == 0 {
      assert RenderAll(cs + [c]) == "" + r;
      assert "" + r == r;
    } else {
      AppendAssoc("where", RenderAll(cs), r);
    }
  }

  /**
   * The loop's state after `params` is `where` followed by the rendering of each accepted
   * key's condition, with no connective added between them; its values are those of the
   * accepted non-logical keys; and the next placeholder number is one past the last one used.
   */
  predicate FoldMatchesConditions(params: Obj<Param>, cols: seq<string>)
  {
    var st := WhereFold(params, cols);
    var cs := Conditions(params, cols);
    && st.text == (if |cs| == 0 then "" else "where" + RenderAll(cs))
    && st.values == BoundValues(params, cols)
    && st.idx == 1 + |AllNumbers(cs)|
  }

  lemma {:induction false} FoldStepAccepted(params: Obj<Param>, cols: seq<string>)
    requires |params| > 0 && AcceptedKey(params[|params| - 1].0, cols)
    requires FoldMatchesConditions(params[..|params| - 1], cols)
    ensures FoldMatchesConditions(params, cols)
  {
    var n := |params| - 1;
    var (key, p) := params[n];
    var st := WhereFold(params[..n], cols);
    var cs := Conditions(params[..n], cols);
    var c := ConditionFor(key, p, st.idx);
    assert WhereFold(params, cols) == WhereStep(st, key, p, cols);
    assert Conditions(params, cols) == cs + [c];
    WhereStepText(st, key, p, cols);
    AppendCondition(st.text, cs, c);
    RenderAllSnoc(cs, c);
  }

  lemma FoldStepIgnored(params: Obj<Param>, cols: seq<string>)
    requires |params| > 0 && !AcceptedKey(params[|params| - 1].0, cols)
    requires FoldMatchesConditions(params[..|params| - 1], cols)
    ensures FoldMatchesConditions(params, cols)
  {
    var n := |params| - 1;
    assert WhereFold(params, cols) == WhereFold(params[..n], cols);
    assert Conditions(params, cols) == Conditions(params[..n], cols);
  }

  lemma {:induction false} WhereFoldConditions(params: Obj<Param>, cols: seq<string>)
    ensures FoldMatchesConditions(params, cols)
  {
    if |params| > 0 {
      var n := |params| - 1;
      WhereFoldConditions(params[..n], cols);
      if AcceptedKey(params[n].0, cols) {
        FoldStepAccepted(params, cols);
      } else {
        FoldStepIgnored(params, cols);
      }
    }
  }

  /** `ns` is `first`, `first + 1`, … in order. */
  predicate CountsFrom(ns: seq<int>, first: int)
  {
    forall i :: 0 <= i < |ns| ==> ns[i] == first + i
  }

  lemma CountsFromAppend(a: seq<int>, b: seq<int>, first: int)
    requires CountsFrom(a, first) && CountsFrom(b, first + |a|)
    ensures CountsFrom(a + b, first)
  {
    forall i | 0 <= i < |a + b|
      ensures (a + b)[i] == first + i
    {
      if i >= |a| {
        assert (a + b)[i] == b[i - |a|];
      }
    }
  }

  /** A condition numbered from `$n` uses `$n`, `$n+1`, … in order. */
  lemma ConditionNumbers(key: string, p: Param, n: int)
    ensures CountsFrom(Numbers(ConditionFor(key, p, n)), n)
  {
  }

  /** The placeholders of the conditions are `$1`, `$2`, … in order, without gaps. */
  lemma {:induction false} NumbersConsecutive(params: Obj<Param>, cols: seq<string>)
    ensures CountsFrom(AllNumbers(Conditions(params, cols)), 1)
  {
    if |params| > 0 {
      var n := |params| - 1;
      NumbersConsecutive(params[..n], cols);
      var cs := Conditions(params[..n], cols);
      if AcceptedKey(params[n].0, cols) {
        var m := 1 + |AllNumbers(cs)|;
        var c := ConditionFor(params[n].0, params[n].1, m);
        RenderAllSnoc(cs, c);
        ConditionNumbers(params[n].0, params[n].1, m);
        CountsFromAppend(AllNumbers(cs), Numbers(c), 1);
        assert Conditions(params, cols) == cs + [c];
      } else {
        assert Conditions(params, cols) == cs;
      }
    }
  }

  /** A condition on a column without a table prefix has one placeholder per bound value. */
  lemma ConditionValues(key: string, p: Param, n: int)
    requires !IsQualified(ColumnOf(key))
    ensures |Numbers(ConditionFor(key, p, n))| == |if IsLogical(ColumnOf(key)) then [] else ParamValues(p)|
  {
  }

  /** No accepted key among `params` names a table-prefixed column. */
  predicate NoPrefixedColumns(params: Obj<Param>, cols: seq<string>)
  {
    forall i :: 0 <= i < |params| && AcceptedKey(params[i].0, cols) ==> !IsQualified(ColumnOf(params[i].0))
  }

  lemma OneValuePerPlaceholderStep(params: Obj<Param>, cols: seq<string>)
    requires |params| > 0 && NoPrefixedColumns(params, cols)
    requires |AllNumbers(Conditions(params[..|params| - 1], cols))| == |BoundValues(params[..|params| - 1], cols)|
    ensures |AllNumbers(Conditions(params, cols))| == |BoundValues(params, cols)|
  {
    var n := |params| - 1;
    var (key, p) := params[n];
    var cs := Conditions(params[..n], cols);
    if AcceptedKey(key, cols) {
      var c := ConditionFor(key, p, 1 + |AllNumbers(cs)|);
      assert Conditions(params, cols) == cs + [c];
      RenderAllSnoc(cs, c);
      ConditionValues(key, p, 1 + |AllNumbers(cs)|);
    } else {
      assert Conditions(params, cols) == cs;
    }
  }

  /**
   * When no accepted key names a table-prefixed column, each placeholder binds exactly one
   * value: there are as many placeholder numbers as values.
   */
  lemma {:induction false} OneValuePerPlaceholder(params: Obj<Param>, cols: seq<string>)
    requires NoPrefixedColumns(params, cols)
    ensures |AllNumbers(Conditions(params, cols))| == |BoundValues(params, cols)|
  {
    if |params| > 0 {
      var n := |params| - 1;
      assert forall i :: 0 <= i < n ==> params[..n][i] == params[i];
      OneValuePerPlaceholder(params[..n], cols);
      OneValuePerPlaceholderStep(params, cols);
    }
  }

  /**
   * `whereClause`'s text and values in terms of the accepted keys' conditions; for columns
   * without a table prefix the placeholders are exactly `$1`…`$|values|`.
   */
  lemma {:induction false} WhereClauseSpec(params: Obj<Param>, staticColumns: seq<string>, tableName: Option<string>,
                        tableColumns: map<string, seq<string>>)
    ensures var cols := WhereColumns(staticColumns, tableName, tableColumns);
            var r := WhereClause(params, staticColumns, tableName, tableColumns);
            var cs := Conditions(params, cols);
            && r.text == (if |cs| == 0 then "" else "where" + RenderAll(cs))
            && r.values == BoundValues(params, cols)
            && CountsFrom(AllNumbers(cs), 1)
            && (NoPrefixedColumns(params, cols) ==> |AllNumbers(cs)| == |r.values|)
  {
    var cols := WhereColumns(staticColumns, tableName, tableColumns);
    WhereFoldConditions(params, cols);
    NumbersConsecutive(params, cols);
    if NoPrefixedColumns(params, cols) {
      OneValuePerPlaceholder(params, cols);
    }
  }
}

=== FILE: text.dfy ===
/**
 * The JavaScript string primitives the repository relies on, over `string` (= `seq<char>`):
 * the `\s` class, `replace(/\s+/g, " ")`, `replace(/[^ -~]+/g, "")`, `trim()`, `split(c)`,
 * `join(sep)`, number-to-string conversion, ASCII lower-casing and the
 * `replace(/(^,)|(,$)/g, "")` comma stripper.
 */
module Text {

  /** The characters JavaScript's `\s` class and `String.prototype.trim` treat as white space. */
  predicate IsSpace(c: char)
  {
    || c == '\t' || c == '\n' || c == '\U{000B}' || c == '\U{000C}' || c == '\r' || c == ' '
    || c == '\U{00A0}' || c == '\U{1680}' || ('\U{2000}' <= c <= '\U{200A}')
    || c == '\U{2028}' || c == '\U{2029}' || c == '\U{202F}' || c == '\U{205F}'
    || c == '\U{3000}' || c == '\U{FEFF}'
  }

  /** Printable ASCII, the range ` `..`~` kept by the `[^ -~]` filter. */
  predicate IsPrintableAscii(c: char)
  {
    ' ' <= c <= '~'
  }

  /** Drops the white space at the front of `s`. */
  function SkipSpaces(s: string): (r: string)
    ensures |r| <= |s|
    ensures |r| > 0 ==> !IsSpace(r[0])
  {
    if |s| > 0 && IsSpace(s[0]) then SkipSpaces(s[1..]) else s
  }

  /** What `SkipSpaces` leaves is a suffix of its input. */
  lemma {:induction false} SkipSpacesSuffix(s: string)
    ensures SkipSpaces(s) == s[|s| - |SkipSpaces(s)|..]
    decreases |s|
  {
    if |s| > 0 && IsSpace(s[0]) {
      SkipSpacesSuffix(s[1..]);
      assert s[1..][|s| - 1 - |SkipSpaces(s)|..] == s[|s| - |SkipSpaces(s)|..];
    }
  }

  /** `s.replace(/\s+/g, " ")`: every maximal run of white space becomes one ASCII space. */
  function Collapse(s: string): (r: string)
    decreases |s|
  {
    if |s| == 0 then ""
    else if IsSpace(s[0]) then " " + Collapse(SkipSpaces(s[1..]))
    else [s[0]] + Collapse(s[1..])
  }

  /** `s.replace(/[^ -~]+/g, "")`: removes every character outside printable ASCII. */
  function FilterAscii(s: string): (r: string)
  {
    if |s| == 0 then ""
    else if IsPrintableAscii(s[0]) then [s[0]] + FilterAscii(s[1..])
    else FilterAscii(s[1..])
  }

  /** Drops the white space at the end of `s`. */
  function TrimEnd(s: string): (r: string)
    ensures |r| <= |s|
  {
    if |s| > 0 && IsSpace(s[|s| - 1]) then TrimEnd(s[..|s| - 1]) else s
  }

  /** `s.trim()`. */
  function Trim(s: string): string
  {
    TrimEnd(SkipSpaces(s))
  }

  /** Number of occurrences of `c` in `s`. */
  function Count(c: char, s: string): nat
  {
    if |s| == 0 then 0 else (if s[0] == c then 1 else 0) + Count(c, s[1..])
  }

  /** `s.split(sep)` for a one-character separator: never empty, one more part than separators. */
  function Split(s: string, sep: char): (parts: seq<string>)
    ensures |parts| > 0
  {
    if |s| == 0 then [""]
    else
      var rest := Split(s[1..], sep);
      if s[0] == sep then [""] + rest
      else [[s[0]] + rest[0]] + rest[1..]
  }

  /** `xs.join(sep)`. */
  function Join(xs: seq<string>, sep: string): string
  {
    if |xs| == 0 then ""
    else if |xs| == 1 then xs[0]
    else xs[0] + sep + Join(xs[1..], sep)
  }

  /** The concatenation of `x + sep` over all `xs`: what `acc += x + sep` builds in a loop. */
  function JoinTrailing(xs: seq<string>, sep: string): string
  {
    if |xs| == 0 then "" else xs[0] + sep + JoinTrailing(xs[1..], sep)
  }

  /** `s.replace(/(^,)|(,$)/g, "")`: removes one leading and one trailing comma. */
  function StripCommaEnds(s: string): string
  {
    var t := if |s| > 0 && s[0] == ',' then s[1..] else s;
    if |t| > 0 && t[|t| - 1] == ',' then t[..|t| - 1] else t
  }

  predicate StartsWith(s: string, prefix: string)
  {
    |prefix| <= |s| && s[..|prefix|] == prefix
  }

  /** `s.includes(needle)`. */
  predicate Contains(s: string, needle: string)
  {
    StartsWith(s, needle) || (|s| > 0 && Contains(s[1..], needle))
  }

  /** The last character of `s`, if any. */
  function LastChar(s: string): (r: char)
    requires |s| > 0
  {
    s[|s| - 1]
  }

  /** `s.slice(0, -1)`. */
  function DropLast(s: string): (r: string)
    ensures |s| > 0 ==> |r| == |s| - 1
    ensures |s| == 0 ==> r == ""
  {
    if |s| == 0 then "" else s[..|s| - 1]
  }

  function DigitChar(d: nat): char
    requires d < 10
  {
    "0123456789"[d]
  }

  /** Decimal rendering of a natural number, as `String(n)`. */
  function NatToString(n: nat): (r: string)
    ensures |r| > 0
    decreases n
  {
    if n < 10 then [DigitChar(n)] else NatToString(n / 10) + [DigitChar(n % 10)]
  }

  /** Decimal rendering of an integer, as `String(n)` for integral numbers. */
  function IntToString(n: int): string
  {
    if n < 0 then "-" + NatToString(-n) else NatToString(n)
  }

  /** `s.toLowerCase()` on the ASCII letters; other characters are kept as they are. */
  function ToLower(s: string): (r: string)
    ensures |r| == |s|
  {
    if |s| == 0 then ""
    else [if 'A' <= s[0] <= 'Z' then (s[0] as int + 32) as char else s[0]] + ToLower(s[1..])
  }

  // ---------------------------------------------------------------------------
  // Split and Join

  lemma SplitFirstIsSep(s: string, sep: char)
    requires |s| > 0 && s[0] == sep
    ensures Split(s, sep) == [""] + Split(s[1..], sep)
  {
  }

  lemma SplitFirstNotSep(s: string, sep: char)
    requires |s| > 0 && s[0] != sep
    ensures Split(s, sep) == [[s[0]] + Split(s[1..], sep)[0]] + Split(s[1..], sep)[1..]
  {
  }

  lemma {:induction false} SplitLength(s: string, sep: char)
    ensures |Split(s, sep)| == 1 + Count(sep, s)
  {
    if |s| > 0 {
      SplitLength(s[1..], sep);
    }
  }

  lemma JoinPrependHead(c: char, x: string, xs: seq<string>, sep: string)
    ensures Join([[c] + x] + xs, sep) == [c] + Join([x] + xs, sep)
  {
    if |xs| > 0 {
      assert ([[c] + x] + xs)[1..] == xs;
      assert ([x] + xs)[1..] == xs;
    }
  }

  /** Joining the parts of a split with the separator gives back the original text. */
  lemma {:induction false} SplitThenJoin(s: string, sep: char)
    ensures Join(Split(s, sep), [sep]) == s
  {
    if |s| > 0 {
      var rest := Split(s[1..], sep);
      SplitThenJoin(s[1..], sep);
      if s[0] == sep {
        assert ([""] + rest)[1..] == rest;
      } else {
        JoinPrependHead(s[0], rest[0], rest[1..], [sep]);
        assert [rest[0]] + rest[1..] == rest;
      }
    }
  }

  /** A piece without the separator splits to itself. */
  lemma {:induction false} SplitNoSep(s: string, sep: char)
    requires sep !in s
    ensures Split(s, sep) == [s]
  {
    if |s| > 0 {
      SplitNoSep(s[1..], sep);
      assert [s[0]] + s[1..] == s;
    }
  }

  /** Splitting `a + sep + b` where `a` has no separator gives `a` and then the parts of `b`. */
  lemma {:induction false} SplitAtFirstSep(a: string, b: string, sep: char)
    requires sep !in a
    ensures Split(a + [sep] + b, sep) == [a] + Split(b, sep)
  {
    if |a| == 0 {
      assert a + [sep] + b == [sep] + b;
      assert ([sep] + b)[1..] == b;
    } else {
      assert (a + [sep] + b)[1..] == a[1..] + [sep] + b;
      SplitAtFirstSep(a[1..], b, sep);
      assert [a[0]] + a[1..] == a;
    }
  }

  /** No part of a split contains the separator. */
  lemma {:induction false} SplitPartsNoSep(s: string, sep: char)
    ensures forall i :: 0 <= i < |Split(s, sep)| ==> sep !in Split(s, sep)[i]
  {
    if |s| > 0 {
      var rest := Split(s[1..], sep);
      SplitPartsNoSep(s[1..], sep);
      if s[0] != sep {
        var parts := [[s[0]] + rest[0]] + rest[1..];
        forall i | 0 <= i < |parts| ensures sep !in parts[i] {
          if i > 0 { assert parts[i] == rest[i]; }
        }
      }
    }
  }

  /** Splitting a join gives back the pieces, when no piece contains the separator. */
  lemma {:induction false} JoinThenSplit(xs: seq<string>, sep: char)
    requires |xs| > 0
    requires forall i :: 0 <= i < |xs| ==> sep !in xs[i]
    ensures Split(Join(xs, [sep]), sep) == xs
  {
    if |xs| == 1 {
      SplitNoSep(xs[0], sep);
    } else {
      JoinThenSplit(xs[1..], sep);
      SplitAtFirstSep(xs[0], Join(xs[1..], [sep]), sep);
      assert [xs[0]] + xs[1..] == xs;
    }
  }

  /** `JoinTrailing` is `Join` followed by one more separator. */
  lemma {:induction false} JoinTrailingIsJoinPlusSep(xs: seq<string>, sep: string)
    requires |xs| > 0
    ensures JoinTrailing(xs, sep) == Join(xs, sep) + sep
  {
    if |xs| > 1 {
      JoinTrailingIsJoinPlusSep(xs[1..], sep);
    }
  }

  // ---------------------------------------------------------------------------
  // White-space normalization

  /** The shape `Collapse` produces: white space only as single ASCII spaces, never two in a row. */
  predicate Squashed(s: string)
  {
    && (forall i :: 0 <= i < |s| && IsSpace(s[i]) ==> s[i] == ' ')
    && (forall i :: 0 <= i < |s| - 1 && IsSpace(s[i]) ==> !IsSpace(s[i + 1]))
  }

  lemma {:induction false} CollapseHead(s: string)
    ensures |Collapse(s)| > 0 ==> (IsSpace(Collapse(s)[0]) <==> |s| > 0 && IsSpace(s[0]))
    decreases |s|
  {
  }

  /** `Collapse` leaves no white-space run and no white space other than ASCII spaces. */
  lemma {:induction false} CollapseSquashes(s: string)
    ensures Squashed(Collapse(s))
    decreases |s|
  {
    if |s| > 0 {
      if IsSpace(s[0]) {
        var t := SkipSpaces(s[1..]);
        CollapseSquashes(t);
        CollapseHead(t);
        assert Collapse(s) == " " + Collapse(t);
      } else {
        CollapseSquashes(s[1..]);
        assert Collapse(s) == [s[0]] + Collapse(s[1..]);
      }
    }
  }

  /** On already squashed text `Collapse` changes nothing. */
  lemma {:induction false} CollapseFixesSquashed(s: string)
    requires Squashed(s)
    ensures Collapse(s) == s
    decreases |s|
  {
    if |s| > 0 {
      assert Squashed(s[1..]);
      CollapseFixesSquashed(s[1..]);
      if IsSpace(s[0]) {
        assert |s| > 1 ==> !IsSpace(s[1]);
        assert SkipSpaces(s[1..]) == s[1..];
      }
    }
  }

  lemma {:induction false} TrimEndKeepsSquashed(s: string)
    requires Squashed(s)
    ensures Squashed(TrimEnd(s))
    ensures |TrimEnd(s)| > 0 ==> !IsSpace(LastChar(TrimEnd(s)))
    ensures TrimEnd(s) == s[..|TrimEnd(s)|]
    decreases |s|
  {
    if |s| > 0 && IsSpace(s[|s| - 1]) {
      assert Squashed(s[..|s| - 1]);
      TrimEndKeepsSquashed(s[..|s| - 1]);
    }
  }

  lemma {:induction false} TrimEndNoTrailing(s: string)
    requires |s| == 0 || !IsSpace(LastChar(s))
    ensures TrimEnd(s) == s
  {
  }

  lemma {:induction false} SkipSpacesNoLeading(s: string)
    requires |s| == 0 || !IsSpace(s[0])
    ensures SkipSpaces(s) == s
  {
  }

  /** Trimmed squashed text: what `Normalize(_, false)` produces. */
  predicate Tidy(s: string)
  {
    Squashed(s) && (|s| > 0 ==> !IsSpace(s[0]) && !IsSpace(LastChar(s)))
  }

  lemma {:induction false} TrimOfSquashedIsTidy(s: string)
    requires Squashed(s)
    ensures Tidy(Trim(s))
  {
    var t := SkipSpaces(s);
    SkipSpacesSuffix(s);
    assert Squashed(t);
    TrimEndKeepsSquashed(t);
    var u := TrimEnd(t);
    if |u| > 0 {
      assert u[0] == t[0];
    }
  }

  /** `trim` after `replace(/\s+/g, " ")` yields tidy text. */
  lemma CollapseTrimIsTidy(s: string)
    ensures Tidy(Trim(Collapse(s)))
  {
    CollapseSquashes(s);
    TrimOfSquashedIsTidy(Collapse(s));
  }

  /** Tidy text is left alone by collapse-then-trim. */
  lemma TidyFixed(s: string)
    requires Tidy(s)
    ensures Trim(Collapse(s)) == s
  {
    CollapseFixesSquashed(s);
    SkipSpacesNoLeading(s);
    TrimEndNoTrailing(s);
  }

  lemma {:induction false} CountAbsent(c: char, s: string)
    requires c !in s
    ensures Count(c, s) == 0
  {
    if |s| > 0 {
      CountAbsent(c, s[1..]);
    }
  }

  /** Appending one more piece to a trailing-separator join appends the piece and a separator. */
  lemma {:induction false} JoinTrailingSnoc(xs: seq<string>, x: string, sep: string)
    ensures JoinTrailing(xs + [x], sep) == JoinTrailing(xs, sep) + x + sep
  {
    if |xs| > 0 {
      assert (xs + [x])[1..] == xs[1..] + [x];
      JoinTrailingSnoc(xs[1..], x, sep);
    }
  }

  /** A join of several pieces starts with the first piece. */
  lemma {:induction false} JoinStartsWithHead(xs: seq<string>, sep: string)
    requires |xs| > 0
    ensures StartsWith(Join(xs, sep), xs[0])
  {
    if |xs| > 1 {
      assert Join(xs, sep) == xs[0] + (sep + Join(xs[1..], sep));
    }
  }

  /**
   * Stripping the end commas of a trailing-comma join leaves the plain join, when the
   * first piece does not itself begin with a comma.
   */
  lemma StripJoinTrailing(xs: seq<string>)
    requires |xs| > 0 ==> |xs[0]| > 0 && xs[0][0] != ','
    ensures StripCommaEnds(JoinTrailing(xs, ",")) == Join(xs, ",")
  {
    if |xs| > 0 {
      JoinTrailingIsJoinPlusSep(xs, ",");
      JoinStartsWithHead(xs, ",");
      var j := Join(xs, ",");
      assert j[0] == xs[0][0];
      assert (j + ",")[..|j|] == j;
    }
  }

  /** Joining one more piece appends the separator and the piece. */
  lemma {:induction false} JoinSnoc(xs: seq<string>, x: string, sep: string)
    requires |xs| > 0
    ensures Join(xs + [x], sep) == Join(xs, sep) + sep + x
  {
    if |xs| == 1 {
      assert (xs + [x])[1..] == [x];
    } else {
      assert (xs + [x])[1..] == xs[1..] + [x];
      JoinSnoc(xs[1..], x, sep);
    }
  }

  /** A join splits at any piece boundary into the join of the pieces before and after it. */
  lemma {:induction false} JoinSplitAt(xs: seq<string>, k: nat, sep: string)
    requires 0 < k < |xs|
    ensures Join(xs, sep) == Join(xs[..k], sep) + sep + Join(xs[k..], sep)
  {
    if k == 1 {
      assert xs[..1] == [xs[0]];
      assert xs[1..] == xs[k..];
    } else {
      JoinSplitAt(xs[1..], k - 1, sep);
      assert xs[1..][..k - 1] == xs[1..k];
      assert xs[1..][k - 1..] == xs[k..];
      assert xs[..k][1..] == xs[1..k];
    }
  }

  /** Lower-casing is idempotent. */
  lemma {:induction false} ToLowerIdempotent(s: string)
    ensures ToLower(ToLower(s)) == ToLower(s)
  {
    if |s| > 0 {
      ToLowerIdempotent(s[1..]);
      assert ToLower(s)[1..] == ToLower(s[1..]);
    }
  }

  lemma AppendAssoc(a: string, b: string, c: string)
    ensures a + b + c == a + (b + c)
  {
  }
}

=== FILE: utilities.dfy ===
/**
 * The two pure helpers of the utility module: `addTaxonRank`, which guesses a rank from the
 * number of tokens in a canonical name, and `jsonToString`, which flattens an object into a
 * delimited column list and a delimited value list.
 */
module Utilities {
  import opened Wrappers
  import opened Text
  import opened Js

  // ---------------------------------------------------------------------------
  // addTaxonRank

  /** The ranks `addTaxonRank` can answer. */
  datatype Guess = Genus | Species | Subspecies | Variety | Error

  /** The rank as the string the code returns and assigns. */
  function RankName(g: Guess): string
  {
    match g
    case Genus => "genus"
    case Species => "species"
    case Subspecies => "subspecies"
    case Variety => "variety"
    case Error => "error"
  }

  /** How many name tokens each guessed rank stands for. */
  function TokensOfRank(g: Guess): nat
  {
    match g
    case Genus => 1
    case Species => 2
    case Subspecies => 3
    case Variety => 3
    case Error => 0
  }

  /**
   * The `switch` on the token count. A three-token name is a variety in the plant kingdom and
   * a subspecies elsewhere; a kingdom that is truthy but not a string has no `toLowerCase`,
   * and the throw is caught as `error`, like every count outside one to three.
   */
  function RankForTokens(count: nat, kingdom: Value): Guess
  {
    if count == 3 then
      if !Truthy(kingdom) then Subspecies
      else if !kingdom.Str? then Error
      else if ToLower(kingdom.s) == "plantae" then Variety
      else Subspecies
    else if count == 2 then Species
    else if count == 1 then Genus
    else Error
  }

  /** What `addTaxonRank` returns, and the record with `taxonRank` assigned. */
  datatype Ranked = Ranked(rank: Guess, src: Obj<Value>)

  /**
   * `addTaxonRank(src)` for a record that has a canonical name. Whatever happens inside, the
   * record's `taxonRank` ends up equal to the returned rank, and nothing else changes.
   */
  function AddTaxonRank(src: Obj<Value>): (r: Ranked)
    requires Truthy(Field(src, "canonicalName"))
    ensures Field(r.src, "taxonRank") == Str(RankName(r.rank))
    ensures forall k :: k != "taxonRank" ==> Lookup(r.src, k) == Lookup(src, k)
  {
    var canon := Field(src, "canonicalName");
    var rank := if canon.Str? then RankForTokens(|Split(canon.s, ' ')|, Field(src, "kingdom")) else Error;
    Ranked(rank, Put(src, "taxonRank", Str(RankName(rank))))
  }

  /**
   * The rank tells the token count: a guessed rank other than `error` has exactly as many
   * tokens as it stands for, and `error` comes exactly from a count outside one to three, a
   * canonical name that is not a string, or a three-token name whose kingdom is not a string.
   */
  lemma RankTellsTokenCount(src: Obj<Value>)
    requires Truthy(Field(src, "canonicalName"))
    ensures var r := AddTaxonRank(src);
            var canon := Field(src, "canonicalName");
            var kingdom := Field(src, "kingdom");
            && (r.rank != Error ==> canon.Str? && |Split(canon.s, ' ')| == TokensOfRank(r.rank))
            && (r.rank == Error <==>
                  || !canon.Str?
                  || !(1 <= |Split(canon.s, ' ')| <= 3)
                  || (|Split(canon.s, ' ')| == 3 && Truthy(kingdom) && !kingdom.Str?))
            && (r.rank == Variety <==>
                  canon.Str? && |Split(canon.s, ' ')| == 3 && kingdom.Str? && ToLower(kingdom.s) == "plantae")
  {
    var canon := Field(src, "canonicalName");
    var r := AddTaxonRank(src);
    if canon.Str? {
      assert r.rank == RankForTokens(|Split(canon.s, ' ')|, Field(src, "kingdom"));
      CountTellsRank(|Split(canon.s, ' ')|, Field(src, "kingdom"));
    } else {
      assert r.rank == Error;
    }
  }

  /** The token-count switch alone: which counts and kingdoms give each guess. */
  lemma CountTellsRank(count: nat, kingdom: Value)
    ensures var g := RankForTokens(count, kingdom);
            && (g != Error ==> count == TokensOfRank(g))
            && (g == Error <==> !(1 <= count <= 3) || (count == 3 && Truthy(kingdom) && !kingdom.Str?))
            && (g == Variety <==> count == 3 && kingdom.Str? && ToLower(kingdom.s) == "plantae")
  {
  }

  /** The kingdom is compared without regard to case. */
  lemma KingdomIgnoresCase(count: nat, kingdom: string)
    ensures RankForTokens(count, Str(kingdom)) == RankForTokens(count, Str(ToLower(kingdom)))
  {
    ToLowerIdempotent(kingdom);
  }

  // ---------------------------------------------------------------------------
  // jsonToString

  /** `s.substring(0, 1)`: the first character, or `''`. */
  function FirstChar(s: string): string
  {
    if |s| > 0 then [s[0]] else ""
  }

  /** `s.substring(s.length - 1, s.length)`: the last character, or `''`. */
  function LastOne(s: string): string
  {
    if |s| > 0 then [s[|s| - 1]] else ""
  }

  /** A non-numeric string is wrapped in double quotes unless either end already is one. */
  function QuoteUnlessQuoted(s: string): (f: string)
    ensures FirstChar(s) == "\"" || LastOne(s) == "\"" ==> f == s
    ensures FirstChar(s) != "\"" && LastOne(s) != "\"" ==> |f| == |s| + 2 && f[1..|f| - 1] == s && f[0] == '"' && f[|f| - 1] == '"'
    ensures |f| > 0 ==> f[0] == '"' || f[|f| - 1] == '"'
  {
    if FirstChar(s) != "\"" && LastOne(s) != "\"" then "\"" + s + "\"" else s
  }

  /**
   * One value as written into the value list; `None` where the code throws. `numeric(s)`
   * stands for `!isNaN(s)` on a string. Numbers, booleans and `''` are not `NaN` and are
   * written as they print; `null` and `undefined` become `''`; an `Opaque` value is taken
   * to be `NaN` and has no `substring`, so it throws.
   */
  function Cell(v: Value, numeric: string -> bool): Option<string>
  {
    match v
    case Undefined => Some("")
    case Null => Some("")
    case Bool(b) => Some(if b then "true" else "false")
    case Num(n) => Some(IntToString(n))
    case Str(s) => Some(if numeric(s) then s else QuoteUnlessQuoted(s))
    case Opaque => None
  }

  /** The cells of all values, in key order; `None` at the first one that throws. */
  function Cells(obj: Obj<Value>, numeric: string -> bool): (cs: Option<seq<string>>)
    ensures cs.Some? ==> |cs.value| == |obj|
    ensures cs.Some? ==> forall i :: 0 <= i < |obj| ==> Cell(obj[i].1, numeric) == Some(cs.value[i])
    ensures cs.None? <==> exists i :: 0 <= i < |obj| && obj[i].1.Opaque?
  {
    if |obj| == 0 then Some([])
    else
      var n := |obj| - 1;
      match Cells(obj[..n], numeric)
      case None => None
      case Some(prev) =>
        match Cell(obj[n].1, numeric)
        case None => None
        case Some(c) => Some(prev + [c])
  }

  /** The returned `{values, columns}` strings. */
  datatype Flattened = Flattened(values: string, columns: string)

  /**
   * `jsonToString(obj, delim)`: each cell and each key followed by the delimiter, then one
   * leading and one trailing comma removed from each list; `None` stands for the
   * `{values: null, columns: null}` of the `catch`.
   */
  function JsonToString(obj: Obj<Value>, delim: string, numeric: string -> bool): (r: Option<Flattened>)
    ensures r.None? <==> exists i :: 0 <= i < |obj| && obj[i].1.Opaque?
    ensures r.Some? ==> r.value.columns == StripCommaEnds(JoinTrailing(Keys(obj), delim))
  {
    match Cells(obj, numeric)
    case None => None
    case Some(cs) =>
      Some(Flattened(StripCommaEnds(JoinTrailing(cs, delim)), StripCommaEnds(JoinTrailing(Keys(obj), delim))))
  }

  /**
   * With the default `,` delimiter, when the first cell and the first key are non-empty and
   * do not start with a comma, the lists are the cells and the keys joined by commas: one
   * entry per key, in the same order, and no trailing comma.
   */
  lemma CommaListsAreJoins(obj: Obj<Value>, numeric: string -> bool)
    requires JsonToString(obj, ",", numeric).Some?
    requires |obj| > 0 ==> |obj[0].0| > 0 && obj[0].0[0] != ','
    requires |obj| > 0 ==> var c := Cell(obj[0].1, numeric).value; |c| > 0 && c[0] != ','
    ensures var r := JsonToString(obj, ",", numeric).value;
            var cs := Cells(obj, numeric).value;
            && |cs| == |Keys(obj)|
            && r.values == Join(cs, ",")
            && r.columns == Join(Keys(obj), ",")
  {
    var cs := Cells(obj, numeric).value;
    StripJoinTrailing(cs);
    StripJoinTrailing(Keys(obj));
  }

  /**
   * Any other delimiter that does not end in a comma stays after the last entry, since only
   * commas are stripped; when the first entry does not start with a comma the list is every
   * entry followed by the delimiter.
   */
  lemma {:induction false} OtherDelimiterKeepsTrailing(obj: Obj<Value>, delim: string, numeric: string -> bool)
    requires JsonToString(obj, delim, numeric).Some?
    requires |delim| > 0 && delim[|delim| - 1] != ','
    requires |obj| > 0 ==> var c := Cell(obj[0].1, numeric).value; |c| > 0 && c[0] != ','
    ensures var r := JsonToString(obj, delim, numeric).value;
            r.values == JoinTrailing(Cells(obj, numeric).value, delim)
  {
    var cs := Cells(obj, numeric).value;
    if |cs| > 0 {
      JoinTrailingEndsWith(cs, delim);
      JoinStartsWithHeadTrailing(cs, delim);
    }
  }

  /** The list built with `+= x + delim` ends with the delimiter. */
  lemma {:induction false} JoinTrailingEndsWith(xs: seq<string>, delim: string)
    requires |xs| > 0
    ensures var j := JoinTrailing(xs, delim);
            |j| >= |delim| && j[|j| - |delim|..] == delim
  {
    if |xs| > 1 {
      JoinTrailingEndsWith(xs[1..], delim);
      var rest := JoinTrailing(xs[1..], delim);
      AppendAssoc(xs[0], delim, rest);
      assert JoinTrailing(xs, delim) == (xs[0] + delim) + rest;
      var j := JoinTrailing(xs, delim);
      assert j[|j| - |delim|..] == rest[|rest| - |delim|..];
    } else {
      assert JoinTrailing(xs, delim) == xs[0] + delim + "";
    }
  }

  /** The list built with `+= x + delim` starts with the first entry. */
  lemma JoinStartsWithHeadTrailing(xs: seq<string>, delim: string)
    requires |xs| > 0
    ensures var j := JoinTrailing(xs, delim);
            |j| >= |xs[0]| && j[..|xs[0]|] == xs[0]
  {
    var rest := JoinTrailing(xs[1..], delim);
    AppendAssoc(xs[0], delim, rest);
  }

  // ---------------------------------------------------------------------------
  // The leading empty value

  /**
   * An object whose first value is `null` loses that value: its cell is `''`, so the value
   * list starts with the delimiter, and the leading comma is stripped with it. Two columns
   * are left with one value.
   */
  lemma LeadingEmptyValueDropped(numeric: string -> bool)
    ensures JsonToString([("a", Null), ("b", Bool(true))], ",", numeric) == Some(Flattened("true", "a,b"))
  {
    var obj := [("a", Null), ("b", Bool(true))];
    CellsOfExample(numeric);
    assert Keys(obj) == ["a", "b"];
    assert JoinTrailing(["true"], ",") == "true,";
    assert JoinTrailing(["", "true"], ",") == ",true,";
    assert JoinTrailing(["b"], ",") == "b,";
    assert JoinTrailing(["a", "b"], ",") == "a,b,";
    assert ",true,"[1..] == "true," && "true,"[..4] == "true";
    assert StripCommaEnds(",true,") == "true";
    assert "a,b,"[..3] == "a,b";
    assert StripCommaEnds("a,b,") == "a,b";
  }

  lemma CellsOfExample(numeric: string -> bool)
    ensures Cells([("a", Null), ("b", Bool(true))], numeric) == Some(["", "true"])
  {
    var obj := [("a", Null), ("b", Bool(true))];
    assert obj[..1] == [("a", Null)] && obj[..1][..0] == [];
    assert Cells(obj[..1][..0], numeric) == Some([]);
    assert Cells(obj[..1], numeric) == Some([] + [""]);
    assert [] + [""] == [""] && [""] + ["true"] == ["", "true"];
    assert Cells(obj, numeric) == Some([""] + ["true"]);
  }

  /** `s.replace(/,$/, "")`: only a trailing comma is removed. */
  function StripTrailingComma(s: string): string
  {
    if |s| > 0 && s[|s| - 1] == ',' then s[..|s| - 1] else s
  }

  /** `jsonToString` with only the trailing delimiter removed, which keeps a leading empty value. */
  function JsonToStringKeepingLeading(obj: Obj<Value>, delim: string, numeric: string -> bool): (r: Option<Flattened>)
    ensures r.None? <==> exists i :: 0 <= i < |obj| && obj[i].1.Opaque?
  {
    match Cells(obj, numeric)
    case None => None
    case Some(cs) =>
      Some(Flattened(StripTrailingComma(JoinTrailing(cs, delim)), StripTrailingComma(JoinTrailing(Keys(obj), delim))))
  }

  /**
   * With the `,` delimiter the corrected lists are always the cells and the keys joined by
   * commas, one entry per key in the same order, whatever the first entry is.
   */
  lemma {:induction false} KeepingLeadingListsAreJoins(obj: Obj<Value>, numeric: string -> bool)
    requires JsonToStringKeepingLeading(obj, ",", numeric).Some?
    ensures var r := JsonToStringKeepingLeading(obj, ",", numeric).value;
            var cs := Cells(obj, numeric).value;
            && |cs| == |Keys(obj)|
            && r.values == Join(cs, ",")
            && r.columns == Join(Keys(obj), ",")
  {
    var cs := Cells(obj, numeric).value;
    TrailingCommaStripped(cs);
    TrailingCommaStripped(Keys(obj));
  }

  lemma TrailingCommaStripped(xs: seq<string>)
    ensures StripTrailingComma(JoinTrailing(xs, ",")) == Join(xs, ",")
  {
    if |xs| > 0 {
      JoinTrailingIsJoinPlusSep(xs, ",");
      var j := Join(xs, ",");
      assert (j + ",")[..|j|] == j;
    }
  }

  /** On the counterexample the corrected lists keep the empty first value. */
  lemma LeadingEmptyValueKept(numeric: string -> bool)
    ensures JsonToStringKeepingLeading([("a", Null), ("b", Bool(true))], ",", numeric) == Some(Flattened(",true", "a,b"))
  {
    var obj := [("a", Null), ("b", Bool(true))];
    KeepingLeadingListsAreJoins(obj, numeric);
    CellsOfExample(numeric);
    assert Keys(obj) == ["a", "b"];
    assert Join(["", "true"], ",") == ",true";
    assert Join(["a", "b"], ",") == "a,b";
  }
}

=== FILE: wrappers.dfy ===
/**
 * Failure-carrying result types shared by every module of the model.
 */
module Wrappers {

  /** A value that may be absent: JavaScript's `null`/`undefined` where only presence matters. */
  datatype Option<+T> = None | Some(value: T)

  /** The outcome of an operation that may throw in the source. */
  datatype Result<+R, +E> = Success(value: R) | Failure(error: E)
}
